=== FILE: README.md ===
# Concat — a verified model of its compression pipeline and file walk

Concat is a command-line tool. It walks a directory tree and writes every
file that passes its filters into one output text. For each kept file it
writes the path, the content and an empty line. A file is dropped when it
looks binary, unless binary files are asked for, or when it matches an
exclude pattern and no include pattern. The repository also holds a staged
text compressor, `Compress.CompressOutput`, with five levels. Each level
pipes the text through a fixed chain of stages:
- removing comments;
- collapsing white space;
- shortening paths;
- replacing versions, GUIDs, timestamps, accessor prefixes, long literals and large numbers;
- truncating long text;
- abbreviating common words;
- dropping non-essential lines;
- summarising repeated lines.

This project models that core in Dafny.

| file | module | models |
|---|---|---|
| `seqs.dfy` | `Seqs` | the LINQ `Where` filter and the subsequence relation |
| `strings.dfy` | `Strings` | the .NET string operations used: `Split`, `Join`, `TrimStart`/`TrimEnd`, `IsNullOrWhiteSpace`, `StartsWith`, `Contains`, white-space and regex character classes, integer formatting |
| `stages.dfy` | `Stages` | `CompressWhitespace`, `TruncateLongLines`, `ShortenPath`, `RemoveNonEssentialInformation` |
| `regexes.dfy` | `Regexes` | the leftmost, non-overlapping scan of `Regex.Replace` and the matchers of the version, GUID, timestamp, accessor, literal, number and word patterns |
| `comments.dfy` | `Comments` | `RemoveComments` (its two regular expressions as scanners) |
| `repetitive_info.dfy` | `RepetitiveInfo` | `RemoveRepetitiveInfo` (its six regular expressions as scanners) |
| `abbreviations.dfy` | `Abbreviations` | `AbbreviateCommonWords`: the dictionary and its replacement loop |
| `summarize.dfy` | `Summarize` | `SummarizeRepeatedPatterns`: its index loop and a run-by-run specification |
| `compress.dfy` | `Compress` | `CompressOutput`, the level chains and `Pipe` |
| `globbing.dfy` | `Globbing` | `Globber`: pattern splitting, blank filtering, `IsMatch` |
| `inclusion.dfy` | `Inclusion` | `IsPrintable`, `IsBinary`, `ShouldBeIncluded`, the sorted directory candidates |
| `emission.dfy` | `Emission` | `ProcessAndWriteFileAsync` and the nested directory and file loops, writing to a `Writer` object |

Each regular expression is modelled as an explicit left-to-right scanner. The
scanner takes the leftmost match and follows the same greedy or lazy
repetition as the .NET engine.

The methods follow the source's loops:
- `Summarize.SummarizeRepeatedPatterns` keeps the counter and output list;
- `Abbreviations.AbbreviateCommonWords` replaces one dictionary entry after another;
- `Inclusion.IsBinary` counts the sample;
- the `Emission` methods run the directory and file loops.

Each method is proved equal to a specification function. The properties are
then proved about those functions.

Some behaviours of the code differ from what its own messages, names and
patterns suggest; the model follows the code as written:
- **Repeat summary.** The marker `[Previous line repeated n times]`
  (Compress.cs:177, :186) speaks of the line before it, yet
  `SummarizeRepeatedPatterns` writes it *before* the repeated line, because
  the marker is added when the run ends and the line only afterwards
  (Compress.cs:174-179). A run that ends the text writes the
  marker only, and the line itself is lost (`Summarize.SummarizeTrailingRun`,
  `Summarize.SummarizedTrailingPair`).
- **Extreme compression.** `CompressWhitespace` runs first and replaces every
  line break by a space. So at the Extreme level the line filter and the
  repeat summary always see a single line: the line is kept or emptied, and
  it is never summarised (`Compress.ExtremeIsOneLine`). Every compressing
  level returns one line (`Compress.CompressOutputOneLine`).
- **Line comments.** `//.*$` is applied without multi-line mode. `$` then
  matches only at the end of the text or before a final line break. So only
  a comment on the last line is removed; comments on earlier lines stay
  (`Comments.EarlierLineCommentKept`, `Comments.LastLineCommentStripped`).
- **Tabs.** `IsPrintable` treats the tab byte as non-printable. A sample made
  mostly of indentation tabs is therefore classified as binary
  (`Inclusion.TabIndentedSampleIsBinary`).

## Model

| member | source | states |
|---|---|---|
| `Seqs.Filter` | Compress.cs:63-71 | LINQ `Where`: never longer than the input, every kept element satisfies the test, and every element that satisfies it is kept |
| `Seqs.FilterIsSubsequence` | Compress.cs:63-71 | the kept elements keep their input order |
| `Strings.Split` | Compress.cs:62 | `Split` without options: at least one piece, and no piece holds a separator |
| `Strings.Tokens` | Globber.cs:8 | `Split` with `RemoveEmptyEntries`: every piece is non-empty and free of separators |
| `Strings.Join` | Compress.cs:72 | `string.Join`: the pieces with one separator between neighbours |
| `Strings.JoinSplit` | Compress.cs:62-72 | joining the pieces of a split restores the text |
| `Strings.SplitJoin` | Compress.cs:62-72 | splitting a join of separator-free pieces returns the pieces |
| `Strings.TrimStart` | Compress.cs:64 | `TrimStart()` drops exactly the leading white space: the result is a suffix that does not start with white space, and everything dropped is white space |
| `Strings.IsBlank` | Compress.cs:65 | `string.IsNullOrWhiteSpace`: every character is white space, so the empty text is blank |
| `Strings.StartsWith` | Compress.cs:64 | `StartsWith`: the text begins with the prefix, character by character |
| `Strings.Contains` | Compress.cs:68 | `Contains`: the part starts at some position of the text |
| `Stages.CollapseWhiteSpace` | Compress.cs:104 | replacing each white-space run by one space leaves no two adjacent white-space characters; it never lengthens the text, keeps it empty exactly when it was empty, and starts with white space exactly when the input does |
| `Stages.Trim` | Compress.cs:104 | `Trim()` leaves no white space at either end, never lengthens, and keeps a single-spaced text single-spaced |
| `Stages.CompressWhitespace` | Compress.cs:102-105 | the result is single-spaced, trimmed, holds no line break and is never longer than the input |
| `Stages.CollapseKeepsVisible` | Compress.cs:104 | collapsing white space keeps every non-white-space character, in order |
| `Stages.TrimKeepsVisible` | Compress.cs:104 | trimming keeps every non-white-space character, in order |
| `Stages.CompressWhitespaceKeepsVisible` | Compress.cs:102-105 | the stage removes only white space: the non-white-space characters are unchanged and in order |
| `Stages.CompressWhitespaceKeepsTokens` | Compress.cs:102-105 | the words are kept: split at white space, the result has the same non-empty pieces as the input, so no white-space run disappears |
| `Stages.CollapseFixesSingleSpaced` | Compress.cs:104 | a text without adjacent white space is left unchanged by the collapse |
| `Stages.CompressWhitespaceFixesNormal` | Compress.cs:102-105 | a single-spaced, trimmed text is a fixed point of the stage |
| `Stages.CompressWhitespaceIdempotent` | Compress.cs:102-105 | applying the stage twice equals applying it once |
| `Stages.TruncateLongLines` | Compress.cs:96-100 | a text of at most 100 characters is returned unchanged; a longer one becomes its first 100 characters followed by "...", 103 in all; no line break is introduced |
| `Stages.TruncateLongLinesIdempotent` | Compress.cs:96-100 | a truncated text is not truncated again |
| `Stages.Segments` | Compress.cs:82 | splitting at `/` and `\` with empty entries removed yields non-empty pieces free of both separators |
| `Stages.ShortenPath` | Compress.cs:80-85 | with at most two segments the text is returned as it is; otherwise it is the first segment, "/.../" and the last segment; no line break is introduced |
| `Stages.ShortenedSegments` | Compress.cs:82-84 | the shortened form has exactly the segments first, "..." and last |
| `Stages.ShortenPathIdempotent` | Compress.cs:80-85 | shortening a shortened path changes nothing |
| `Stages.Lines` | Compress.cs:62 | splitting at '\n' yields at least one line and no line holds a line break |
| `Stages.KeptLinesHaveNoBreak` | Compress.cs:62-71 | every kept line is free of line breaks |
| `Stages.IsEssential` | Compress.cs:63-71 | a line is kept unless, after its leading white space, it starts with `using`, `//` or `Console.WriteLine`, or it is blank, or it contains `Exception`, `catch` or `try` |
| `Stages.RemoveNonEssentialInformation` | Compress.cs:58-73 | the essential lines of the text, joined by line breaks |
| `Stages.RemoveNonEssentialKeepsEssential` | Compress.cs:58-73 | the output is empty exactly when no line is essential, and otherwise its lines are exactly the essential input lines, in order |
| `Stages.RemoveNonEssentialLines` | Compress.cs:58-73 | the output lines are a subsequence of the input lines and all essential, and every essential input line appears; an output with no essential line is empty |
| `Stages.RemoveNonEssentialIdempotent` | Compress.cs:58-73 | filtering the lines a second time changes nothing |
| `Stages.RemoveNonEssentialSingleLine` | Compress.cs:58-73 | a single line is kept when essential and emptied otherwise |
| `Comments.LastLineEnd` | Compress.cs:90 | where `$` can match: the end of the text, or just before a final line break |
| `Comments.LineStart` | Compress.cs:90 | the start of the line that ends at a position: no line break lies between, and a line break (or the start of the text) precedes it |
| `Comments.FindLineComment` | Compress.cs:90 | returns the first `//` that lies wholly in the searched range, or reports that the range has none |
| `Comments.RemoveLineComment` | Compress.cs:90 | every line before the last is kept verbatim; without `//` on the last line the text is unchanged; otherwise the last line is cut at its first `//` up to the end of that line, a final line break kept; on a single line no `//` and no line break remain |
| `Comments.EarlierLineCommentKept` | Compress.cs:90 | a `//` comment on an earlier line is not removed |
| `Comments.LastLineCommentStripped` | Compress.cs:90 | a `//` comment on the last line is removed up to the end of the text |
| `Comments.FindBlockEnd` | Compress.cs:92 | returns the first `*/` reached before any line break; none when a line break or the end of the text comes first |
| `Comments.RemoveBlockComments` | Compress.cs:92 | the result is never longer than the text |
| `Comments.BlockCommentShift` | Compress.cs:92 | a block comment found in a suffix is a block comment of the whole text, and back |
| `Comments.BlockCommentsKeepPrefix` | Compress.cs:92 | positions where no block comment opens are copied unchanged |
| `Comments.BlockCommentsLeftmost` | Compress.cs:92 | the text before the leftmost block comment is kept, the comment (from `/*` to the nearest `*/` on its line) is removed, and the scan resumes after it |
| `Comments.BlockCommentsNone` | Compress.cs:92 | a text in which no block comment matches is unchanged |
| `Comments.BlockCommentsNoOpening` | Compress.cs:92 | a text without `/*` is unchanged |
| `Comments.BlockCommentsNoNewSlashes` | Compress.cs:92 | removing block comments creates no `//` |
| `Comments.BlockCommentsOneLine` | Compress.cs:92 | removing block comments creates no line break |
| `Comments.ClosedBlockCommentRemoved` | Compress.cs:92 | "x /* y */ z " becomes "x  z " |
| `Comments.OpenBlockCommentKept` | Compress.cs:92 | "a /* b" is unchanged: an unclosed comment does not match |
| `Comments.RemoveComments` | Compress.cs:87-94 | never lengthens; on a single line the result holds no `//` and no line break |
| `Comments.RemoveCommentsWithoutSlashes` | Compress.cs:87-94 | on a single line without `//`, exactly the block comments are removed |
| `Comments.RemoveCommentsCutsAtSlashes` | Compress.cs:87-94 | on a single line whose first `//` is at k, the result is the first k characters with their block comments removed |
| `Comments.BothCommentKindsRemoved` | Compress.cs:87-94 | "x /* y */ z // w" becomes "x  z " |
| `Regexes.ReplaceAll` | Compress.cs:141-156 | `Regex.Replace` as a left-to-right scan: at each position the pattern's match, if any, is rewritten and the scan resumes after it; otherwise the character is kept |
| `Regexes.MatchAt` | Compress.cs:141-156 | the length of the match at a position, never past the end of the text |
| `Regexes.ReplaceAllStep` | Compress.cs:141-156 | where nothing matches, the scan keeps the character and moves one position on |
| `Regexes.ReplaceAllMatched` | Compress.cs:141-156 | where a match starts, the scan writes its rewrite and resumes after the match |
| `Regexes.ReplaceAllKeepPrefix` | Compress.cs:141-156 | a stretch of positions where nothing matches is copied unchanged |
| `Regexes.ReplaceAllLeftmost` | Compress.cs:141-156 | the text before the leftmost match is kept, the match is rewritten, and the rest is scanned on its own |
| `Regexes.ReplaceAllNone` | Compress.cs:141-156 | a text in which the pattern matches nowhere is unchanged |
| `Regexes.ReplaceAllIgnoresWordBefore` | Compress.cs:141-153 | a pattern without `\b` does not depend on the character before the text |
| `Regexes.ReplaceAllLeftmostConstant` | Compress.cs:141-153 | for a constant replacement without `\b`, the leftmost match becomes the replacement and the rest is scanned as a text of its own |
| `Regexes.ReplaceAllLeftmostConstantWord` | Compress.cs:156 | for a constant replacement whose match ends with a word character, the rest is scanned as a text that follows a word |
| `Regexes.ReplaceAllLeftmostKeepLast` | Compress.cs:150 | a match replaced by `$2` shrinks to its last character and the rest is scanned after a word |
| `Regexes.ReplaceAllInsideWord` | Compress.cs:150-156 | a pattern that begins with `\b` replaces nothing inside a word |
| `Regexes.ReplaceAllFrame` | Compress.cs:141-156 | a text lacking every character that each match must contain is unchanged |
| `Regexes.ReplaceAllOneLine` | Compress.cs:141-156 | a rewrite that brings no line break into one line keeps the text on one line |
| `Regexes.ReplaceAllNeverLonger` | Compress.cs:141-156 | when every rewrite is no longer than its match, the text never grows |
| `Regexes.DigitRun` | Compress.cs:141 | the greedy `\d+`: every counted character is a digit and the next one is not |
| `Regexes.DotDigits` | Compress.cs:141 | `\.\d+` matches exactly where a dot is followed by a digit, and then takes the dot and all the digits after it |
| `Regexes.VersionMatch` | Compress.cs:141 | a match starts with a digit, spans at least five characters and is a version number; every prefix that is a version number is no longer (the match is the longest) |
| `Regexes.VersionMatchAt` | Compress.cs:141 | the scanner matches at a position exactly the version numbers there, at their greedy length |
| `Regexes.VersionAtMatch` | Compress.cs:141 | a version number at a position is what the scanner matches there |
| `Regexes.StartsWithShapeAt` | Compress.cs:144-147 | a fixed shape at the start of a suffix is the shape at that position of the text |
| `Regexes.GuidMatchAt` | Compress.cs:144 | the scanner matches 36 characters exactly where the 8-4-4-4-12 hexadecimal GUID shape fits, and nothing elsewhere |
| `Regexes.TimestampMatchAt` | Compress.cs:147 | the scanner matches 19 characters exactly where `dddd-dd-dd dd:dd:dd` fits, and nothing elsewhere |
| `Regexes.AccessorPrefix` | Compress.cs:150 | a match is one of `get`, `set`, `on`, `handle` followed by an upper-case letter, and any such prefix is the one matched |
| `Regexes.AccessorMatchAt` | Compress.cs:150 | the scanner matches at a position exactly an accessor prefix that starts a word there, with its letter |
| `Regexes.NextQuote` | Compress.cs:153 | returns the first double quote at or after a position, or reports there is none |
| `Regexes.MatchLongLiteral` | Compress.cs:153 | a match starts with a double quote and spans at least 22 characters |
| `Regexes.LongLiteralMatchAt` | Compress.cs:153 | the scanner matches at a position exactly a quote, at least 20 non-quote characters and the closing quote |
| `Regexes.LargeNumberMatchAt` | Compress.cs:156 | every match is a run of at least five digits that starts and ends a word |
| `Regexes.LargeNumberAtMatch` | Compress.cs:156 | such a run is what the scanner matches |
| `Regexes.WordMatchAt` | Compress.cs:132 | the scanner matches a key exactly where it stands, in any case, as a whole word |
| `Regexes.MatchersAnchored` | Compress.cs:141-156 | every match holds its pattern's anchor: a digit and a dot for versions, a hyphen for GUIDs and timestamps, an upper-case letter for accessors, a quote for literals, a digit for large numbers |
| `Regexes.MatchersShorten` | Compress.cs:141-153 | the first five placeholders are never longer than the matches they replace |
| `RepetitiveInfo.ReplaceVersions` | Compress.cs:141 | introduces no line break |
| `RepetitiveInfo.ReplaceVersionsLeftmost` | Compress.cs:141 | the text before the first version number is kept, the number becomes "X.X.X", and the rest is processed the same way |
| `RepetitiveInfo.ReplaceVersionsNone` | Compress.cs:141 | a text with no version number is unchanged |
| `RepetitiveInfo.VersionExample` | Compress.cs:141 | "v1.2.3" becomes "vX.X.X": no word boundary is needed |
| `RepetitiveInfo.ReplaceGuids` | Compress.cs:144 | introduces no line break |
| `RepetitiveInfo.ReplaceGuidsLeftmost` | Compress.cs:144 | the text before the first GUID is kept, the GUID becomes "GUID", and the rest is processed the same way |
| `RepetitiveInfo.ReplaceGuidsNone` | Compress.cs:144 | a text with no GUID is unchanged |
| `RepetitiveInfo.GuidBetween` | Compress.cs:144 | a GUID between a non-hexadecimal character and any other character becomes "GUID" |
| `RepetitiveInfo.GuidExample` | Compress.cs:144 | "[0123abcd-4567-89ef-ABCD-0123456789ab]" becomes "[GUID]" |
| `RepetitiveInfo.ReplaceTimestamps` | Compress.cs:147 | introduces no line break |
| `RepetitiveInfo.ReplaceTimestampsLeftmost` | Compress.cs:147 | the text before the first timestamp is kept, the timestamp becomes "TIMESTAMP", and the rest is processed the same way |
| `RepetitiveInfo.ReplaceTimestampsNone` | Compress.cs:147 | a text with no timestamp is unchanged |
| `RepetitiveInfo.TimestampBetween` | Compress.cs:147 | a timestamp between a non-digit and any other character becomes "TIMESTAMP" |
| `RepetitiveInfo.TimestampExample` | Compress.cs:147 | "(2024-01-02 03:04:05)" becomes "(TIMESTAMP)" |
| `RepetitiveInfo.StripAccessorPrefixes` | Compress.cs:150 | introduces no line break |
| `RepetitiveInfo.StripAccessorPrefixesLeftmost` | Compress.cs:150 | the text before the first accessor prefix is kept, the prefix is dropped and its upper-case letter kept, and the rest is processed as text inside a word |
| `RepetitiveInfo.StripAccessorPrefixesNone` | Compress.cs:150 | a text with no accessor prefix is unchanged |
| `RepetitiveInfo.StripAccessorPrefixesAfterWord` | Compress.cs:150 | after a word character the first character is kept and the scan goes on; after a non-word character, or before one, the text is processed as at its start |
| `RepetitiveInfo.StripAccessorPrefixesNoUpper` | Compress.cs:150 | a text with no upper-case letter is unchanged |
| `RepetitiveInfo.AccessorPrefixStripped` | Compress.cs:150 | a prefix at the start, an upper-case letter and then no other upper-case letter: the prefix is dropped |
| `RepetitiveInfo.AccessorExample` | Compress.cs:150 | "getName" becomes "Name" |
| `RepetitiveInfo.AccessorInsideWordExample` | Compress.cs:150 | "forgetName" is unchanged: the prefix must start a word |
| `RepetitiveInfo.ReplaceLongLiterals` | Compress.cs:153 | introduces no line break |
| `RepetitiveInfo.ReplaceLongLiteralsLeftmost` | Compress.cs:153 | the text before the first long literal is kept, the literal becomes `"..."`, and the rest is processed the same way |
| `RepetitiveInfo.ReplaceLongLiteralsNone` | Compress.cs:153 | a text with no long literal is unchanged |
| `RepetitiveInfo.LongLiteralExamples` | Compress.cs:153 | a literal of 20 characters between its quotes becomes `"..."`; one of 19 is kept |
| `RepetitiveInfo.ReplaceLargeNumbers` | Compress.cs:156 | introduces no line break |
| `RepetitiveInfo.ReplaceLargeNumbersLeftmost` | Compress.cs:156 | the text before the first large number is kept, the number becomes "LARGENUM", and the rest is processed after a word |
| `RepetitiveInfo.ReplaceLargeNumbersNone` | Compress.cs:156 | a text with no large number is unchanged |
| `RepetitiveInfo.ReplaceLargeNumbersAfterWord` | Compress.cs:156 | after a word character the first character is kept and the scan goes on; after a non-word character, or before one, the text is processed as at its start |
| `RepetitiveInfo.LargeNumberExamples` | Compress.cs:156 | "12345" becomes "LARGENUM"; "x12345" is unchanged because of the word boundary |
| `RepetitiveInfo.ReplacementsNeverLonger` | Compress.cs:141-153 | the first five replacements never lengthen the text |
| `RepetitiveInfo.RemoveRepetitiveInfo` | Compress.cs:138-159 | the six replacements in their order introduce no line break |
| `RepetitiveInfo.RemoveRepetitiveInfoFrame` | Compress.cs:138-159 | a text without digits, dots, hyphens, upper-case letters and double quotes is unchanged |
| `Abbreviations.ReplaceWord` | Compress.cs:132 | with a well-formed entry the text never grows |
| `Abbreviations.ReplaceWordLeftmost` | Compress.cs:132 | the text before the first whole-word occurrence of the key, in any case, is kept, the occurrence becomes the abbreviation, and the rest is processed after a word |
| `Abbreviations.ReplaceWordNone` | Compress.cs:132 | a text with no whole-word occurrence of the key is unchanged |
| `Abbreviations.ReplaceWordAfterWord` | Compress.cs:132 | after a word character the first character is kept and the scan goes on; for a well-formed entry, after a non-word character or before one, the text is processed as at its start |
| `Abbreviations.ReplaceWordInsideWord` | Compress.cs:132 | a key inside a longer word is not replaced |
| `Abbreviations.ReplaceWordExamples` | Compress.cs:132 | "String s" becomes "str s" (case-insensitive); "strings" is unchanged (word boundary) |
| `Abbreviations.AbbreviateWith` | Compress.cs:130-133 | the entries applied one after another, in dictionary order |
| `Abbreviations.Abbreviated` | Compress.cs:107-136 | the text with every dictionary entry applied in order |
| `Abbreviations.AbbreviateCommonWords` | Compress.cs:107-136 | the replacement loop returns the text with every dictionary entry applied in order |
| `Abbreviations.ReplaceEntries` | Compress.cs:130-133 | replacing entry after entry equals the entry-by-entry specification |
| `Abbreviations.DictionaryWellFormed` | Compress.cs:109-128 | every key is a non-empty lower-case word, and every value is a word no longer than its key |
| `Abbreviations.ReplaceWordKeepsSkeleton` | Compress.cs:132 | replacing one whole word, case-insensitively, keeps every non-word character in order and never lengthens |
| `Abbreviations.AbbreviateWithKeepsSkeleton` | Compress.cs:130-133 | applying several entries keeps every non-word character in order and never lengthens |
| `Abbreviations.AbbreviatedKeepsSkeleton` | Compress.cs:107-136 | abbreviation changes only words: punctuation, spaces and line breaks are kept in order, and the text never grows |
| `Abbreviations.AbbreviatedSingleLine` | Compress.cs:107-136 | a single line stays a single line |
| `Abbreviations.AbbreviatedNoWords` | Compress.cs:107-136 | a text without word characters is unchanged |
| `Summarize.SummarizeRepeatedPatterns` | Compress.cs:161-191 | the loop returns exactly the run-by-run summary of the lines |
| `Summarize.SummarizeLines` | Compress.cs:161-191 | the output lines: every run but the last closed (marker for two or more, then the line); the last run gives its marker only, or its line when single |
| `Summarize.Summarized` | Compress.cs:161-191 | the output lines of the split text, joined by line breaks |
| `Summarize.CloseAndStartRun` | Compress.cs:173-180 | at a line different from the one before, closing the run and starting a new one keeps the loop's invariant |
| `Summarize.TrailingRunIs` | Compress.cs:167-181 | the length of the last run of equal lines is what the counter holds |
| `Summarize.CloseRun` | Compress.cs:173-180 | when a different line follows, the run emits its marker (for two or more lines) and then its line |
| `Summarize.FinalRun` | Compress.cs:183-188 | after the loop, the last run emits its marker only, or its line when single |
| `Summarize.SummarizeClosedNoRepeats` | Compress.cs:161-191 | lines without adjacent repeats pass through unchanged |
| `Summarize.SummarizedNoRepeats` | Compress.cs:161-191 | a text without adjacent repeated lines is returned unchanged |
| `Summarize.SummarizeClosedLength` | Compress.cs:161-191 | closed runs never yield more lines than they hold |
| `Summarize.SummarizeLinesNeverLonger` | Compress.cs:161-191 | the summary never has more lines than the input |
| `Summarize.SummarizeTrailingRun` | Compress.cs:183-185 | a final run of two or more equal lines ends the output with its marker and not with the line |
| `Summarize.SummarizedSingleLine` | Compress.cs:161-191 | a single line is returned unchanged |
| `Summarize.SummarizeLinesExample` | Compress.cs:161-191 | three "aaa" then "bbb" give the marker for 3, then "aaa", then "bbb" |
| `Summarize.SummarizedExample` | Compress.cs:161-191 | the same example as text: "[Previous line repeated 3 times]\naaa\nbbb" |
| `Summarize.SummarizedTrailingPair` | Compress.cs:183-185 | two equal single lines both summarise to the same marker: the line content is lost |
| `Compress.LowCompress` | Compress.cs:22-26 | comments removed, then white space compressed |
| `Compress.MediumCompress` | Compress.cs:28-35 | Low's two stages, then the repetitive-information replacements, then abbreviation |
| `Compress.HighCompress` | Compress.cs:37-44 | as Medium, with path shortening after the white-space stage |
| `Compress.ExtremeCompress` | Compress.cs:46-56 | as High, with truncation before abbreviation, then the line filter and the repeat summary |
| `Compress.CompressOutput` | Compress.cs:9-20 | level None returns the input unchanged |
| `Compress.LowCompressNormal` | Compress.cs:22-26 | Low output is single-spaced, trimmed, one line and never longer than the input |
| `Compress.LevelsBuildOnLow` | Compress.cs:28-56 | Medium, High and Extreme each continue from the Low output with their further stages in order |
| `Compress.MediumBuildsOnLow` | Compress.cs:28-35 | Medium continues from the Low output |
| `Compress.HighBuildsOnLow` | Compress.cs:37-44 | High continues from the Low output |
| `Compress.ExtremeBuildsOnLow` | Compress.cs:46-56 | Extreme continues from the Low output |
| `Compress.MediumOneLine` | Compress.cs:28-35 | Medium output is one line |
| `Compress.HighOneLine` | Compress.cs:37-44 | High output is one line |
| `Compress.ExtremeLinePartOneLine` | Compress.cs:50-53 | path shortening, replacements, truncation and abbreviation keep a single line single |
| `Compress.WholeTextStagesOnOneLine` | Compress.cs:54-55 | on one line, the line filter and the summary keep the line or empty it |
| `Compress.ExtremeIsOneLine` | Compress.cs:46-56 | Extreme output is the one-line text of the earlier stages, or empty when that line is not essential; repeated lines are never summarised |
| `Compress.CompressOutputOneLine` | Compress.cs:9-20 | every compressing level returns a single line |
| `Globbing.ParseAll` | Globber.cs:15 | one glob per pattern, in order |
| `Globbing.FromPatterns` | Globber.cs:12-16 | the stored patterns are exactly the non-blank input patterns, in input order; the globs follow the patterns one for one |
| `Globbing.FromText` | Globber.cs:7-10 | a pattern text is split at space, LF and CR, empty pieces dropped, and then filtered as a pattern list |
| `Globbing.IsMatch` | Globber.cs:20 | a path matches exactly when some stored glob matches it |
| `Globbing.FromTextPatterns` | Globber.cs:7-10 | patterns read from text are non-empty and free of space, LF and CR |
| `Globbing.FromTextOrder` | Globber.cs:7-16 | the patterns are the non-blank pieces of the split text, in text order |
| `Globbing.BlankTextMatchesNothing` | Globber.cs:7-20 | a blank pattern text stores no pattern and matches no path |
| `Globbing.FromTextJoined` | Program.cs:29 | joining two pattern texts with a space stores the patterns of both, in order |
| `Inclusion.IsPrintable` | Program.cs:115-119 | a byte is printable when it is at least 32 and below 127, or it is LF or CR |
| `Inclusion.ControlBytes` | Program.cs:115-119 | tab, vertical tab, form feed, NUL and DEL are non-printable; space, LF and CR are printable |
| `Inclusion.NonPrintableCount` | Program.cs:104 | the count is at most the number of bytes |
| `Inclusion.Classify` | Program.cs:89-113 | a failed read means binary; an empty sample means text; otherwise binary exactly when the non-printable share exceeds 0.3 |
| `Inclusion.RatioAsIntegers` | Program.cs:106 | share > 0.3 holds exactly when 10 × count > 3 × length |
| `Inclusion.IsBinary` | Program.cs:89-113 | the counting loop returns the classification |
| `Inclusion.ClassifySampleOnly` | Program.cs:91-104 | only the sampled bytes matter: files that agree on the sample are classified alike |
| `Inclusion.NonPrintableAppend` | Program.cs:104 | the count of a concatenation is the sum of the counts |
| `Inclusion.CountUniform` | Program.cs:104 | all-printable bytes count 0, all-non-printable bytes count all |
| `Inclusion.ThirtyPercentIsText` | Program.cs:106 | exactly 30% non-printable is not binary (the test is strict) |
| `Inclusion.TabIndentedSampleIsBinary` | Program.cs:104-106 | two tabs, a letter and LF are classified binary |
| `Inclusion.ShouldBeIncluded` | Program.cs:32 | an include match keeps the path; otherwise it is kept exactly when no exclude pattern matches |
| `Inclusion.NoIncludePatterns` | Program.cs:30-32 | with a blank include list, the exclude list alone decides |
| `Inclusion.IncludeOverridesExclude` | Program.cs:29-32 | a path matched by both lists is kept; a path matched only by the exclude list is dropped |
| `Inclusion.SingleToken` | Globber.cs:7-16 | a single non-blank token gives exactly one pattern and one glob |
| `Inclusion.WithSlash` | Program.cs:44 | every directory gains a trailing '/', in order |
| `Inclusion.OrdinalTotal` | Program.cs:46 | the ordering compares any two strings |
| `Inclusion.Insert` | Program.cs:46 | inserting into a sorted list keeps it sorted and adds exactly that element |
| `Inclusion.SortOrdinal` | Program.cs:46 | the result is sorted and a permutation of the input |
| `Inclusion.DirectoryCandidates` | Program.cs:42-47 | the candidates are sorted, a directory is one exactly when it is a subdirectory or the root, with '/', and passes `ShouldBeIncluded`, and the result is a permutation of the filtered candidates |
| `Emission.Writer.constructor` | Program.cs:50-57 | a new writer has written nothing |
| `Emission.Writer.WriteLine` | Program.cs:51-57 | a write appends exactly its line |
| `Emission.Kept` | Program.cs:63 | without the binary flag, a file is kept exactly when it is not binary and passes `ShouldBeIncluded` |
| `Emission.FileBlock` | Program.cs:72-87 | a read file yields path, content and an empty line; a failed read yields the error line and an empty line |
| `Emission.ProcessAndWriteFile` | Program.cs:72-87 | the writer's lines grow by exactly the file's block |
| `Emission.PassesFilters` | Program.cs:63 | the two filters in order decide exactly `Kept` |
| `Emission.ProcessDirectory` | Program.cs:61-66 | the writer grows by the blocks of the directory's kept files, in listing order |
| `Emission.ProcessDirectories` | Program.cs:59-67 | the writer grows by each directory's output, directory by directory |
| `Emission.ProcessFiles` | Program.cs:42-67 | the writer grows by the output of the sorted, filtered candidate directories |
| `Emission.DirsOutputStep` | Program.cs:59-67 | one more directory appends exactly its kept files' blocks |
| `Emission.KeptFilesStep` | Program.cs:63-65 | one more file appends its block when kept and nothing otherwise |
| `Emission.DirsOutputIsFlat` | Program.cs:59-67 | the nested loops write the blocks of the kept files among all listed files in walk order: none skipped, repeated or reordered |
| `Emission.BlocksOfOneFile` | Program.cs:63-65 | a file that is not kept writes nothing; a kept file writes its whole block |

## Left out

- Command-line parsing, the output-file existence and overwrite checks, and the closing message (Program.cs:1-27, 69) are not modelled: they are I/O around the core.
- The test mode (Program.cs:34-40) only prints; it is not modelled.
- `MaxFileSize` and `OutputChunks` (CommandLineArgs.cs:32-36) are parsed but never used by the program, so there is nothing to model.
- The compressor is not called from Program.cs. It is modelled on its own.
- File-system access and asynchrony are parameters: the directory listing is `subdirs`, the files of a directory are `filesOf`, and the full read is a `ReadResult`. The sample read is given as the count `stream.Read` returned, or a failure. A short read is therefore any count the file and the buffer allow.
- The diagnostics `Error reading from file …` (Program.cs:83) and `Error determining file type for …` (Program.cs:110) are written with `Console.WriteLine` and are not modelled.
- Glob semantics belong to the external DotNet.Globbing library. Matching is the parameter `matches(pattern, path)`. `Glob.Parse` keeps the pattern text.
- Globbing.FromPatterns: the source `Globber` is a class that fills its private glob list once, in its constructor. It is modelled as an immutable value, because nothing changes it afterwards.
- Inclusion.SortOrdinal: `.Order()` uses culture-sensitive string comparison. The model sorts by ordinal (code-unit) order, so the order of candidates may differ from the source for non-ASCII names.
- Emission.ProcessFiles: the `Writer` holds only the lines written through `output` (Program.cs:51-57), whether they go to the output file or, with `WriteToStdOut`, to the console. In the stdout mode the console also carries the diagnostics of Program.cs:83 and :110 and the closing line of Program.cs:69, interleaved with the blocks. So Emission.ProcessFiles, Emission.ProcessAndWriteFile, Emission.BlocksOfOneFile and Emission.DirsOutputIsFlat describe the `output` stream, not everything the console shows in that mode.
- Strings are sequences of Dafny `char`, which are Unicode scalar values. .NET strings are sequences of UTF-16 code units, so a character outside the Basic Multilingual Plane is one `char` here and two code units there. No Unicode normalisation or culture rules apply.
- Stages.TruncateLongLines: the limit counts characters (scalar values), where `string.Length` and `Substring` count UTF-16 code units. For text with characters outside the Basic Multilingual Plane the cut point differs from the source, and the source may cut a surrogate pair in half, which the model cannot represent.
- Inclusion.SortOrdinal: the ordinal order here compares scalar values. Ordinal order over UTF-16 code units places characters outside the Basic Multilingual Plane (surrogates 0xD800-0xDFFF) before characters 0xE000-0xFFFF, so those names may be ordered differently even under an ordinal comparison.
- The regular-expression classes `\w` and `\d`, and `RegexOptions.IgnoreCase`, are modelled on ASCII. .NET also treats non-ASCII letters and digits as word characters and digits.
- `\s` and `char.IsWhiteSpace` are the Unicode white-space set.
- Abbreviations.AbbreviateCommonWords: the dictionary is applied in its declaration order. Enumeration order of a .NET `Dictionary` is not guaranteed, but a dictionary filled once and never changed enumerates in insertion order.
- Compress.CompressOutput: the `ArgumentOutOfRangeException` for an out-of-range enum value is not modelled, because the `CompressionLevel` datatype has exactly the five declared levels.
- The unused helpers `RemoveCommonPrefixes` and `ExtractKeyStructures` (Compress.cs:75-78, 193-206) are never called and are not modelled.
- Inclusion.Classify: the ratio is compared exactly, over the reals. The source divides two doubles. Rounding is monotone, and a ratio with a denominator of at most 1024 is either exactly 0.3 or farther from it than the rounding error. So the double comparison gives the same answers.
- `Pipe` (Compress.cs:212-215) is plain application, so each level's chain is modelled as nested calls with the innermost stage first.
- RepetitiveInfo.ReplaceVersions: its own ensures states only that no line break is introduced (that it never lengthens the text is ReplacementsNeverLonger). What it replaces is stated by ReplaceVersionsLeftmost (the leftmost match is replaced and the scan resumes after it) and ReplaceVersionsNone (no match leaves the text unchanged).
- RepetitiveInfo.ReplaceGuids: its own ensures states only that no line break is introduced; the replacement is stated by ReplaceGuidsLeftmost and ReplaceGuidsNone.
- RepetitiveInfo.ReplaceTimestamps: its own ensures states only that no line break is introduced; the replacement is stated by ReplaceTimestampsLeftmost and ReplaceTimestampsNone.
- RepetitiveInfo.StripAccessorPrefixes: its own ensures states only that no line break is introduced; the replacement is stated by StripAccessorPrefixesLeftmost and StripAccessorPrefixesNone for a scan that starts after a non-word character, and StripAccessorPrefixesAfterWord reduces a scan that starts after a word character to that case one character at a time.
- RepetitiveInfo.ReplaceLongLiterals: its own ensures states only that no line break is introduced; the replacement is stated by ReplaceLongLiteralsLeftmost and ReplaceLongLiteralsNone.
- RepetitiveInfo.ReplaceLargeNumbers: its own ensures states only that no line break is introduced (the replacement `LARGENUM` is longer than a five-digit number); the replacement is stated by ReplaceLargeNumbersLeftmost and ReplaceLargeNumbersNone for a scan that starts after a non-word character, and ReplaceLargeNumbersAfterWord reduces a scan that starts after a word character to that case one character at a time.
- RepetitiveInfo.RemoveRepetitiveInfo: its own ensures states only that no line break is introduced; its effect is the composition of the six stages, each described by its Leftmost and None lemmas, with worked examples per pattern (VersionExample, GuidExample, TimestampExample, AccessorExample, LongLiteralExamples, LargeNumberExamples). There is no single closed-form description of the whole chain.
- Comments.RemoveBlockComments: its own ensures states only that the text does not grow; which spans are removed is stated by BlockCommentsLeftmost and BlockCommentsNone.
- Comments.RemoveComments: its own ensures states only that the text does not grow and that a single line keeps no `//` and no line break; for a single line its result is stated by RemoveCommentsWithoutSlashes and RemoveCommentsCutsAtSlashes, and for several lines it is the composition of RemoveLineComment (whose ensures states the cut) and RemoveBlockComments.
- Abbreviations.ReplaceWord: its own ensures states only that a well-formed entry never lengthens the text; the replacement is stated by ReplaceWordLeftmost and ReplaceWordNone for a scan that starts after a non-word character, and ReplaceWordAfterWord reduces a scan that starts after a word character to that case one character at a time.
- Strings.StartsWith: compares ordinally, character by character. The source's `StartsWith(string)` is culture-sensitive and ignores characters such as the soft hyphen U+00AD, so a line like "\u00ADusing x;" is dropped by the source and kept by the model (this affects Stages.IsEssential).
- Abbreviations.Abbreviated: there is no worked example over the whole dictionary; its behaviour is stated per entry by ReplaceWordLeftmost and ReplaceWordNone, and as a whole by AbbreviatedKeepsSkeleton and AbbreviatedNoWords.
- Emission.ProcessAndWriteFile: the `catch` in ProcessAndWriteFileAsync (Program.cs:81-86) also catches exceptions thrown by the writer itself, after part of the entry is written. The model's `Writer` never fails, so only read failures take the error path.

=== FILE: abbreviations.dfy ===
/**
 * `AbbreviateCommonWords` (Compress.cs): for each entry of a fixed
 * dictionary, in its order, every whole-word, case-insensitive occurrence
 * of the key is replaced by the abbreviation.
 */
module Abbreviations {
  import opened Seqs
  import opened Strings
  import opened Regexes

  /** The dictionary in the order it is written (and enumerated). */
  const Dictionary: seq<(string, string)> := [
    ("function", "func"), ("string", "str"), ("number", "num"), ("array", "arr"),
    ("object", "obj"), ("parameter", "param"), ("return", "ret"), ("class", "cls"),
    ("interface", "iface"), ("implements", "impl"), ("constructor", "ctor"),
    ("private", "priv"), ("protected", "prot"), ("public", "pub"), ("static", "stat"),
    ("property", "prop"), ("method", "meth")
  ]

  predicate IsLowerLetter(c: char)
  {
    'a' <= c <= 'z'
  }

  predicate AllWordChars(s: string)
  {
    forall i :: 0 <= i < |s| ==> IsWordChar(s[i])
  }

  /**
   * A usable entry: a non-empty lower-case key and an abbreviation made of
   * word characters and no longer than the key.
   */
  predicate WellFormedEntry(key: string, value: string)
  {
    key != [] && (forall i :: 0 <= i < |key| ==> IsLowerLetter(key[i]))
    && AllWordChars(value) && |value| <= |key|
  }

  /**
   * `Regex.Replace(s, "\b" + key + "\b", value, IgnoreCase)`: every whole-word
   * occurrence of `key`, in any case, scanning left to right, becomes
   * `value`. `afterWord` tells whether the input character before `s` is a
   * word character, which decides the leading `\b`.
   */
  function ReplaceWord(s: string, key: string, value: string, afterWord: bool): (r: string)
    ensures WellFormedEntry(key, value) ==> |r| <= |s|
  {
    WordNeverLonger(s, key, value, afterWord);
    ReplaceAll(WordMatcher(key), Constant(value), s, afterWord)
  }

  /** The text after applying the entries of `dict` in order. */
  function AbbreviateWith(line: string, dict: seq<(string, string)>): string
    requires forall k :: 0 <= k < |dict| ==> WellFormedEntry(dict[k].0, dict[k].1)
    decreases |dict|
  {
    if dict == [] then line
    else
      assert WellFormedEntry(dict[0].0, dict[0].1);
      AbbreviateWith(ReplaceWord(line, dict[0].0, dict[0].1, false), dict[1..])
  }

  /** What `AbbreviateCommonWords` returns. */
  function Abbreviated(line: string): string
  {
    DictionaryWellFormed();
    AbbreviateWith(line, Dictionary)
  }

  /** `AbbreviateCommonWords`: the source's loop over the dictionary. */
  method AbbreviateCommonWords(line: string) returns (r: string)
    ensures r == Abbreviated(line)
  {
    DictionaryWellFormed();
    r := ReplaceEntries(line, Dictionary);
  }

  /** The loop of `AbbreviateCommonWords`, one replacement per entry, in order. */
  method ReplaceEntries(line: string, dict: seq<(string, string)>) returns (r: string)
    requires forall k :: 0 <= k < |dict| ==> WellFormedEntry(dict[k].0, dict[k].1)
    ensures r == AbbreviateWith(line, dict)
  {
    r := line;
    for k := 0 to |dict|
      invariant AbbreviateWith(r, dict[k..]) == AbbreviateWith(line, dict)
    {
      assert dict[k..][0] == dict[k] && dict[k..][1..] == dict[k + 1..];
      r := ReplaceWord(r, dict[k].0, dict[k].1, false);
    }
  }

  /** Every entry has a non-empty lower-case key and a shorter word as its abbreviation. */
  lemma DictionaryWellFormed()
    ensures forall k :: 0 <= k < |Dictionary| ==> WellFormedEntry(Dictionary[k].0, Dictionary[k].1)
  {
    forall k | 0 <= k < |Dictionary|
      ensures WellFormedEntry(Dictionary[k].0, Dictionary[k].1)
    {
      if k < 4 {
        EntriesWellFormed0(k);
      } else if k < 8 {
        EntriesWellFormed1(k);
      } else if k < 12 {
        EntriesWellFormed2(k);
      } else {
        EntriesWellFormed3(k);
      }
    }
  }

  lemma EntriesWellFormed0(k: nat)
    requires k < 4
    ensures WellFormedEntry(Dictionary[k].0, Dictionary[k].1)
  {
    assert WellFormedEntry("function", "func");
    assert WellFormedEntry("string", "str");
    assert WellFormedEntry("number", "num");
    assert WellFormedEntry("array", "arr");
  }

  lemma EntriesWellFormed1(k: nat)
    requires 4 <= k < 8
    ensures WellFormedEntry(Dictionary[k].0, Dictionary[k].1)
  {
    assert WellFormedEntry("object", "obj");
    assert WellFormedEntry("parameter", "param");
    assert WellFormedEntry("return", "ret");
    assert WellFormedEntry("class", "cls");
  }

  lemma EntriesWellFormed2(k: nat)
    requires 8 <= k < 12
    ensures WellFormedEntry(Dictionary[k].0, Dictionary[k].1)
  {
    assert WellFormedEntry("interface", "iface");
    assert WellFormedEntry("implements", "impl");
    assert WellFormedEntry("constructor", "ctor");
    assert WellFormedEntry("private", "priv");
  }

  lemma EntriesWellFormed3(k: nat)
    requires 12 <= k < |Dictionary|
    ensures WellFormedEntry(Dictionary[k].0, Dictionary[k].1)
  {
    assert WellFormedEntry("protected", "prot");
    assert WellFormedEntry("public", "pub");
    assert WellFormedEntry("static", "stat");
    assert WellFormedEntry("property", "prop");
    assert WellFormedEntry("method", "meth");
  }

  function IsNotWordChar(c: char): bool
  {
    !IsWordChar(c)
  }

  /** The characters between words (spaces, punctuation, line breaks), in order. */
  function Skeleton(s: string): string
  {
    Filter(s, IsNotWordChar)
  }

  /**
   * A replacement only ever touches whole words: the characters between
   * words stay exactly as they were, and the text never grows.
   */
  lemma {:induction false} ReplaceWordKeepsSkeleton(s: string, key: string, value: string, afterWord: bool)
    requires WellFormedEntry(key, value)
    ensures Skeleton(ReplaceWord(s, key, value, afterWord)) == Skeleton(s)
    ensures |ReplaceWord(s, key, value, afterWord)| <= |s|
    decreases |s|
  {
    if s != [] {
      var n := MatchWord(key, s, afterWord);
      if n > 0 {
        var rest := s[n..];
        ReplaceWordKeepsSkeleton(rest, key, value, IsWordChar(s[n - 1]));
        assert s == s[..n] + rest;
        MatchedKeyIsWord(s, key);
        FilterNoneKept(s[..n], IsNotWordChar);
        FilterNoneKept(value, IsNotWordChar);
        FilterAppend(s[..n], rest, IsNotWordChar);
        FilterAppend(value, ReplaceWord(rest, key, value, IsWordChar(s[n - 1])), IsNotWordChar);
      } else {
        ReplaceWordKeepsSkeleton(s[1..], key, value, IsWordChar(s[0]));
        assert s == [s[0]] + s[1..];
        FilterAppend([s[0]], s[1..], IsNotWordChar);
        FilterAppend([s[0]], ReplaceWord(s[1..], key, value, IsWordChar(s[0])), IsNotWordChar);
      }
    }
  }

  lemma WordNeverLonger(s: string, key: string, value: string, afterWord: bool)
    ensures WellFormedEntry(key, value) ==> |ReplaceAll(WordMatcher(key), Constant(value), s, afterWord)| <= |s|
  {
    if WellFormedEntry(key, value) {
      WordShortens(key, value);
      ReplaceAllNeverLonger(WordMatcher(key), Constant(value), s, afterWord);
    }
  }

  lemma WordMeasures(key: string)
    ensures Measures(WordMatcher(key))
  {
  }

  /** A whole-word match of a well-formed key shrinks to its abbreviation. */
  lemma WordShortens(key: string, value: string)
    requires WellFormedEntry(key, value)
    ensures Measures(WordMatcher(key)) && Shortens(WordMatcher(key), Constant(value))
  {
  }

  /** The text a lower-case key matches, in any case, is made of word characters. */
  lemma MatchedKeyIsWord(s: string, key: string)
    requires forall i :: 0 <= i < |key| ==> IsLowerLetter(key[i])
    requires StartsWithIgnoringCase(s, key)
    ensures forall i :: 0 <= i < |key| ==> !IsNotWordChar(s[..|key|][i])
  {
    forall i | 0 <= i < |key|
      ensures IsWordChar(s[..|key|][i])
    {
      assert IsWordChar(ToLower(s[i]));
    }
  }

  lemma {:induction false} AbbreviateWithKeepsSkeleton(line: string, dict: seq<(string, string)>)
    requires forall k :: 0 <= k < |dict| ==> WellFormedEntry(dict[k].0, dict[k].1)
    ensures Skeleton(AbbreviateWith(line, dict)) == Skeleton(line)
    ensures |AbbreviateWith(line, dict)| <= |line|
    decreases |dict|
  {
    if dict != [] {
      var next := ReplaceWord(line, dict[0].0, dict[0].1, false);
      ReplaceWordKeepsSkeleton(line, dict[0].0, dict[0].1, false);
      AbbreviateWithKeepsSkeleton(next, dict[1..]);
    }
  }

  /**
   * Abbreviating keeps every character between words (so every line break)
   * in place and never lengthens the text.
   */
  lemma AbbreviatedKeepsSkeleton(line: string)
    ensures Skeleton(Abbreviated(line)) == Skeleton(line)
    ensures |Abbreviated(line)| <= |line|
  {
    DictionaryWellFormed();
    AbbreviateWithKeepsSkeleton(line, Dictionary);
  }

  /** Every whole-word match of a key that starts with a letter holds a word character. */
  lemma WordAnchored(key: string)
    requires key != [] && IsLowerLetter(key[0])
    ensures Anchored(WordMatcher(key), IsWordChar)
  {
    forall t, afterWord | Lacks(t, IsWordChar)
      ensures MatchWord(key, t, afterWord) == 0
    {
      if t != [] {
        assert !IsWordChar(ToLower(t[0]));
      }
    }
  }

  lemma {:induction false} AbbreviateWithNoWords(line: string, dict: seq<(string, string)>)
    requires forall k :: 0 <= k < |dict| ==> WellFormedEntry(dict[k].0, dict[k].1)
    requires forall i :: 0 <= i < |line| ==> !IsWordChar(line[i])
    ensures AbbreviateWith(line, dict) == line
    decreases |dict|
  {
    if dict != [] {
      var key := dict[0].0;
      assert WellFormedEntry(key, dict[0].1);
      WordAnchored(key);
      WordMeasures(key);
      ReplaceAllFrame(WordMatcher(key), Constant(dict[0].1), IsWordChar, line, false);
      AbbreviateWithNoWords(line, dict[1..]);
    }
  }

  /** A text without any word character has nothing to abbreviate. */
  lemma AbbreviatedNoWords(line: string)
    requires forall i :: 0 <= i < |line| ==> !IsWordChar(line[i])
    ensures Abbreviated(line) == line
  {
    DictionaryWellFormed();
    AbbreviateWithNoWords(line, Dictionary);
  }

  /** A text with no line break gains none. */
  lemma AbbreviatedSingleLine(line: string)
    requires NoneOf(line, {'\n'})
    ensures NoneOf(Abbreviated(line), {'\n'})
  {
    AbbreviatedKeepsSkeleton(line);
    SameSkeletonSameBreaks(line, Abbreviated(line));
  }

  lemma SameSkeletonSameBreaks(s: string, r: string)
    requires Skeleton(r) == Skeleton(s) && NoneOf(s, {'\n'})
    ensures NoneOf(r, {'\n'})
  {
    forall i | 0 <= i < |r|
      ensures r[i] != '\n'
    {
      if IsNotWordChar(r[i]) {
        assert r[i] in Skeleton(s);
      }
    }
  }

  /** Inside a word (after a word character) nothing is ever replaced. */
  lemma ReplaceWordInsideWord(s: string, key: string, value: string)
    requires AllWordChars(s)
    ensures ReplaceWord(s, key, value, true) == s
  {
    ReplaceAllInsideWord(WordMatcher(key), Constant(value), s);
  }

  /**
   * Where the first whole-word occurrence of `key` starts at `i`, the text
   * before it is kept, the occurrence becomes `value`, and the scan goes on
   * after it as after a word.
   */
  lemma ReplaceWordLeftmost(s: string, key: string, value: string, i: nat)
    requires WellFormedEntry(key, value)
    requires forall k :: 0 <= k < i ==> !WordAt(s, k, key)
    requires WordAt(s, i, key)
    ensures i + |key| <= |s|
    ensures ReplaceWord(s, key, value, false) == s[..i] + (value + ReplaceWord(s[i + |key|..], key, value, true))
  {
    WordLeftmost(s, key, i);
    ReplaceWordAt(s, key, value, i);
  }

  lemma WordLeftmost(s: string, key: string, i: nat)
    requires key != [] && forall j :: 0 <= j < |key| ==> IsLowerLetter(key[j])
    requires forall k :: 0 <= k < i ==> !WordAt(s, k, key)
    requires WordAt(s, i, key)
    ensures i + |key| <= |s| && IsWordChar(s[i + |key| - 1])
    ensures MatchAt(WordMatcher(key), s, false, i) == |key|
    ensures forall k :: 0 <= k < i ==> MatchAt(WordMatcher(key), s, false, k) == 0
  {
    WordMatchAt(s, key, i);
    assert IsWordChar(ToLower(s[i + |key| - 1]));
    forall k | 0 <= k < i
      ensures MatchAt(WordMatcher(key), s, false, k) == 0
    {
      WordMatchAt(s, key, k);
    }
  }

  lemma {:induction false} ReplaceWordAt(s: string, key: string, value: string, i: nat)
    requires i + |key| <= |s| && key != [] && IsWordChar(s[i + |key| - 1])
    requires MatchAt(WordMatcher(key), s, false, i) == |key|
    requires forall k :: 0 <= k < i ==> MatchAt(WordMatcher(key), s, false, k) == 0
    ensures ReplaceWord(s, key, value, false) == s[..i] + (value + ReplaceWord(s[i + |key|..], key, value, true))
  {
    WordMeasures(key);
    LeftmostConstantWordSplits(WordMatcher(key), value, s, i, |key|);
    ReplaceWordFromSplit(s, key, value, i);
  }

  /** A split of the scan carries over to `ReplaceWord`. */
  lemma {:induction false} ReplaceWordFromSplit(s: string, key: string, value: string, i: nat)
    requires Measures(WordMatcher(key)) && i + |key| <= |s|
    requires SplitsAt(WordMatcher(key), value, s, i, |key|)
    ensures ReplaceWord(s, key, value, false) == s[..i] + (value + ReplaceWord(s[i + |key|..], key, value, true))
  {
    ReplaceWordIsReplaceAll(s, key, value, false);
    ReplaceWordIsReplaceAll(s[i + |key|..], key, value, true);
  }

  lemma ReplaceWordIsReplaceAll(s: string, key: string, value: string, afterWord: bool)
    ensures ReplaceWord(s, key, value, afterWord) == ReplaceAll(WordMatcher(key), Constant(value), s, afterWord)
  {
  }

  /**
   * After a word character the leading `\b` cannot hold, so the first
   * character is kept and the scan moves on; when the character before `s`
   * is not a word character, or `s` starts with one that is not, a
   * well-formed key is replaced as at the start of a text. With
   * ReplaceWordLeftmost this fixes the result for every `afterWord`.
   */
  lemma {:induction false} ReplaceWordAfterWord(s: string, key: string, value: string)
    ensures s == [] ==> ReplaceWord(s, key, value, true) == []
    ensures s != [] ==> ReplaceWord(s, key, value, true) == [s[0]] + ReplaceWord(s[1..], key, value, IsWordChar(s[0]))
    ensures WellFormedEntry(key, value) && (s == [] || !IsWordChar(s[0]))
      ==> ReplaceWord(s, key, value, true) == ReplaceWord(s, key, value, false)
  {
    WordMeasures(key);
    ReplaceWordIsReplaceAll(s, key, value, true);
    ReplaceWordIsReplaceAll(s, key, value, false);
    if s != [] {
      ReplaceWordIsReplaceAll(s[1..], key, value, IsWordChar(s[0]));
      if WellFormedEntry(key, value) && !IsWordChar(s[0]) {
        assert IsLowerLetter(key[0]) && !IsWordChar(ToLower(s[0]));
      }
    }
  }

  /** Without a whole-word occurrence of `key` the text is unchanged. */
  lemma ReplaceWordNone(s: string, key: string, value: string, afterWord: bool)
    requires forall k :: 0 <= k < |s| ==> !WordAt(s, k, key)
    ensures ReplaceWord(s, key, value, afterWord) == s
  {
    forall k | 0 <= k < |s|
      ensures MatchAt(WordMatcher(key), s, afterWord, k) == 0
    {
      WordMatchAt(s, key, k);
    }
    ReplaceAllNone(WordMatcher(key), Constant(value), s, afterWord);
  }

  /** A key is only replaced as a whole word, in any case. */
  lemma ReplaceWordExamples(upper: string, longer: string)
    requires upper == "String s" && longer == "strings"
    ensures ReplaceWord(upper, "string", "str", false) == "str s"
    ensures ReplaceWord(longer, "string", "str", false) == longer
  {
    var key := "string";
    assert WellFormedEntry(key, "str");
    assert WordAt(upper, 0, key);
    ReplaceWordLeftmost(upper, key, "str", 0);
    assert upper[6..] == " s";
    ReplaceWordNone(" s", key, "str", true);
    forall k | 0 <= k < |longer|
      ensures !WordAt(longer, k, key)
    {
      assert longer[6] == 's';
    }
    ReplaceWordNone(longer, key, "str", false);
  }
}

=== FILE: comments.dfy ===
// `RemoveComments` (Compress.cs): two regular-expression replacements,
// `//.*$` and then `/\*.*?\*/`, written as explicit left-to-right scans
// with the .NET engine's semantics (leftmost match, `.` never matches a
// line break, `$` without the multi-line option).
module Comments {
  import opened Seqs
  import opened Strings

  // No "//" occurs in `s`.
  predicate NoLineComment(s: string)
  {
    forall i :: 0 <= i < |s| - 1 ==> !(s[i] == '/' && s[i + 1] == '/')
  }

  // No "/*" occurs in `s`.
  predicate NoBlockOpening(s: string)
  {
    forall i :: 0 <= i < |s| - 1 ==> !(s[i] == '/' && s[i + 1] == '*')
  }

  // A "//" starts at `k`.
  predicate SlashesAt(s: string, k: int)
  {
    0 <= k && k + 1 < |s| && s[k] == '/' && s[k + 1] == '/'
  }

  // Where `$` can match: the end of the text, or just before a line break
  // that ends the text. This is where the last line ends.
  function LastLineEnd(s: string): (n: nat)
    ensures n <= |s| && |s| - n <= 1
    ensures n < |s| ==> s[n] == '\n'
  {
    if s != [] && s[|s| - 1] == '\n' then |s| - 1 else |s|
  }

  // The start of the line that ends at `n`.
  function LineStart(s: string, n: nat): (k: nat)
    requires n <= |s|
    ensures k <= n
    ensures forall i :: k <= i < n ==> s[i] != '\n'
    ensures k == 0 || s[k - 1] == '\n'
  {
    if n == 0 || s[n - 1] == '\n' then n else LineStart(s, n - 1)
  }

  // The first "//" that starts in `s[from..end]` and ends inside it.
  function FindLineComment(s: string, from: nat, end: nat): (found: Option<nat>)
    requires from <= end <= |s|
    ensures found.Some? ==> from <= found.value && found.value + 1 < end && SlashesAt(s, found.value)
    ensures found.Some? ==> forall i :: from <= i < found.value ==> !SlashesAt(s, i)
    ensures found.None? ==> forall i :: from <= i && i + 1 < end ==> !SlashesAt(s, i)
    decreases end - from
  {
    if from + 1 >= end then None
    else if s[from] == '/' && s[from + 1] == '/' then Some(from)
    else FindLineComment(s, from + 1, end)
  }

  // No "//" lies within the last line.
  predicate NoCommentOnLastLine(s: string)
  {
    var e := LastLineEnd(s);
    forall k :: LineStart(s, e) <= k && k + 1 < e ==> !SlashesAt(s, k)
  }

  // The first "//" within the last line starts at `k`.
  predicate FirstCommentOnLastLine(s: string, k: int)
  {
    var e := LastLineEnd(s);
    var l := LineStart(s, e);
    l <= k && k + 1 < e && SlashesAt(s, k) && forall j :: l <= j < k ==> !SlashesAt(s, j)
  }

  // `Regex.Replace(s, @"//.*$", "")`. Since `.` stops at a line break and
  // `$` matches only at the end of the text (or before its final line
  // break), only a comment on the LAST line can match: from its first "//"
  // to the end of that line. Earlier lines are left alone.
  function RemoveLineComment(s: string): (r: string)
    ensures LineStart(s, LastLineEnd(s)) <= |r| <= |s|
    ensures r[..LineStart(s, LastLineEnd(s))] == s[..LineStart(s, LastLineEnd(s))]
    ensures NoCommentOnLastLine(s) ==> r == s
    ensures forall k :: FirstCommentOnLastLine(s, k) ==> r == s[..k] + s[LastLineEnd(s)..]
    ensures NoneOf(s, {'\n'}) ==> NoLineComment(r) && NoneOf(r, {'\n'})
  {
    var end := LastLineEnd(s);
    var start := LineStart(s, end);
    match FindLineComment(s, start, end)
    case None =>
      assert NoneOf(s, {'\n'}) ==> NoLineComment(s) by {
        if NoneOf(s, {'\n'}) {
          assert start == 0 && end == |s|;
          forall i | 0 <= i < |s| - 1 ensures !(s[i] == '/' && s[i + 1] == '/') {
            assert !SlashesAt(s, i);
          }
        }
      }
      s
    case Some(i) =>
      assert NoneOf(s, {'\n'}) ==> NoLineComment(s[..i] + s[end..]) && NoneOf(s[..i] + s[end..], {'\n'}) by {
        if NoneOf(s, {'\n'}) {
          assert start == 0 && end == |s|;
          assert s[..i] + s[end..] == s[..i];
          forall k | 0 <= k < i - 1 ensures !(s[..i][k] == '/' && s[..i][k + 1] == '/') {
            assert !SlashesAt(s, k);
          }
        }
      }
      s[..i] + s[end..]
  }

  // A "*/" starts at `k`.
  predicate CloseAt(s: string, k: int)
  {
    0 <= k && k + 1 < |s| && s[k] == '*' && s[k + 1] == '/'
  }

  // No line break lies in `s[i..j]`.
  predicate NoBreakBetween(s: string, i: int, j: int)
  {
    forall m :: i <= m < j && 0 <= m < |s| ==> s[m] != '\n'
  }

  // The end of a block comment whose body starts at `i`: the first "*/"
  // reached before any line break, or none when a line break or the end of
  // the text comes first.
  function FindBlockEnd(s: string, i: nat): (found: Option<nat>)
    requires i <= |s|
    ensures found.Some? ==> i <= found.value && found.value + 1 < |s|
                            && s[found.value] == '*' && s[found.value + 1] == '/'
    ensures found.Some? ==> forall j :: i <= j < found.value ==> s[j] != '\n'
    ensures found.Some? ==> forall j :: i <= j < found.value ==> !CloseAt(s, j)
    ensures found.None? ==> forall j :: i <= j && NoBreakBetween(s, i, j) ==> !CloseAt(s, j)
    decreases |s| - i
  {
    if i + 1 >= |s| || s[i] == '\n' then None
    else if s[i] == '*' && s[i + 1] == '/' then Some(i)
    else FindBlockEnd(s, i + 1)
  }

  // `/\*.*?\*/` matches `s[j..e + 2]`: "/*" at `j`, and at `e` the first
  // "*/" after it, with no line break in between.
  predicate BlockCommentAt(s: string, j: int, e: int)
  {
    0 <= j && j + 2 <= e && CloseAt(s, e) && s[j] == '/' && s[j + 1] == '*'
    && NoBreakBetween(s, j + 2, e)
    && forall m :: j + 2 <= m < e ==> !CloseAt(s, m)
  }

  // `Regex.Replace(s, @"/\*.*?\*/", "")`: scanning left to right, each "/*"
  // that is closed by a "*/" on the same line is removed together with
  // everything up to the nearest such "*/"; scanning resumes after it.
  function RemoveBlockComments(s: string): (r: string)
    ensures |r| <= |s|
    decreases |s|
  {
    if |s| < 2 then s
    else if s[0] == '/' && s[1] == '*' then
      match FindBlockEnd(s, 2)
      case Some(q) => RemoveBlockComments(s[q + 2..])
      case None => [s[0]] + RemoveBlockComments(s[1..])
    else
      [s[0]] + RemoveBlockComments(s[1..])
  }

  // A block comment seen from `j` on is one that opens at `j` in the whole text.
  lemma BlockCommentShift(s: string, j: nat, q: int)
    requires j <= |s|
    ensures BlockCommentAt(s[j..], 0, q) <==> BlockCommentAt(s, j, j + q)
  {
    var t := s[j..];
    forall m | 0 <= m < |t| ensures t[m] == s[j + m] && (CloseAt(t, m) <==> CloseAt(s, j + m)) {
    }
    if BlockCommentAt(s, j, j + q) {
      forall m | 2 <= m < q ensures !CloseAt(t, m) && t[m] != '\n' {
        assert !CloseAt(s, j + m);
      }
    }
    if BlockCommentAt(t, 0, q) {
      forall m | j + 2 <= m < j + q ensures !CloseAt(s, m) && s[m] != '\n' {
        assert !CloseAt(t, m - j);
      }
    }
  }

  // A text that opens no block comment is left as it is.
  lemma {:induction false} BlockCommentsNoOpening(s: string)
    requires NoBlockOpening(s)
    ensures RemoveBlockComments(s) == s
    decreases |s|
  {
    if |s| >= 2 {
      BlockCommentsNoOpening(s[1..]);
    }
  }

  // The result starts with '/' only where the text did.
  lemma BlockCommentsFirstSlash(s: string)
    ensures RemoveBlockComments(s) != [] && RemoveBlockComments(s)[0] == '/' ==> s != [] && s[0] == '/'
  {
  }

  // Removing block comments creates no "//".
  lemma {:induction false} BlockCommentsNoNewSlashes(s: string)
    requires NoLineComment(s)
    ensures NoLineComment(RemoveBlockComments(s))
    decreases |s|
  {
    if |s| >= 2 {
      if s[0] == '/' && s[1] == '*' && FindBlockEnd(s, 2).Some? {
        var q := FindBlockEnd(s, 2).value;
        BlockCommentsNoNewSlashes(s[q + 2..]);
      } else {
        BlockCommentsNoNewSlashes(s[1..]);
        BlockCommentsFirstSlash(s[1..]);
      }
    }
  }

  // Removing block comments creates no line break.
  lemma {:induction false} BlockCommentsOneLine(s: string)
    requires NoneOf(s, {'\n'})
    ensures NoneOf(RemoveBlockComments(s), {'\n'})
    decreases |s|
  {
    if |s| >= 2 {
      if s[0] == '/' && s[1] == '*' && FindBlockEnd(s, 2).Some? {
        var q := FindBlockEnd(s, 2).value;
        BlockCommentsOneLine(s[q + 2..]);
      } else {
        BlockCommentsOneLine(s[1..]);
      }
    }
  }

  // Where no block comment opens, the scan keeps the character and moves on.
  lemma BlockCommentsStep(s: string, j: nat)
    requires j < |s|
    requires forall e :: !BlockCommentAt(s, j, e)
    ensures RemoveBlockComments(s[j..]) == [s[j]] + RemoveBlockComments(s[j + 1..])
  {
    var t := s[j..];
    SuffixOfSuffix(s, j, 1);
    if |t| >= 2 && t[0] == '/' && t[1] == '*' {
      match FindBlockEnd(t, 2)
      case Some(q) =>
        assert BlockCommentAt(t, 0, q);
        BlockCommentShift(s, j, q);
        assert false;
      case None =>
    }
  }

  // The scan passes every position where no block comment opens, keeping its character.
  lemma {:induction false} BlockCommentsKeepPrefix(s: string, j: nat, i: nat)
    requires j <= i <= |s|
    requires forall k, e :: j <= k < i ==> !BlockCommentAt(s, k, e)
    ensures RemoveBlockComments(s[j..]) == s[j..i] + RemoveBlockComments(s[i..])
    decreases i - j
  {
    if j < i {
      BlockCommentsStep(s, j);
      BlockCommentsKeepPrefix(s, j + 1, i);
      KeptBeforeRest(s, j, i, RemoveBlockComments(s[j..]), RemoveBlockComments(s[j + 1..]), RemoveBlockComments(s[i..]));
    }
  }

  // The scan finds the end of a block comment that opens at `j`.
  lemma BlockCommentEndFound(s: string, j: nat, e: nat)
    requires BlockCommentAt(s, j, e)
    ensures FindBlockEnd(s[j..], 2) == Some(e - j)
  {
    var t := s[j..];
    BlockCommentShift(s, j, e - j);
    assert BlockCommentAt(t, 0, e - j);
    match FindBlockEnd(t, 2)
    case Some(q) =>
      assert CloseAt(t, q) && CloseAt(t, e - j);
    case None =>
      assert false;
  }

  // A block comment whose end the scan finds is dropped whole, and the scan
  // resumes after it.
  lemma BlockCommentDropped(s: string, j: nat, e: nat)
    requires j + 1 < |s| && s[j] == '/' && s[j + 1] == '*'
    requires j <= e && FindBlockEnd(s[j..], 2) == Some(e - j)
    ensures RemoveBlockComments(s[j..]) == RemoveBlockComments(s[e + 2..])
  {
    ClosedOpeningSkipped(s[j..], e - j);
    SuffixOfSuffix(s, j, e - j + 2);
  }

  // A "/*" at the start whose end the scan finds is skipped with it.
  lemma ClosedOpeningSkipped(t: string, q: nat)
    requires |t| >= 2 && t[0] == '/' && t[1] == '*' && FindBlockEnd(t, 2) == Some(q)
    ensures RemoveBlockComments(t) == RemoveBlockComments(t[q + 2..])
  {
  }

  // The leftmost block comment is removed: text before it is kept, and the
  // scan resumes right after its "*/".
  lemma BlockCommentsLeftmost(s: string, i: nat, e: nat)
    requires BlockCommentAt(s, i, e)
    requires forall k, f :: 0 <= k < i ==> !BlockCommentAt(s, k, f)
    ensures RemoveBlockComments(s) == s[..i] + RemoveBlockComments(s[e + 2..])
  {
    BlockCommentsKeepPrefix(s, 0, i);
    BlockCommentEndFound(s, i, e);
    BlockCommentDropped(s, i, e);
    assert s[0..] == s;
  }

  // A text in which no block comment matches is unchanged.
  lemma BlockCommentsNone(s: string)
    requires forall k, f :: !BlockCommentAt(s, k, f)
    ensures RemoveBlockComments(s) == s
  {
    BlockCommentsKeepPrefix(s, 0, |s|);
    assert s[0..] == s && s[0..|s|] == s;
  }

  // `RemoveComments`: line comment first, then block comments. On a single
  // line no "//" survives.
  function RemoveComments(line: string): (r: string)
    ensures |r| <= |line|
    ensures NoneOf(line, {'\n'}) ==> NoLineComment(r) && NoneOf(r, {'\n'})
  {
    var cut := RemoveLineComment(line);
    if NoneOf(line, {'\n'}) then
      BlockCommentsNoNewSlashes(cut);
      BlockCommentsOneLine(cut);
      RemoveBlockComments(cut)
    else
      RemoveBlockComments(cut)
  }

  // On a single line without "//", exactly the block comments are removed.
  lemma RemoveCommentsWithoutSlashes(line: string)
    requires NoneOf(line, {'\n'}) && NoLineComment(line)
    ensures RemoveComments(line) == RemoveBlockComments(line)
  {
    assert LastLineEnd(line) == |line| && LineStart(line, |line|) == 0;
  }

  // On a single line whose first "//" is at `k`, the comment is cut off
  // and the block comments before it are removed.
  lemma RemoveCommentsCutsAtSlashes(line: string, k: nat)
    requires NoneOf(line, {'\n'}) && SlashesAt(line, k)
    requires forall j :: 0 <= j < k ==> !SlashesAt(line, j)
    ensures RemoveComments(line) == RemoveBlockComments(line[..k])
  {
    assert LastLineEnd(line) == |line| && LineStart(line, |line|) == 0;
    assert RemoveLineComment(line) == line[..k] + line[|line|..];
    assert line[..k] + line[|line|..] == line[..k];
  }

  // A "//" on an earlier line is not a match for `//.*$`: such a text is unchanged.
  lemma EarlierLineCommentKept(text: string)
    requires text == "a // x\nb"
    ensures RemoveLineComment(text) == text
  {
    assert LastLineEnd(text) == 8;
    assert LineStart(text, 8) == 7;
  }

  // A comment on the last line is stripped up to the end of the text.
  lemma LastLineCommentStripped(text: string)
    requires text == "a\nb // x"
    ensures RemoveLineComment(text) == "a\nb "
  {
    assert LastLineEnd(text) == 8;
    assert text[1] == '\n';
    assert LineStart(text, 8) == 2;
    assert SlashesAt(text, 4);
  }

  // A block comment closed on its line goes, with the scan resuming after it.
  lemma ClosedBlockCommentRemoved(text: string)
    requires text == "x /* y */ z "
    ensures RemoveBlockComments(text) == "x  z "
  {
    assert BlockCommentAt(text, 2, 7);
    BlockCommentsLeftmost(text, 2, 7);
    assert text[9..] == " z ";
    BlockCommentsNoOpening(" z ");
  }

  // A block comment left open on its line stays.
  lemma OpenBlockCommentKept(text: string)
    requires text == "a /* b"
    ensures RemoveBlockComments(text) == text
  {
    forall k, f | 0 <= k ensures !BlockCommentAt(text, k, f) {
    }
    BlockCommentsNone(text);
  }

  // Both kinds on one line: the block comment goes, and so does the rest of
  // the line from "//".
  lemma BothCommentKindsRemoved(line: string)
    requires line == "x /* y */ z // w"
    ensures RemoveComments(line) == "x  z "
  {
    assert SlashesAt(line, 12);
    RemoveCommentsCutsAtSlashes(line, 12);
    assert line[..12] == "x /* y */ z ";
    ClosedBlockCommentRemoved(line[..12]);
  }
}

=== FILE: compress.dfy ===
/**
 * `CompressOutput` (Compress.cs): each compression level is a fixed,
 * ordered chain of the eight text stages. `Pipe`, which the source uses to
 * chain the stages, is plain application (`input.Pipe(f)` is `f(input)`),
 * so each chain is written as nested calls, innermost stage first.
 */
module Compress {
  import opened Strings
  import opened Stages
  import opened Comments
  import opened RepetitiveInfo
  import opened Abbreviations
  import opened Summarize

  datatype CompressionLevel = None | Low | Medium | High | Extreme

  function LowCompress(input: string): string
  {
    CompressWhitespace(RemoveComments(input))
  }

  function MediumCompress(input: string): string
  {
    Abbreviated(RemoveRepetitiveInfo(CompressWhitespace(RemoveComments(input))))
  }

  function HighCompress(input: string): string
  {
    Abbreviated(RemoveRepetitiveInfo(ShortenPath(CompressWhitespace(RemoveComments(input)))))
  }

  function ExtremeCompress(input: string): string
  {
    Summarized(RemoveNonEssentialInformation(Abbreviated(TruncateLongLines(
      RemoveRepetitiveInfo(ShortenPath(CompressWhitespace(RemoveComments(input))))))))
  }

  /**
   * `CompressOutput`: level None returns the input itself, every other
   * level its chain of stages.
   */
  function CompressOutput(input: string, level: CompressionLevel): (r: string)
    ensures level == None ==> r == input
  {
    match level
    case None => input
    case Low => LowCompress(input)
    case Medium => MediumCompress(input)
    case High => HighCompress(input)
    case Extreme => ExtremeCompress(input)
  }

  /**
   * Low compression leaves the text in white-space normal form, as a
   * single line, and never lengthens it.
   */
  lemma LowCompressNormal(input: string)
    ensures var r := CompressOutput(input, Low);
      SingleSpaced(r) && Trimmed(r) && NoneOf(r, {'\n'}) && |r| <= |input|
  {
  }

  /**
   * Every higher level works on what Low compression returns: Medium and
   * High continue its output, and so do the first stages of Extreme.
   */
  lemma LevelsBuildOnLow(input: string)
    ensures CompressOutput(input, Medium) == Abbreviated(RemoveRepetitiveInfo(LowCompress(input)))
    ensures CompressOutput(input, High) == Abbreviated(RemoveRepetitiveInfo(ShortenPath(LowCompress(input))))
    ensures CompressOutput(input, Extreme) == Summarized(RemoveNonEssentialInformation(
      ExtremeLinePart(LowCompress(input))))
  {
    MediumBuildsOnLow(input);
    HighBuildsOnLow(input);
    ExtremeBuildsOnLow(input);
  }

  lemma MediumBuildsOnLow(input: string)
    ensures CompressOutput(input, Medium) == Abbreviated(RemoveRepetitiveInfo(LowCompress(input)))
  {
    assert LowCompress(input) == CompressWhitespace(RemoveComments(input));
  }

  lemma HighBuildsOnLow(input: string)
    ensures CompressOutput(input, High) == Abbreviated(RemoveRepetitiveInfo(ShortenPath(LowCompress(input))))
  {
    assert LowCompress(input) == CompressWhitespace(RemoveComments(input));
  }

  lemma ExtremeBuildsOnLow(input: string)
    ensures CompressOutput(input, Extreme) == Summarized(RemoveNonEssentialInformation(
      ExtremeLinePart(LowCompress(input))))
  {
    assert LowCompress(input) == CompressWhitespace(RemoveComments(input));
  }

  /**
   * The stages of Extreme compression between Low compression and the two
   * whole-text stages.
   */
  function ExtremeLinePart(low: string): string
  {
    Abbreviated(TruncateLongLines(RemoveRepetitiveInfo(ShortenPath(low))))
  }

  /** The stage's own one-line ensures, restated over `NoneOf`. */
  lemma ShortenPathOneLine(text: string)
    requires NoneOf(text, {'\n'})
    ensures NoneOf(ShortenPath(text), {'\n'})
  {
    assert '\n' !in text;
  }

  /** As ShortenPathOneLine, for truncation. */
  lemma TruncateOneLine(text: string)
    requires NoneOf(text, {'\n'})
    ensures NoneOf(TruncateLongLines(text), {'\n'})
  {
    assert '\n' !in text;
  }

  /** Medium compression returns a single line. */
  lemma MediumOneLine(input: string)
    ensures NoneOf(CompressOutput(input, Medium), {'\n'})
  {
    LevelsBuildOnLow(input);
    LowCompressNormal(input);
    AbbreviatedSingleLine(RemoveRepetitiveInfo(LowCompress(input)));
  }

  /** High compression returns a single line. */
  lemma HighOneLine(input: string)
    ensures NoneOf(CompressOutput(input, High), {'\n'})
  {
    LevelsBuildOnLow(input);
    LowCompressNormal(input);
    ShortenPathOneLine(LowCompress(input));
    AbbreviatedSingleLine(RemoveRepetitiveInfo(ShortenPath(LowCompress(input))));
  }

  /** The stages before the whole-text ones keep the text on one line. */
  lemma ExtremeLinePartOneLine(low: string)
    requires NoneOf(low, {'\n'})
    ensures NoneOf(ExtremeLinePart(low), {'\n'})
  {
    ShortenPathOneLine(low);
    var info := RemoveRepetitiveInfo(ShortenPath(low));
    TruncateOneLine(info);
    AbbreviatedSingleLine(TruncateLongLines(info));
  }

  lemma LowThenLinePartOneLine(input: string)
    ensures NoneOf(ExtremeLinePart(LowCompress(input)), {'\n'})
  {
    LowOneLine(input);
    ExtremeLinePartOneLine(LowCompress(input));
  }

  lemma LowOneLine(input: string)
    ensures NoneOf(LowCompress(input), {'\n'})
  {
  }

  /** The two whole-text stages on a single line: the line is kept or emptied. */
  lemma WholeTextStagesOnOneLine(t: string)
    requires NoneOf(t, {'\n'})
    ensures Summarized(RemoveNonEssentialInformation(t)) == if IsEssential(t) then t else []
  {
    RemoveNonEssentialSingleLine(t);
    SummarizedSingleLine(RemoveNonEssentialInformation(t));
  }

  /**
   * Because `CompressWhitespace` has already turned every line break into a
   * space, the line filter of Extreme sees a single line and keeps or empties
   * it, and the repeat summary has no adjacent lines to compare and changes
   * nothing: a multi-line text is never summarised at this level.
   */
  lemma ExtremeIsOneLine(input: string)
    ensures var t := ExtremeLinePart(LowCompress(input));
      NoneOf(t, {'\n'}) && CompressOutput(input, Extreme) == if IsEssential(t) then t else []
  {
    LevelsBuildOnLow(input);
    LowThenLinePartOneLine(input);
    WholeTextStagesOnOneLine(ExtremeLinePart(LowCompress(input)));
  }

  /** Every compressing level returns a single line. */
  lemma CompressOutputOneLine(input: string, level: CompressionLevel)
    requires level != None
    ensures NoneOf(CompressOutput(input, level), {'\n'})
  {
    match level
    case Low => LowCompressNormal(input);
    case Medium => MediumOneLine(input);
    case High => HighOneLine(input);
    case Extreme => ExtremeIsOneLine(input);
  }
}

=== FILE: emission.dfy ===
/**
 * What Program.cs writes: for each candidate directory in order, for each of
 * its files that passes the binary and include/exclude filters, the block
 * of lines `ProcessAndWriteFileAsync` emits. The output sink is a `Writer`
 * object whose line list grows with every write.
 */
module Emission {
  import opened Seqs
  import opened Globbing
  import opened Inclusion

  /** The output sink (the output file, or the console): every line written so far. */
  class Writer {
    var lines: seq<string>

    constructor ()
      ensures lines == []
    {
      lines := [];
    }

    method WriteLine(line: string)
      modifies this
      ensures lines == old(lines) + [line]
    {
      lines := lines + [line];
    }
  }

  /** `File.ReadAllTextAsync`: the text, or the message of the exception it threw. */
  datatype ReadResult = Content(text: string) | ReadError(message: string)

  /** A file as the program meets it: its path, its bytes, how its sample read went and how its full read went. */
  datatype FileEntry = FileEntry(path: string, bytes: seq<byte>, sample: SampleRead, read: ReadResult)

  /** The sample read never returns more than the file holds or the buffer takes. */
  type ValidEntry = f: FileEntry | ValidRead(f.bytes, f.sample)
    witness FileEntry([], [], ReadFailed, Content([]))

  /** The run's settings: the binary flag and the two pattern lists with their glob relation. */
  datatype Policy = Policy(includeBinary: bool, includeGlobber: Globber, excludeGlobber: Globber,
                           matches: (string, string) -> bool)

  /**
   * The file filter: binary files are dropped unless they are asked for,
   * then `ShouldBeIncluded` decides.
   */
  function Kept(policy: Policy, f: ValidEntry): (keep: bool)
    ensures !policy.includeBinary ==>
      (keep <==> !Classify(f.bytes, f.sample)
                 && ShouldBeIncluded(policy.includeGlobber, policy.excludeGlobber, policy.matches, f.path))
  {
    (policy.includeBinary || !Classify(f.bytes, f.sample))
    && ShouldBeIncluded(policy.includeGlobber, policy.excludeGlobber, policy.matches, f.path)
  }

  const ErrorPrefix: string := "Error reading file: "

  /**
   * The lines `ProcessAndWriteFileAsync` writes for one file: on success
   * the path, the content and an empty line; on failure the error line and
   * an empty line. The read comes before the first write, so a failed read
   * never leaves the path behind.
   */
  function FileBlock(file: string, read: ReadResult): (block: seq<string>)
    ensures |block| >= 2 && block[|block| - 1] == ""
    ensures read.Content? ==> block == [file, read.text, ""]
    ensures read.ReadError? ==> block == [ErrorPrefix + read.message, ""]
  {
    match read
    case Content(text) => [file, text, ""]
    case ReadError(message) => [ErrorPrefix + message, ""]
  }

  /** `ProcessAndWriteFileAsync`: read first, then write the block line by line. */
  method ProcessAndWriteFile(file: string, read: ReadResult, w: Writer)
    modifies w
    ensures w.lines == old(w.lines) + FileBlock(file, read)
  {
    match read
    case Content(content) =>
      w.WriteLine(file);
      w.WriteLine(content);
      w.WriteLine("");
    case ReadError(message) =>
      w.WriteLine(ErrorPrefix + message);
      w.WriteLine("");
  }

  /** The blocks of `files`, in order. */
  function Blocks(files: seq<ValidEntry>): seq<string>
  {
    if files == [] then []
    else Blocks(files[..|files| - 1]) + FileBlock(files[|files| - 1].path, files[|files| - 1].read)
  }

  /** The kept files of one directory listing, in listing order. */
  function KeptFiles(policy: Policy, files: seq<ValidEntry>): seq<ValidEntry>
  {
    Filter(files, f => Kept(policy, f))
  }

  /** What the nested loops write, directory by directory. */
  function DirsOutput(policy: Policy, dirs: seq<string>, filesOf: string -> seq<ValidEntry>): seq<string>
  {
    if dirs == [] then []
    else DirsOutput(policy, dirs[..|dirs| - 1], filesOf) + Blocks(KeptFiles(policy, filesOf(dirs[|dirs| - 1])))
  }

  /**
   * The two `Where` filters of the file loop, in their order: the binary
   * test (which reads the file's sample) only when binary files are not
   * asked for, then `ShouldBeIncluded`.
   */
  method PassesFilters(policy: Policy, f: ValidEntry) returns (keep: bool)
    ensures keep == Kept(policy, f)
  {
    keep := policy.includeBinary;
    if !keep {
      var binary := IsBinary(f.bytes, f.sample);
      keep := !binary;
    }
    keep := keep && ShouldBeIncluded(policy.includeGlobber, policy.excludeGlobber, policy.matches, f.path);
  }

  /** The inner loop: the blocks of one directory's kept files, in listing order. */
  method ProcessDirectory(policy: Policy, files: seq<ValidEntry>, w: Writer)
    modifies w
    ensures w.lines == old(w.lines) + Blocks(KeptFiles(policy, files))
  {
    for j := 0 to |files|
      invariant w.lines == old(w.lines) + Blocks(KeptFiles(policy, files[..j]))
    {
      var keep := PassesFilters(policy, files[j]);
      KeptFilesStep(policy, files, j);
      ghost var done := Blocks(KeptFiles(policy, files[..j]));
      if keep {
        ghost var prev := w.lines;
        ProcessAndWriteFile(files[j].path, files[j].read, w);
        ghost var block := FileBlock(files[j].path, files[j].read);
        assert w.lines == prev + block;
        ConcatAssociative(old(w.lines), done, block);
      } else {
        assert done + [] == done;
      }
    }
    assert files[..|files|] == files;
  }

  /** The outer loop: the candidate directories in order, each one's kept files in listing order. */
  method ProcessDirectories(policy: Policy, directories: seq<string>, filesOf: string -> seq<ValidEntry>, w: Writer)
    modifies w
    ensures w.lines == old(w.lines) + DirsOutput(policy, directories, filesOf)
  {
    for i := 0 to |directories|
      invariant w.lines == old(w.lines) + DirsOutput(policy, directories[..i], filesOf)
    {
      ghost var done := DirsOutput(policy, directories[..i], filesOf);
      ghost var prev := w.lines;
      var files := filesOf(directories[i]);
      ProcessDirectory(policy, files, w);
      ghost var added := Blocks(KeptFiles(policy, files));
      assert w.lines == prev + added;
      ConcatAssociative(old(w.lines), done, added);
      DirsOutputStep(policy, directories, i, filesOf);
    }
    assert directories[..|directories|] == directories;
  }

  /**
   * `ProcessFilesAsync` after option handling: walk the candidate
   * directories (`subdirs` stands for `Directory.GetDirectories`, `filesOf`
   * for `Directory.GetFiles`) and write the block of every kept file.
   */
  method ProcessFiles(policy: Policy, subdirs: seq<string>, root: string,
                      filesOf: string -> seq<ValidEntry>, w: Writer)
    modifies w
    ensures w.lines == old(w.lines)
      + DirsOutput(policy, DirectoryCandidates(subdirs, root, policy.includeGlobber, policy.excludeGlobber, policy.matches), filesOf)
  {
    var directories := DirectoryCandidates(subdirs, root, policy.includeGlobber, policy.excludeGlobber, policy.matches);
    ProcessDirectories(policy, directories, filesOf, w);
  }

  /** Regrouping the written lines, which the loops need as one step of their own. */
  lemma ConcatAssociative(a: seq<string>, b: seq<string>, c: seq<string>)
    ensures (a + b) + c == a + (b + c)
  {
  }

  lemma DirsOutputStep(policy: Policy, dirs: seq<string>, i: nat, filesOf: string -> seq<ValidEntry>)
    requires i < |dirs|
    ensures DirsOutput(policy, dirs[..i + 1], filesOf)
      == DirsOutput(policy, dirs[..i], filesOf) + Blocks(KeptFiles(policy, filesOf(dirs[i])))
  {
    assert dirs[..i + 1][..i] == dirs[..i];
  }

  lemma KeptFilesStep(policy: Policy, files: seq<ValidEntry>, j: nat)
    requires j < |files|
    ensures Blocks(KeptFiles(policy, files[..j + 1]))
      == Blocks(KeptFiles(policy, files[..j])) + (if Kept(policy, files[j]) then FileBlock(files[j].path, files[j].read) else [])
  {
    assert files[..j + 1] == files[..j] + [files[j]];
    FilterAppend(files[..j], [files[j]], f => Kept(policy, f));
    var kept := KeptFiles(policy, files[..j]);
    if Kept(policy, files[j]) {
      assert (kept + [files[j]])[..|kept|] == kept;
    } else {
      assert kept + [] == kept;
    }
  }

  /** Blocks of a concatenation are the concatenation of the blocks. */
  lemma {:induction false} BlocksAppend(a: seq<ValidEntry>, b: seq<ValidEntry>)
    ensures Blocks(a + b) == Blocks(a) + Blocks(b)
    decreases |b|
  {
    if b == [] {
      assert a + b == a;
    } else {
      var init := b[..|b| - 1];
      var last := b[|b| - 1];
      assert b == init + [last];
      assert a + b == (a + init) + [last];
      BlocksAppend(a, init);
      BlocksSnoc(a + init, last);
      BlocksSnoc(init, last);
      ConcatAssociative(Blocks(a), Blocks(init), FileBlock(last.path, last.read));
    }
  }

  lemma BlocksSnoc(files: seq<ValidEntry>, f: ValidEntry)
    ensures Blocks(files + [f]) == Blocks(files) + FileBlock(f.path, f.read)
  {
    assert (files + [f])[..|files|] == files;
  }

  /** All the files of the listed directories, directory by directory. */
  function AllFiles(dirs: seq<string>, filesOf: string -> seq<ValidEntry>): seq<ValidEntry>
  {
    if dirs == [] then [] else AllFiles(dirs[..|dirs| - 1], filesOf) + filesOf(dirs[|dirs| - 1])
  }

  /**
   * The nested loops write exactly the blocks of the kept files among all
   * listed files, in walk order: no file is skipped, repeated or reordered.
   */
  lemma {:induction false} DirsOutputIsFlat(policy: Policy, dirs: seq<string>, filesOf: string -> seq<ValidEntry>)
    ensures DirsOutput(policy, dirs, filesOf) == Blocks(KeptFiles(policy, AllFiles(dirs, filesOf)))
  {
    if dirs != [] {
      var init := dirs[..|dirs| - 1];
      var last := filesOf(dirs[|dirs| - 1]);
      DirsOutputIsFlat(policy, init, filesOf);
      FilterAppend(AllFiles(init, filesOf), last, f => Kept(policy, f));
      BlocksAppend(KeptFiles(policy, AllFiles(init, filesOf)), KeptFiles(policy, last));
    }
  }

  /** A file that is not kept contributes no line; a kept one contributes its whole block. */
  lemma BlocksOfOneFile(policy: Policy, f: ValidEntry)
    ensures Blocks(KeptFiles(policy, [f])) == if Kept(policy, f) then FileBlock(f.path, f.read) else []
  {
    assert [f][1..] == [];
    if Kept(policy, f) {
      assert KeptFiles(policy, [f]) == [f];
      assert [f][..0] == [];
    }
  }
}

=== FILE: globbing.dfy ===
/**
 * `Globber` (Globber.cs): a list of glob patterns read from text, and the
 * test whether any of them matches a path. The glob semantics themselves
 * belong to an external library; they enter the model as the relation
 * `matches(pattern, path)`, a parameter of every query.
 */
module Globbing {
  import opened Seqs
  import opened Strings

  /** A parsed glob (`Glob.Parse(pattern)`), remembered by its pattern text. */
  datatype Glob = Glob(pattern: string)

  /** The stored `Patterns` and the globs parsed from them, in the same order. */
  datatype Globber = Globber(Patterns: seq<string>, globs: seq<Glob>)

  /** The characters the pattern text is split at. */
  const PatternSeparators: set<char> := {' ', '\n', '\r'}

  function IsNotBlank(p: string): bool
  {
    !IsBlank(p)
  }

  /** One glob per pattern, in order. */
  function ParseAll(patterns: seq<string>): (globs: seq<Glob>)
    ensures |globs| == |patterns|
    ensures forall i :: 0 <= i < |patterns| ==> globs[i] == Glob(patterns[i])
  {
    if patterns == [] then [] else [Glob(patterns[0])] + ParseAll(patterns[1..])
  }

  /** `new Globber(IEnumerable<string> patterns)`: blank patterns are dropped. */
  function FromPatterns(patterns: seq<string>): (g: Globber)
    ensures forall i :: 0 <= i < |g.Patterns| ==> !IsBlank(g.Patterns[i])
    ensures forall i :: 0 <= i < |patterns| && !IsBlank(patterns[i]) ==> patterns[i] in g.Patterns
    ensures IsSubsequence(g.Patterns, patterns)
    ensures |g.globs| == |g.Patterns|
    ensures forall i :: 0 <= i < |g.globs| ==> g.globs[i].pattern == g.Patterns[i]
  {
    var kept := Filter(patterns, IsNotBlank);
    FilterIsSubsequence(patterns, IsNotBlank);
    Globber(kept, ParseAll(kept))
  }

  /** `new Globber(string patterns)`: split at space, LF and CR, empty pieces removed. */
  function FromText(text: string): (g: Globber)
  {
    FromPatterns(Tokens(text, PatternSeparators))
  }

  /** `IsMatch(path)`: some stored glob matches the path. */
  function IsMatch(g: Globber, matches: (string, string) -> bool, path: string): (r: bool)
    ensures r <==> exists i :: 0 <= i < |g.globs| && matches(g.globs[i].pattern, path)
  {
    AnyMatch(g.globs, matches, path)
  }

  function AnyMatch(globs: seq<Glob>, matches: (string, string) -> bool, path: string): (r: bool)
    ensures r <==> exists i :: 0 <= i < |globs| && matches(globs[i].pattern, path)
  {
    if globs == [] then false
    else if matches(globs[0].pattern, path) then true
    else
      assert forall i :: 1 <= i < |globs| ==> globs[i] == globs[1..][i - 1];
      AnyMatch(globs[1..], matches, path)
  }

  /** Every stored pattern is a non-empty, non-blank piece of the text without separators. */
  lemma FromTextPatterns(text: string)
    ensures forall i :: 0 <= i < |FromText(text).Patterns| ==>
      var p := FromText(text).Patterns[i];
      p != [] && NoneOf(p, PatternSeparators) && !IsBlank(p)
  {
    var tokens := Tokens(text, PatternSeparators);
    var g := FromText(text);
    forall i | 0 <= i < |g.Patterns|
      ensures g.Patterns[i] != [] && NoneOf(g.Patterns[i], PatternSeparators)
    {
      assert g.Patterns[i] in tokens;
    }
  }

  /** The patterns are exactly the non-blank tokens, in text order. */
  lemma FromTextOrder(text: string)
    ensures FromText(text).Patterns == Filter(Tokens(text, PatternSeparators), IsNotBlank)
    ensures IsSubsequence(FromText(text).Patterns, Split(text, PatternSeparators))
  {
    var pieces := Split(text, PatternSeparators);
    var tokens := Tokens(text, PatternSeparators);
    FilterIsSubsequence(pieces, IsNonEmpty);
    FilterIsSubsequence(tokens, IsNotBlank);
    SubsequenceTransitive(FromText(text).Patterns, tokens, pieces);
  }

  /** A text with nothing but white space yields no pattern, so it matches no path. */
  lemma BlankTextMatchesNothing(text: string, matches: (string, string) -> bool, path: string)
    requires IsBlank(text)
    ensures FromText(text).Patterns == []
    ensures !IsMatch(FromText(text), matches, path)
  {
    var tokens := Tokens(text, PatternSeparators);
    SplitPiecesInText(text, PatternSeparators);
    forall i | 0 <= i < |tokens|
      ensures IsBlank(tokens[i])
    {
      assert tokens[i] in Split(text, PatternSeparators);
    }
    FilterNoneKept(tokens, IsNotBlank);
  }

  /**
   * The exclude list is built from the skipped paths and the ignore-file
   * text joined by a space: its patterns are those of the two parts, in order.
   */
  lemma FromTextJoined(a: string, b: string)
    ensures FromText(a + " " + b).Patterns == FromText(a).Patterns + FromText(b).Patterns
  {
    SplitConcat(a, ' ', b, PatternSeparators);
    assert a + [' '] + b == a + " " + b;
    FilterAppend(Split(a, PatternSeparators), Split(b, PatternSeparators), IsNonEmpty);
    FilterAppend(Tokens(a, PatternSeparators), Tokens(b, PatternSeparators), IsNotBlank);
  }
}

=== FILE: inclusion.dfy ===
/**
 * The inclusion rules of Program.cs: which bytes count as printable, when a
 * file is classified as binary from a sample of its first bytes, the
 * include/exclude override, and the sorted list of candidate directories.
 */
module Inclusion {
  import opened Seqs
  import opened Strings
  import opened Globbing

  newtype byte = b: int | 0 <= b < 256

  // ---------------------------------------------------------------------
  // IsPrintable / IsBinary
  // ---------------------------------------------------------------------

  /** `IsPrintable`: an ASCII graphic character or space, a line feed or a carriage return. */
  predicate IsPrintable(b: byte)
  {
    (0x20 <= b <= 0x7E) || b == 0x0A || b == 0x0D
  }

  /** Tab, vertical tab, form feed and NUL count as non-printable; space, LF and CR do not. */
  lemma ControlBytes()
    ensures !IsPrintable(0x09) && !IsPrintable(0x0B) && !IsPrintable(0x0C) && !IsPrintable(0x00)
    ensures IsPrintable(0x20) && IsPrintable(0x0A) && IsPrintable(0x0D) && !IsPrintable(0x7F)
  {
  }

  /** The number of bytes `IsBinary` reads at most. */
  const SampleSize: nat := 1024

  /**
   * The outcome of opening the file and reading its sample: the count
   * `stream.Read` returned, or a failure (an exception while opening or
   * reading).
   */
  datatype SampleRead = ReadFailed | ReadOk(readLength: nat)

  /** `stream.Read(buffer, 0, 1024)` returns at most 1024 bytes and no more than the file holds. */
  predicate ValidRead(file: seq<byte>, read: SampleRead)
  {
    read.ReadOk? ==> read.readLength <= SampleSize && read.readLength <= |file|
  }

  /** How many bytes of `bytes` are not printable. */
  function NonPrintableCount(bytes: seq<byte>): (n: nat)
    ensures n <= |bytes|
  {
    if bytes == [] then 0
    else NonPrintableCount(bytes[..|bytes| - 1]) + (if IsPrintable(bytes[|bytes| - 1]) then 0 else 1)
  }

  /**
   * The classification `IsBinary` computes, with the ratio test written as
   * the integer inequality 10 * count > 3 * length. A failed read means
   * binary; an empty sample means not binary; otherwise the file is binary
   * exactly when more than 30% of the sample is non-printable.
   */
  function Classify(file: seq<byte>, read: SampleRead): (binary: bool)
    requires ValidRead(file, read)
    ensures read.ReadFailed? ==> binary
    ensures read == ReadOk(0) ==> !binary
    ensures read.ReadOk? && read.readLength > 0 ==>
      (binary <==> (NonPrintableCount(file[..read.readLength]) as real) / (read.readLength as real) > 0.3)
  {
    match read
    case ReadFailed => true
    case ReadOk(readLength) =>
      if readLength == 0 then false
      else
        var count := NonPrintableCount(file[..readLength]);
        RatioAsIntegers(count, readLength);
        10 * count > 3 * readLength
  }

  /** For a positive length, the ratio test and its integer form agree. */
  lemma RatioAsIntegers(count: nat, length: nat)
    requires length > 0
    ensures (count as real) / (length as real) > 0.3 <==> 10 * count > 3 * length
  {
    var c, n := count as real, length as real;
    var q := c / n;
    DivTimes(c, n);
    if q > 0.3 {
      ScaleStrict(0.3, q, n);
      assert 0.3 * n < c;
      assert (3 * length) as real < (10 * count) as real;
    } else {
      ScaleWeak(q, 0.3, n);
      assert c <= 0.3 * n;
      assert (10 * count) as real <= (3 * length) as real;
    }
  }

  lemma DivTimes(c: real, n: real)
    requires n != 0.0
    ensures (c / n) * n == c
  {
  }

  lemma ScaleStrict(a: real, b: real, n: real)
    requires a < b && n > 0.0
    ensures a * n < b * n
  {
    assert (b - a) * n > 0.0;
  }

  lemma ScaleWeak(a: real, b: real, n: real)
    requires a <= b && n > 0.0
    ensures a * n <= b * n
  {
    assert (b - a) * n >= 0.0;
  }

  /** `IsBinary`: copies the sample into a 1024-byte buffer and counts its non-printable bytes. */
  method IsBinary(file: seq<byte>, read: SampleRead) returns (binary: bool)
    requires ValidRead(file, read)
    ensures binary == Classify(file, read)
  {
    if read.ReadFailed? {
      return true;
    }
    var readLength := read.readLength;
    var buffer := new byte[SampleSize];
    for k := 0 to readLength
      invariant buffer[..k] == file[..k]
    {
      buffer[k] := file[k];
    }
    if readLength == 0 {
      return false;
    }
    var nonPrintableCount := 0;
    for k := 0 to readLength
      invariant nonPrintableCount == NonPrintableCount(buffer[..k])
    {
      assert buffer[..k + 1][..k] == buffer[..k];
      if !IsPrintable(buffer[k]) {
        nonPrintableCount := nonPrintableCount + 1;
      }
    }
    assert buffer[..readLength] == file[..readLength];
    binary := 10 * nonPrintableCount > 3 * readLength;
  }

  /** Only the sample decides: files that agree on the bytes read are classified alike. */
  lemma ClassifySampleOnly(file: seq<byte>, other: seq<byte>, n: nat)
    requires n <= SampleSize && n <= |file| && n <= |other| && file[..n] == other[..n]
    ensures Classify(file, ReadOk(n)) == Classify(other, ReadOk(n))
  {
  }

  lemma {:induction false} NonPrintableAppend(a: seq<byte>, b: seq<byte>)
    ensures NonPrintableCount(a + b) == NonPrintableCount(a) + NonPrintableCount(b)
    decreases |b|
  {
    if b != [] {
      assert (a + b)[..|a + b| - 1] == a + b[..|b| - 1];
      NonPrintableAppend(a, b[..|b| - 1]);
    } else {
      assert a + b == a;
    }
  }

  lemma {:induction false} CountUniform(bytes: seq<byte>, printable: bool)
    requires forall i :: 0 <= i < |bytes| ==> IsPrintable(bytes[i]) == printable
    ensures NonPrintableCount(bytes) == if printable then 0 else |bytes|
  {
    if bytes != [] {
      CountUniform(bytes[..|bytes| - 1], printable);
    }
  }

  /** Exactly 30% non-printable is not binary; the comparison is strict. */
  lemma ThirtyPercentIsText(file: seq<byte>)
    requires file == [0, 0, 0, 65, 65, 65, 65, 65, 65, 65]
    ensures NonPrintableCount(file) == 3
    ensures !Classify(file, ReadOk(10))
  {
    assert file == file[..3] + file[3..];
    CountUniform(file[..3], false);
    CountUniform(file[3..], true);
    NonPrintableAppend(file[..3], file[3..]);
    assert file[..10] == file;
  }

  /** A sample that is mostly tab indentation counts as binary. */
  lemma TabIndentedSampleIsBinary(file: seq<byte>)
    requires file == [0x09, 0x09, 0x78, 0x0A]
    ensures Classify(file, ReadOk(4))
  {
    assert file == file[..2] + file[2..];
    CountUniform(file[..2], false);
    CountUniform(file[2..], true);
    NonPrintableAppend(file[..2], file[2..]);
    assert file[..4] == file;
  }

  // ---------------------------------------------------------------------
  // ShouldBeIncluded
  // ---------------------------------------------------------------------

  /**
   * `ShouldBeIncluded`: an explicit include match wins over any exclude
   * match; otherwise a path is kept unless an exclude pattern matches it.
   */
  function ShouldBeIncluded(includeGlobber: Globber, excludeGlobber: Globber, matches: (string, string) -> bool, path: string): (r: bool)
    ensures IsMatch(includeGlobber, matches, path) ==> r
    ensures !IsMatch(includeGlobber, matches, path) ==> (r <==> !IsMatch(excludeGlobber, matches, path))
  {
    IsMatch(includeGlobber, matches, path) || !IsMatch(excludeGlobber, matches, path)
  }

  /** Without include patterns (the default), a path is kept exactly when no exclude pattern matches it. */
  lemma NoIncludePatterns(excludeGlobber: Globber, matches: (string, string) -> bool, path: string, text: string)
    requires IsBlank(text)
    ensures ShouldBeIncluded(FromText(text), excludeGlobber, matches, path)
      <==> forall i :: 0 <= i < |excludeGlobber.globs| ==> !matches(excludeGlobber.globs[i].pattern, path)
  {
    BlankTextMatchesNothing(text, matches, path);
  }

  /**
   * An explicit include re-admits a path that an exclude pattern matches,
   * while the exclude still drops the other paths it matches: with exclude
   * text "*.log" and include text "important.log", "important.log" is kept
   * and "debug.log" is not.
   */
  lemma IncludeOverridesExclude(incText: string, excText: string, matches: (string, string) -> bool,
                                kept: string, dropped: string)
    requires incText != [] && NoneOf(incText, PatternSeparators) && !IsBlank(incText)
    requires excText != [] && NoneOf(excText, PatternSeparators) && !IsBlank(excText)
    requires matches(excText, kept) && matches(excText, dropped)
    requires matches(incText, kept) && !matches(incText, dropped)
    ensures ShouldBeIncluded(FromText(incText), FromText(excText), matches, kept)
    ensures !ShouldBeIncluded(FromText(incText), FromText(excText), matches, dropped)
  {
    SingleToken(incText);
    SingleToken(excText);
  }

  /** A text with no separator and some non-white-space character is one pattern. */
  lemma SingleToken(text: string)
    requires text != [] && NoneOf(text, PatternSeparators) && !IsBlank(text)
    ensures FromText(text).Patterns == [text]
    ensures FromText(text).globs == [Glob(text)]
  {
    SplitNoSeparator(text, PatternSeparators);
    assert Tokens(text, PatternSeparators) == [text];
  }

  // ---------------------------------------------------------------------
  // Directory candidates
  // ---------------------------------------------------------------------

  /** Each directory with "/" appended. */
  function WithSlash(dirs: seq<string>): (r: seq<string>)
    ensures |r| == |dirs|
    ensures forall i :: 0 <= i < |dirs| ==> r[i] == dirs[i] + "/"
  {
    if dirs == [] then [] else [dirs[0] + "/"] + WithSlash(dirs[1..])
  }

  /** Ordinal string order: character codes compared left to right, a prefix first. */
  predicate OrdinalLessEq(a: string, b: string)
  {
    a == [] || (b != [] && (a[0] < b[0] || (a[0] == b[0] && OrdinalLessEq(a[1..], b[1..]))))
  }

  lemma {:induction false} OrdinalTotal(a: string, b: string)
    ensures OrdinalLessEq(a, b) || OrdinalLessEq(b, a)
  {
    if a != [] && b != [] && a[0] == b[0] {
      OrdinalTotal(a[1..], b[1..]);
    }
  }

  predicate Sorted(s: seq<string>)
  {
    forall i :: 0 < i < |s| ==> OrdinalLessEq(s[i - 1], s[i])
  }

  function Insert(x: string, s: seq<string>): (r: seq<string>)
    requires Sorted(s)
    ensures Sorted(r)
    ensures multiset(r) == multiset(s) + multiset{x}
    ensures r != [] && (r[0] == x || (s != [] && r[0] == s[0]))
  {
    if s == [] || OrdinalLessEq(x, s[0]) then [x] + s
    else
      OrdinalTotal(x, s[0]);
      var rest := Insert(x, s[1..]);
      assert s == [s[0]] + s[1..];
      [s[0]] + rest
  }

  /** `.Order()` on strings, taken as ordinal order: a sorted permutation. */
  function SortOrdinal(s: seq<string>): (r: seq<string>)
    ensures Sorted(r)
    ensures multiset(r) == multiset(s)
  {
    if s == [] then []
    else
      assert s == [s[0]] + s[1..];
      Insert(s[0], SortOrdinal(s[1..]))
  }

  /**
   * The directories the program walks: every subdirectory and the input
   * root, with "/" appended, kept when `ShouldBeIncluded`, in sorted order:
   * a sorted permutation of the kept candidates.
   */
  function DirectoryCandidates(subdirs: seq<string>, root: string, includeGlobber: Globber, excludeGlobber: Globber,
                               matches: (string, string) -> bool): (r: seq<string>)
    ensures Sorted(r)
    ensures forall d :: d in r <==> d in WithSlash(subdirs + [root]) && ShouldBeIncluded(includeGlobber, excludeGlobber, matches, d)
    ensures multiset(r) == multiset(Filter(WithSlash(subdirs + [root]), d => ShouldBeIncluded(includeGlobber, excludeGlobber, matches, d)))
  {
    var candidates := WithSlash(subdirs + [root]);
    var kept := Filter(candidates, d => ShouldBeIncluded(includeGlobber, excludeGlobber, matches, d));
    var r := SortOrdinal(kept);
    SameMultisetSameMembers(r, kept);
    r
  }

  lemma SameMultisetSameMembers(a: seq<string>, b: seq<string>)
    requires multiset(a) == multiset(b)
    ensures forall d :: d in a <==> d in b
  {
    forall d
      ensures d in a <==> d in b
    {
      assert d in a <==> d in multiset(a);
      assert d in b <==> d in multiset(b);
    }
  }
}

=== FILE: regexes.dfy ===
/**
 * The regular expressions the compression stages apply with
 * `Regex.Replace`, and the replacement scan itself with the .NET engine's
 * semantics: the leftmost match wins, quantifiers are greedy, scanning
 * resumes after a match, and `\b` looks at the characters of the input.
 * A pattern is given by its matcher, which measures its match at the start
 * of a text, and its rewriter, which says what replaces a match. Each
 * pattern also has a declarative description of its matches (`IsVersion`,
 * `ShapeAt`, `AccessorAt`, `LongLiteralAt`, `LargeNumberAt`, `WordAt`),
 * and the lemmas about `ReplaceAll` state that the scan copies the text
 * before the leftmost match, replaces that match and carries on after it.
 */
module Regexes {
  import opened Seqs
  import opened Strings

  /**
   * A matcher: the length of a pattern's match at the start of a text, or
   * 0 when there is none, given whether the character before the text is a
   * word character (what a leading `\b` looks at).
   */
  type Matcher = (string, bool) -> nat

  /** A rewriter: what replaces a match of the given length at the start of a text. */
  type Rewriter = (string, nat) -> string

  /** A matcher never measures past the end of the text. */
  ghost predicate Measures(m: Matcher)
  {
    forall t, afterWord :: m(t, afterWord) <= |t|
  }

  /**
   * `Regex.Replace` over `s`: scanning left to right, a match at the
   * current position is replaced and scanning resumes after it; elsewhere
   * the character is kept and scanning moves on by one.
   */
  function ReplaceAll(m: Matcher, r: Rewriter, s: string, afterWord: bool): string
    requires Measures(m)
    decreases |s|
  {
    if s == [] then []
    else
      var n := m(s, afterWord);
      if n > 0 then r(s, n) + ReplaceAll(m, r, s[n..], IsWordChar(s[n - 1]))
      else [s[0]] + ReplaceAll(m, r, s[1..], IsWordChar(s[0]))
  }

  /** The rewriter that puts `text` in place of every match. */
  function Constant(text: string): Rewriter
  {
    (t: string, n: nat) => text
  }

  /** Whether the character before position `j` of `s` is a word character. */
  predicate AfterWordAt(s: string, j: nat, afterWord: bool)
    requires j <= |s|
  {
    if j == 0 then afterWord else IsWordChar(s[j - 1])
  }

  /** The length of the match at position `j` of `s`, or 0. */
  function MatchAt(m: Matcher, s: string, afterWord: bool, j: nat): (n: nat)
    requires Measures(m) && j <= |s|
    ensures j + n <= |s|
  {
    m(s[j..], AfterWordAt(s, j, afterWord))
  }

  /** With no match at `j`, the scan keeps `s[j]` and moves on. */
  lemma ReplaceAllStep(m: Matcher, r: Rewriter, s: string, afterWord: bool, j: nat)
    requires Measures(m) && j < |s| && MatchAt(m, s, afterWord, j) == 0
    ensures ReplaceAll(m, r, s[j..], AfterWordAt(s, j, afterWord))
      == [s[j]] + ReplaceAll(m, r, s[j + 1..], AfterWordAt(s, j + 1, afterWord))
  {
    SuffixOfSuffix(s, j, 1);
  }

  /** A match at `j` is replaced and the scan resumes after it. */
  lemma ReplaceAllMatched(m: Matcher, r: Rewriter, s: string, afterWord: bool, j: nat, n: nat)
    requires Measures(m) && j <= |s| && n == MatchAt(m, s, afterWord, j) > 0
    ensures ReplaceAll(m, r, s[j..], AfterWordAt(s, j, afterWord))
      == r(s[j..], n) + ReplaceAll(m, r, s[j + n..], IsWordChar(s[j + n - 1]))
  {
    SuffixOfSuffix(s, j, n);
    assert s[j..][n - 1] == s[j + n - 1];
  }

  /** Without a match at `j`, what the scan yields from `j + 1` is preceded by `s[j]`. */
  lemma ReplaceAllKeepOne(m: Matcher, r: Rewriter, s: string, afterWord: bool, j: nat, i: nat, rest: string)
    requires Measures(m) && j < i <= |s| && MatchAt(m, s, afterWord, j) == 0
    requires ReplaceAll(m, r, s[j + 1..], AfterWordAt(s, j + 1, afterWord)) == s[j + 1..i] + rest
    ensures ReplaceAll(m, r, s[j..], AfterWordAt(s, j, afterWord)) == s[j..i] + rest
  {
    ReplaceAllStep(m, r, s, afterWord, j);
    KeptBeforeRest(s, j, i, ReplaceAll(m, r, s[j..], AfterWordAt(s, j, afterWord)),
      ReplaceAll(m, r, s[j + 1..], AfterWordAt(s, j + 1, afterWord)), rest);
  }

  /** Positions `j` up to `i` where nothing matches are copied unchanged. */
  lemma {:induction false} ReplaceAllKeepPrefix(m: Matcher, r: Rewriter, s: string, afterWord: bool, j: nat, i: nat)
    requires Measures(m) && j <= i <= |s|
    requires forall k :: j <= k < i ==> MatchAt(m, s, afterWord, k) == 0
    ensures ReplaceAll(m, r, s[j..], AfterWordAt(s, j, afterWord))
      == s[j..i] + ReplaceAll(m, r, s[i..], AfterWordAt(s, i, afterWord))
    decreases i - j
  {
    if j < i {
      ReplaceAllKeepPrefix(m, r, s, afterWord, j + 1, i);
      ReplaceAllKeepOne(m, r, s, afterWord, j, i, ReplaceAll(m, r, s[i..], AfterWordAt(s, i, afterWord)));
    } else {
      assert s[j..i] == [];
    }
  }

  /**
   * The scan copies the text before the leftmost match, replaces that
   * match and carries on after it.
   */
  lemma ReplaceAllLeftmost(m: Matcher, r: Rewriter, s: string, afterWord: bool, i: nat, n: nat)
    requires Measures(m) && i <= |s| && n == MatchAt(m, s, afterWord, i) > 0
    requires forall k :: 0 <= k < i ==> MatchAt(m, s, afterWord, k) == 0
    ensures ReplaceAll(m, r, s, afterWord)
      == s[..i] + r(s[i..], n) + ReplaceAll(m, r, s[i + n..], IsWordChar(s[i + n - 1]))
  {
    ReplaceAllKeepPrefix(m, r, s, afterWord, 0, i);
    ReplaceAllMatched(m, r, s, afterWord, i, n);
    assert s[0..] == s && s[0..i] == s[..i];
    JoinedAfterPrefix(s[..i], ReplaceAll(m, r, s, afterWord), ReplaceAll(m, r, s[i..], AfterWordAt(s, i, afterWord)),
      r(s[i..], n), ReplaceAll(m, r, s[i + n..], IsWordChar(s[i + n - 1])));
  }

  /** A text with no match anywhere is unchanged. */
  lemma ReplaceAllNone(m: Matcher, r: Rewriter, s: string, afterWord: bool)
    requires Measures(m)
    requires forall k :: 0 <= k < |s| ==> MatchAt(m, s, afterWord, k) == 0
    ensures ReplaceAll(m, r, s, afterWord) == s
  {
    ReplaceAllKeepPrefix(m, r, s, afterWord, 0, |s|);
    assert s[0..] == s && s[0..|s|] == s && s[|s|..] == [];
  }

  /** A pattern without `\b` is replaced the same way whatever precedes the text. */
  lemma ReplaceAllIgnoresWordBefore(m: Matcher, r: Rewriter, s: string, afterWord: bool)
    requires Measures(m) && forall t :: m(t, true) == m(t, false)
    ensures ReplaceAll(m, r, s, afterWord) == ReplaceAll(m, r, s, false)
  {
    if s != [] {
      assert m(s, afterWord) == m(s, false);
    }
  }

  /**
   * When nothing matches before `i`, the scan yields `s[..i]` followed by
   * whatever it yields from `i`.
   */
  lemma ReplaceAllFrom(m: Matcher, r: Rewriter, s: string, i: nat, suffix: string)
    requires Measures(m) && i <= |s|
    requires forall k :: 0 <= k < i ==> MatchAt(m, s, false, k) == 0
    requires ReplaceAll(m, r, s[i..], AfterWordAt(s, i, false)) == suffix
    ensures ReplaceAll(m, r, s, false) == s[..i] + suffix
  {
    ReplaceAllKeepPrefix(m, r, s, false, 0, i);
    assert s[0..] == s && s[0..i] == s[..i];
  }

  /**
   * For a pattern without `\b` replaced by a constant text, the leftmost
   * match becomes that text and the rest is scanned as a text of its own.
   */
  lemma ReplaceAllLeftmostConstant(m: Matcher, text: string, s: string, i: nat, n: nat)
    requires Measures(m) && forall t :: m(t, true) == m(t, false)
    requires i <= |s| && n == MatchAt(m, s, false, i) > 0
    requires forall k :: 0 <= k < i ==> MatchAt(m, s, false, k) == 0
    ensures i + n <= |s|
    ensures ReplaceAll(m, Constant(text), s, false) == s[..i] + (text + ReplaceAll(m, Constant(text), s[i + n..], false))
  {
    ReplaceAllMatched(m, Constant(text), s, false, i, n);
    ReplaceAllIgnoresWordBefore(m, Constant(text), s[i + n..], IsWordChar(s[i + n - 1]));
    ReplaceAllFrom(m, Constant(text), s, i, text + ReplaceAll(m, Constant(text), s[i + n..], false));
  }

  /**
   * For a pattern replaced by a constant text whose match ends with a word
   * character, the rest is scanned as a text that follows a word.
   */
  lemma ReplaceAllLeftmostConstantWord(m: Matcher, text: string, s: string, i: nat, n: nat)
    requires Measures(m) && i <= |s| && n == MatchAt(m, s, false, i) > 0
    requires forall k :: 0 <= k < i ==> MatchAt(m, s, false, k) == 0
    requires IsWordChar(s[i + n - 1])
    ensures ReplaceAll(m, Constant(text), s, false) == s[..i] + (text + ReplaceAll(m, Constant(text), s[i + n..], true))
  {
    ReplaceAllMatched(m, Constant(text), s, false, i, n);
    ReplaceAllAfterWord(m, Constant(text), s[i + n..], IsWordChar(s[i + n - 1]));
    ReplaceAllFrom(m, Constant(text), s, i, text + ReplaceAll(m, Constant(text), s[i + n..], true));
  }

  /**
   * Replacing every match of `m` by `text` in `s` keeps `s[..i]`, puts
   * `text` for the `n` characters at `i`, and scans the rest after a word.
   */
  ghost predicate SplitsAt(m: Matcher, text: string, s: string, i: nat, n: nat)
    requires Measures(m) && i + n <= |s|
  {
    ReplaceAll(m, Constant(text), s, false) == s[..i] + (text + ReplaceAll(m, Constant(text), s[i + n..], true))
  }

  /** `ReplaceAllLeftmostConstantWord`, stated through `SplitsAt`. */
  lemma {:induction false} LeftmostConstantWordSplits(m: Matcher, text: string, s: string, i: nat, n: nat)
    requires Measures(m) && i <= |s| && n == MatchAt(m, s, false, i) > 0
    requires forall k :: 0 <= k < i ==> MatchAt(m, s, false, k) == 0
    requires IsWordChar(s[i + n - 1])
    ensures SplitsAt(m, text, s, i, n)
  {
    ReplaceAllLeftmostConstantWord(m, text, s, i, n);
  }

  /**
   * For a pattern replaced by its last character, which is a word
   * character, the leftmost match shrinks to that character and the rest
   * is scanned as a text that follows a word.
   */
  lemma ReplaceAllLeftmostKeepLast(m: Matcher, s: string, i: nat, e: nat)
    requires Measures(m) && i < e < |s| && IsWordChar(s[e])
    requires MatchAt(m, s, false, i) == e - i + 1
    requires forall k :: 0 <= k < i ==> MatchAt(m, s, false, k) == 0
    ensures ReplaceAll(m, KeepLast, s, false) == s[..i] + ([s[e]] + ReplaceAll(m, KeepLast, s[e + 1..], true))
  {
    ReplaceAllMatchedKeepLast(m, s, i, e);
    ReplaceAllFrom(m, KeepLast, s, i, [s[e]] + ReplaceAll(m, KeepLast, s[e + 1..], true));
  }

  lemma ReplaceAllMatchedKeepLast(m: Matcher, s: string, i: nat, e: nat)
    requires Measures(m) && i < e < |s| && IsWordChar(s[e])
    requires MatchAt(m, s, false, i) == e - i + 1
    ensures ReplaceAll(m, KeepLast, s[i..], AfterWordAt(s, i, false)) == [s[e]] + ReplaceAll(m, KeepLast, s[e + 1..], true)
  {
    var n := e - i + 1;
    var r: Rewriter := KeepLast;
    ReplaceAllMatched(m, r, s, false, i, n);
    assert s[i..][n - 1] == s[e];
    assert r(s[i..], n) == [s[e]];
    ReplaceAllAfterWord(m, r, s[i + n..], IsWordChar(s[i + n - 1]));
  }

  lemma ReplaceAllAfterWord(m: Matcher, r: Rewriter, t: string, afterWord: bool)
    requires Measures(m) && afterWord
    ensures ReplaceAll(m, r, t, afterWord) == ReplaceAll(m, r, t, true)
  {
  }

  /** A pattern that begins with `\b` replaces nothing inside a word. */
  lemma {:induction false} ReplaceAllInsideWord(m: Matcher, r: Rewriter, s: string)
    requires Measures(m) && forall t :: m(t, true) == 0
    requires forall i :: 0 <= i < |s| ==> IsWordChar(s[i])
    ensures ReplaceAll(m, r, s, true) == s
    decreases |s|
  {
    if s != [] {
      assert m(s, true) == 0;
      ReplaceAllInsideWord(m, r, s[1..]);
      assert s == [s[0]] + s[1..];
    }
  }

  /** No character of `t` is an anchor. */
  ghost predicate Lacks(t: string, anchor: char -> bool)
  {
    forall i :: 0 <= i < |t| ==> !anchor(t[i])
  }

  /** Every match of `m` contains an anchor character. */
  ghost predicate Anchored(m: Matcher, anchor: char -> bool)
  {
    forall t, afterWord :: Lacks(t, anchor) ==> m(t, afterWord) == 0
  }

  /** A text without an anchor character is unchanged. */
  lemma {:induction false} ReplaceAllFrame(m: Matcher, r: Rewriter, anchor: char -> bool, s: string, afterWord: bool)
    requires Measures(m) && Anchored(m, anchor) && Lacks(s, anchor)
    ensures ReplaceAll(m, r, s, afterWord) == s
    decreases |s|
  {
    if s != [] {
      assert m(s, afterWord) == 0;
      assert Lacks(s[1..], anchor);
      ReplaceAllFrame(m, r, anchor, s[1..], IsWordChar(s[0]));
    }
  }

  /** A rewriter that brings no line break into a single line. */
  ghost predicate KeepsOneLine(r: Rewriter)
  {
    forall t, n :: NoneOf(t, {'\n'}) && 0 < n <= |t| ==> NoneOf(r(t, n), {'\n'})
  }

  /** Replacing matches brings no line break into a single line. */
  lemma {:induction false} ReplaceAllOneLine(m: Matcher, r: Rewriter, s: string, afterWord: bool)
    requires Measures(m) && KeepsOneLine(r)
    ensures NoneOf(s, {'\n'}) ==> NoneOf(ReplaceAll(m, r, s, afterWord), {'\n'})
    decreases |s|
  {
    if s != [] && NoneOf(s, {'\n'}) {
      var n := m(s, afterWord);
      if n > 0 {
        ReplaceAllOneLine(m, r, s[n..], IsWordChar(s[n - 1]));
        NoneOfAppend(r(s, n), ReplaceAll(m, r, s[n..], IsWordChar(s[n - 1])), {'\n'});
      } else {
        ReplaceAllOneLine(m, r, s[1..], IsWordChar(s[0]));
      }
    }
  }

  /** Every replacement is no longer than the match it replaces. */
  ghost predicate Shortens(m: Matcher, r: Rewriter)
  {
    forall t, afterWord :: m(t, afterWord) > 0 ==> |r(t, m(t, afterWord))| <= m(t, afterWord)
  }

  /** Such a pattern never lengthens the text. */
  lemma {:induction false} ReplaceAllNeverLonger(m: Matcher, r: Rewriter, s: string, afterWord: bool)
    requires Measures(m) && Shortens(m, r)
    ensures |ReplaceAll(m, r, s, afterWord)| <= |s|
    decreases |s|
  {
    if s != [] {
      var n := m(s, afterWord);
      if n > 0 {
        ReplaceAllNeverLonger(m, r, s[n..], IsWordChar(s[n - 1]));
      } else {
        ReplaceAllNeverLonger(m, r, s[1..], IsWordChar(s[0]));
      }
    }
  }

  // ---------------------------------------------------------------------
  // Digit runs and version numbers
  // ---------------------------------------------------------------------

  /** The length of the run of digits starting at `i` (what a greedy `\d+` takes). */
  function DigitRun(s: string, i: nat): (n: nat)
    requires i <= |s|
    ensures i + n <= |s|
    ensures forall j :: i <= j < i + n ==> IsDigit(s[j])
    ensures i + n < |s| ==> !IsDigit(s[i + n])
    decreases |s| - i
  {
    if i < |s| && IsDigit(s[i]) then 1 + DigitRun(s, i + 1) else 0
  }

  /** A run of digits from `i` that ends at `e` is what DigitRun measures. */
  lemma DigitRunIs(s: string, i: nat, e: nat)
    requires i <= e <= |s|
    requires forall j :: i <= j < e ==> IsDigit(s[j])
    requires e == |s| || !IsDigit(s[e])
    ensures DigitRun(s, i) == e - i
  {
  }

  /** Digits from `i` up to `e` make a run reaching at least `e`. */
  lemma DigitRunAtLeast(s: string, i: nat, e: nat)
    requires i <= e <= |s|
    requires forall j :: i <= j < e ==> IsDigit(s[j])
    ensures i + DigitRun(s, i) >= e
  {
  }

  /**
   * The length of a `\.\d+` match at `i` (the dot and all the digits after
   * it), or 0 when no digit follows a dot there.
   */
  function DotDigits(s: string, i: nat): (n: nat)
    requires i <= |s|
    ensures i + n <= |s|
    ensures n > 0 <==> i + 1 < |s| && s[i] == '.' && IsDigit(s[i + 1])
    ensures n > 0 ==> n >= 2 && s[i] == '.'
    ensures n > 0 ==> (forall j :: i < j < i + n ==> IsDigit(s[j])) && (i + n == |s| || !IsDigit(s[i + n]))
  {
    if i < |s| && s[i] == '.' && DigitRun(s, i + 1) > 0 then 1 + DigitRun(s, i + 1) else 0
  }

  /**
   * `v` is a whole match of `\d+\.\d+\.\d+(\.\d+)?`: its dots are at `p`
   * and `q` and, when it has a fourth group, at `r` (`r == |v|` when it has
   * three), and every other character is a digit.
   */
  predicate VersionParts(v: string, p: int, q: int, r: int)
  {
    0 < p && p + 1 < q && q + 1 < |v| && v[p] == '.' && v[q] == '.'
    && (r == |v| || (q + 1 < r && r + 1 < |v| && v[r] == '.'))
    && forall j :: 0 <= j < |v| && j != p && j != q && j != r ==> IsDigit(v[j])
  }

  ghost predicate IsVersion(v: string)
  {
    exists p, q, r :: VersionParts(v, p, q, r)
  }

  /**
   * The length of the version match at the start of `s`, or 0 when there is
   * none: the longest prefix that is a version number.
   */
  function VersionMatch(s: string): (n: nat)
    ensures n <= |s|
    ensures n > 0 ==> n >= 5 && IsDigit(s[0])
    ensures n > 0 ==> IsVersion(s[..n])
    ensures forall k :: 0 <= k <= |s| && IsVersion(s[..k]) ==> 0 < k <= n
  {
    var a := DigitRun(s, 0);
    var b := if a > 0 then DotDigits(s, a) else 0;
    var c := if b > 0 then DotDigits(s, a + b) else 0;
    var d := if c > 0 then DotDigits(s, a + b + c) else 0;
    VersionScan(s, a, b, c, d);
    if c == 0 then 0 else a + b + c + d
  }

  /**
   * The groups the scan measures form a version number, and no prefix of
   * `s` longer than they reach is one.
   */
  lemma VersionScan(s: string, a: nat, b: nat, c: nat, d: nat)
    requires a == DigitRun(s, 0)
    requires b == (if a > 0 then DotDigits(s, a) else 0)
    requires c == (if b > 0 then DotDigits(s, a + b) else 0)
    requires d == (if c > 0 then DotDigits(s, a + b + c) else 0)
    ensures a + b + c + d <= |s|
    ensures c > 0 ==> IsVersion(s[..a + b + c + d])
    ensures forall k :: 0 <= k <= |s| && IsVersion(s[..k]) ==> 0 < k <= a + b + c + d && c > 0
  {
    if c > 0 {
      VersionScanFound(s, a, b, c, d);
    }
    forall k | 0 <= k <= |s| && IsVersion(s[..k])
      ensures 0 < k <= a + b + c + d && c > 0
    {
      VersionPrefixBound(s, k, a, b, c, d);
    }
  }

  /** One version-number prefix of `s` ends no later than the scan does. */
  lemma VersionPrefixBound(s: string, k: nat, a: nat, b: nat, c: nat, d: nat)
    requires k <= |s| && IsVersion(s[..k])
    requires a == DigitRun(s, 0)
    requires b == (if a > 0 then DotDigits(s, a) else 0)
    requires c == (if b > 0 then DotDigits(s, a + b) else 0)
    requires d == (if c > 0 then DotDigits(s, a + b + c) else 0)
    ensures 0 < k <= a + b + c + d && c > 0
  {
    var p, q, r :| VersionParts(s[..k], p, q, r);
    VersionBoundFirst(s, k, p, q, r);
    VersionBoundLast(s, k, p, q, r);
    VersionGroups(s, k, p, q, a, b, c, d);
  }

  /** Groups that end at `p` and `q` are the ones the scan measures. */
  lemma VersionGroups(s: string, k: nat, p: nat, q: nat, a: nat, b: nat, c: nat, d: nat)
    requires p <= q <= |s|
    requires DigitRun(s, 0) == p > 0 && DotDigits(s, p) == q - p && DotDigits(s, q) > 0
    requires k <= q + DotDigits(s, q) + DotDigits(s, q + DotDigits(s, q))
    requires a == DigitRun(s, 0)
    requires b == (if a > 0 then DotDigits(s, a) else 0)
    requires c == (if b > 0 then DotDigits(s, a + b) else 0)
    requires d == (if c > 0 then DotDigits(s, a + b + c) else 0)
    ensures k <= a + b + c + d && c > 0
  {
    assert a + b == q;
    assert c == DotDigits(s, q);
  }

  /** Three measured groups, and a fourth when there is one, form a version number. */
  lemma VersionScanFound(s: string, a: nat, b: nat, c: nat, d: nat)
    requires a == DigitRun(s, 0) && a > 0
    requires b == DotDigits(s, a) && b > 0
    requires c == DotDigits(s, a + b) && c > 0
    requires d == DotDigits(s, a + b + c)
    ensures IsVersion(s[..a + b + c + d])
  {
    var n := a + b + c + d;
    var v := s[..n];
    var r := if d > 0 then a + b + c else n;
    forall j | 0 <= j < n && j != a && j != a + b && j != r
      ensures IsDigit(v[j])
    {
      if j < a {
      } else if j < a + b {
      } else if j < a + b + c {
      } else {
      }
    }
    assert VersionParts(v, a, a + b, r);
  }

  /**
   * The characters of a version-number prefix strictly between `lo` and
   * `hi`, which hold none of its dots, are digits of `s`.
   */
  lemma VersionDigits(s: string, k: nat, p: int, q: int, r: int, lo: int, hi: int)
    requires k <= |s| && VersionParts(s[..k], p, q, r)
    requires 0 <= lo <= hi <= k
    requires (hi <= p || p < lo) && (hi <= q || q < lo) && (hi <= r || r < lo)
    ensures forall j :: lo <= j < hi ==> IsDigit(s[j])
  {
    forall j | lo <= j < hi
      ensures IsDigit(s[j])
    {
      assert s[..k][j] == s[j];
    }
  }

  /**
   * A version-number prefix of `s` fixes the first two groups the scan
   * measures, which end at its first two dots, and a third follows them.
   */
  lemma VersionBoundFirst(s: string, k: nat, p: int, q: int, r: int)
    requires k <= |s| && VersionParts(s[..k], p, q, r)
    ensures 0 < p < q < |s|
    ensures DigitRun(s, 0) == p && DotDigits(s, p) == q - p && DotDigits(s, q) > 0
  {
    assert s[..k][p] == s[p] && s[..k][q] == s[q] && s[..k][q + 1] == s[q + 1];
    VersionDigits(s, k, p, q, r, 0, p);
    DigitRunIs(s, 0, p);
    VersionDigits(s, k, p, q, r, p + 1, q);
    DigitRunIs(s, p + 1, q);
  }

  /** ... and the scan reaches at least as far as the prefix does. */
  lemma VersionBoundLast(s: string, k: nat, p: int, q: int, r: int)
    requires k <= |s| && VersionParts(s[..k], p, q, r)
    ensures k <= q + DotDigits(s, q) + DotDigits(s, q + DotDigits(s, q))
  {
    assert s[..k][q] == s[q] && s[..k][q + 1] == s[q + 1];
    if r < k {
      assert s[..k][r] == s[r] && s[..k][r + 1] == s[r + 1];
      VersionDigits(s, k, p, q, r, q + 1, r);
      DigitRunIs(s, q + 1, r);
      VersionDigits(s, k, p, q, r, r + 1, k);
      DigitRunAtLeast(s, r + 1, k);
    } else {
      VersionDigits(s, k, p, q, r, q + 1, k);
      DigitRunAtLeast(s, q + 1, k);
    }
  }

  /** The version-number matcher, which has no `\b`. */
  function MatchVersion(t: string, afterWord: bool): (n: nat)
    ensures n <= |t|
  {
    VersionMatch(t)
  }

  /** A version number is the text from position `j` of `s` to `j + n`, and none longer starts there. */
  ghost predicate VersionAt(s: string, j: nat, n: nat)
  {
    j + n <= |s| && IsVersion(s[j..j + n])
    && forall k :: j + n < k <= |s| ==> !IsVersion(s[j..k])
  }

  /** No version number starts at position `j` of `s`. */
  ghost predicate NoVersionAt(s: string, j: nat)
  {
    forall k :: j <= k <= |s| ==> !IsVersion(s[j..k])
  }

  /** The version match at `j` is the longest version number starting there, and 0 when none does. */
  lemma VersionMatchAt(s: string, afterWord: bool, j: nat)
    requires j <= |s|
    ensures MatchAt(MatchVersion, s, afterWord, j) > 0 ==> VersionAt(s, j, MatchAt(MatchVersion, s, afterWord, j))
    ensures MatchAt(MatchVersion, s, afterWord, j) == 0 ==> NoVersionAt(s, j)
  {
    var t := s[j..];
    var n := VersionMatch(t);
    forall k | j <= k <= |s|
      ensures s[j..k] == t[..k - j]
    {
      PrefixOfSuffix(s, j, k - j);
    }
    if n > 0 {
      assert s[j..j + n] == t[..n];
    }
  }

  /** A longest version number at `j` is what the scan matches there. */
  lemma VersionAtMatch(s: string, afterWord: bool, j: nat, n: nat)
    requires VersionAt(s, j, n)
    ensures MatchAt(MatchVersion, s, afterWord, j) == n
  {
    VersionMatchAt(s, afterWord, j);
  }

  // ---------------------------------------------------------------------
  // Fixed-shape patterns: GUIDs and timestamps
  // ---------------------------------------------------------------------

  /**
   * A fixed-length pattern: position `i` < `len` holds a character of
   * class `classOf(i)`, where 'h' is a hexadecimal digit ([a-fA-F0-9]), 'd' a
   * decimal digit (\d) and any other character stands for itself.
   */
  datatype Shape = Shape(len: nat, classOf: nat -> char)

  /** hhhhhhhh-hhhh-hhhh-hhhh-hhhhhhhhhhhh */
  function GuidClass(i: nat): char
  {
    if i == 8 || i == 13 || i == 18 || i == 23 then '-' else 'h'
  }

  /** dddd-dd-dd dd:dd:dd */
  function TimestampClass(i: nat): char
  {
    if i == 4 || i == 7 then '-' else if i == 10 then ' ' else if i == 13 || i == 16 then ':' else 'd'
  }

  const GuidShape: Shape := Shape(36, GuidClass)
  const TimestampShape: Shape := Shape(19, TimestampClass)

  predicate FitsClass(c: char, k: char)
  {
    if k == 'h' then IsHexDigit(c) else if k == 'd' then IsDigit(c) else c == k
  }

  predicate StartsWithShape(s: string, shape: Shape)
  {
    shape.len <= |s| && forall i :: 0 <= i < shape.len ==> FitsClass(s[i], shape.classOf(i))
  }

  /** `[a-fA-F0-9]{8}-([a-fA-F0-9]{4}-){3}[a-fA-F0-9]{12}`, which has no `\b`. */
  function MatchGuid(t: string, afterWord: bool): (n: nat)
    ensures n <= |t|
  {
    if StartsWithShape(t, GuidShape) then 36 else 0
  }

  /** `\d{4}-\d{2}-\d{2} \d{2}:\d{2}:\d{2}`, which has no `\b`. */
  function MatchTimestamp(t: string, afterWord: bool): (n: nat)
    ensures n <= |t|
  {
    if StartsWithShape(t, TimestampShape) then 19 else 0
  }

  /** The text from position `j` of `s` has the shape `shape`. */
  predicate ShapeAt(s: string, j: nat, shape: Shape)
  {
    j + shape.len <= |s| && forall i :: 0 <= i < shape.len ==> FitsClass(s[j + i], shape.classOf(i))
  }

  lemma StartsWithShapeAt(s: string, j: nat, shape: Shape)
    requires j <= |s|
    ensures StartsWithShape(s[j..], shape) <==> ShapeAt(s, j, shape)
  {
    var t := s[j..];
    assert forall i :: 0 <= i < |t| ==> t[i] == s[j + i];
    if ShapeAt(s, j, shape) {
      assert StartsWithShape(t, shape);
    }
  }

  /** The GUID match at `j` is exactly where the GUID shape is found, over the whole shape. */
  lemma GuidMatchAt(s: string, afterWord: bool, j: nat)
    requires j <= |s|
    ensures MatchAt(MatchGuid, s, afterWord, j) == (if ShapeAt(s, j, GuidShape) then 36 else 0)
  {
    StartsWithShapeAt(s, j, GuidShape);
  }

  /** The same for timestamps. */
  lemma TimestampMatchAt(s: string, afterWord: bool, j: nat)
    requires j <= |s|
    ensures MatchAt(MatchTimestamp, s, afterWord, j) == (if ShapeAt(s, j, TimestampShape) then 19 else 0)
  {
    StartsWithShapeAt(s, j, TimestampShape);
  }

  /** A GUID at `j` is what the scan matches there. */
  lemma GuidAtMatch(s: string, j: nat)
    requires ShapeAt(s, j, GuidShape)
    ensures MatchAt(MatchGuid, s, false, j) == 36
  {
    GuidMatchAt(s, false, j);
  }

  /** A timestamp at `j` is what the scan matches there. */
  lemma TimestampAtMatch(s: string, j: nat)
    requires ShapeAt(s, j, TimestampShape)
    ensures MatchAt(MatchTimestamp, s, false, j) == 19
  {
    TimestampMatchAt(s, false, j);
  }

  // ---------------------------------------------------------------------
  // Accessor prefixes
  // ---------------------------------------------------------------------

  /** The prefixes `get`, `set`, `on` and `handle`. */
  predicate IsAccessorWord(w: string)
  {
    w == "get" || w == "set" || w == "on" || w == "handle"
  }

  /**
   * The length of an accessor prefix followed by an upper-case letter at
   * the start of `s`, or 0 when there is none; at most one prefix can fit.
   */
  function AccessorPrefix(s: string): (n: nat)
    ensures n > 0 ==> n < |s| && IsAccessorWord(s[..n]) && IsUpper(s[n])
    ensures forall m :: 0 < m < |s| && IsAccessorWord(s[..m]) && IsUpper(s[m]) ==> n == m
  {
    if StartsWith(s, "get") && 3 < |s| && IsUpper(s[3]) then 3
    else if StartsWith(s, "set") && 3 < |s| && IsUpper(s[3]) then 3
    else if StartsWith(s, "on") && 2 < |s| && IsUpper(s[2]) then 2
    else if StartsWith(s, "handle") && 6 < |s| && IsUpper(s[6]) then 6
    else 0
  }

  /** `\b(get|set|on|handle)([A-Z])`: the prefix and the letter after it. */
  function MatchAccessor(t: string, afterWord: bool): (n: nat)
    ensures n <= |t|
  {
    var k := AccessorPrefix(t);
    if !afterWord && k > 0 then k + 1 else 0
  }

  /** `$2`: the upper-case letter that ends an accessor match. */
  function KeepLast(t: string, n: nat): string
  {
    if 0 < n <= |t| then [t[n - 1]] else []
  }

  /** The accessor prefix `w` starts a word at position `j` of `s` and an upper-case letter follows it. */
  predicate AccessorAt(s: string, j: nat, w: string)
  {
    IsAccessorWord(w) && j + |w| < |s| && s[j..j + |w|] == w && IsUpper(s[j + |w|])
    && (j == 0 || !IsWordChar(s[j - 1]))
  }

  /** The accessor match at `j` is a prefix there and its letter, and every prefix there is matched. */
  lemma AccessorMatchAt(s: string, j: nat)
    requires j <= |s|
    ensures MatchAt(MatchAccessor, s, false, j) > 0
      ==> AccessorAt(s, j, s[j..j + MatchAt(MatchAccessor, s, false, j) - 1])
    ensures forall w :: AccessorAt(s, j, w) ==> MatchAt(MatchAccessor, s, false, j) == |w| + 1
  {
    var t := s[j..];
    var k := AccessorPrefix(t);
    if k > 0 {
      PrefixOfSuffix(s, j, k);
    }
    forall w | AccessorAt(s, j, w)
      ensures MatchAt(MatchAccessor, s, false, j) == |w| + 1
    {
      PrefixOfSuffix(s, j, |w|);
      assert t[|w|] == s[j + |w|];
    }
  }

  /** An accessor prefix `w` at `j` is what the scan matches there, with its letter. */
  lemma AccessorAtMatch(s: string, j: nat, w: string)
    requires AccessorAt(s, j, w)
    ensures MatchAt(MatchAccessor, s, false, j) == |w| + 1
  {
    AccessorMatchAt(s, j);
  }

  // ---------------------------------------------------------------------
  // Long string literals
  // ---------------------------------------------------------------------

  /** The first index at or after `i` that holds a double quote, or None. */
  function NextQuote(s: string, i: nat): (found: Option<nat>)
    requires i <= |s|
    ensures found.Some? ==> i <= found.value < |s| && s[found.value] == '"'
    ensures found.Some? ==> forall j :: i <= j < found.value ==> s[j] != '"'
    ensures found.None? ==> forall j :: i <= j < |s| ==> s[j] != '"'
    decreases |s| - i
  {
    if i == |s| then None else if s[i] == '"' then Some(i) else NextQuote(s, i + 1)
  }

  /**
   * `"[^"]{20,}"`, which has no `\b`: the greedy class runs to the next
   * quote, which must close the literal.
   */
  function MatchLongLiteral(t: string, afterWord: bool): (n: nat)
    ensures n <= |t|
    ensures n > 0 ==> n >= 22 && t[0] == '"'
  {
    if t != [] && t[0] == '"' then
      match NextQuote(t, 1)
      case Some(q) => if q - 1 >= 20 then q + 1 else 0
      case None => 0
    else 0
  }

  /**
   * A double-quoted literal with at least 20 characters between its quotes
   * (line breaks included) opens at position `j` of `s` and closes at `q`.
   */
  predicate LongLiteralAt(s: string, j: nat, q: nat)
  {
    j + 20 < q < |s| && s[j] == '"' && s[q] == '"' && forall m :: j < m < q ==> s[m] != '"'
  }

  /** The literal match at `j` is a long literal there, and every long literal there is matched. */
  lemma LongLiteralMatchAt(s: string, afterWord: bool, j: nat)
    requires j <= |s|
    ensures MatchAt(MatchLongLiteral, s, afterWord, j) > 0
      ==> LongLiteralAt(s, j, j + MatchAt(MatchLongLiteral, s, afterWord, j) - 1)
    ensures forall q: nat :: LongLiteralAt(s, j, q) ==> MatchAt(MatchLongLiteral, s, afterWord, j) == q - j + 1
  {
    var t := s[j..];
    assert forall i :: 0 <= i < |t| ==> t[i] == s[j + i];
    forall q: nat | LongLiteralAt(s, j, q)
      ensures MatchAt(MatchLongLiteral, s, afterWord, j) == q - j + 1
    {
      assert t[q - j] == '"';
    }
  }

  /** A long literal closing at `q` is what the scan matches at `j`. */
  lemma LongLiteralAtMatch(s: string, j: nat, q: nat)
    requires LongLiteralAt(s, j, q)
    ensures MatchAt(MatchLongLiteral, s, false, j) == q - j + 1
  {
    LongLiteralMatchAt(s, false, j);
  }

  // ---------------------------------------------------------------------
  // Large numbers
  // ---------------------------------------------------------------------

  /** `\b\d{5,}\b`: the whole digit run, when it is long enough and a word ends with it. */
  function MatchLargeNumber(t: string, afterWord: bool): (n: nat)
    ensures n <= |t|
  {
    var k := DigitRun(t, 0);
    if !afterWord && k >= 5 && (k == |t| || !IsWordChar(t[k])) then k else 0
  }

  /** A whole-word run of `n` >= 5 digits starts at position `j` of `s`. */
  predicate LargeNumberAt(s: string, j: nat, n: nat)
  {
    5 <= n && j + n <= |s| && (j == 0 || !IsWordChar(s[j - 1]))
    && (forall m :: j <= m < j + n ==> IsDigit(s[m]))
    && (j + n == |s| || !IsWordChar(s[j + n]))
  }

  /** The number match at `j`, when there is one, is a large number there. */
  lemma LargeNumberMatchAt(s: string, j: nat)
    requires j <= |s|
    ensures MatchAt(MatchLargeNumber, s, false, j) > 0
      ==> LargeNumberAt(s, j, MatchAt(MatchLargeNumber, s, false, j))
  {
    var t := s[j..];
    assert forall i :: 0 <= i < |t| ==> t[i] == s[j + i];
  }

  /** Every large number is what the scan matches where it starts. */
  lemma LargeNumberAtMatch(s: string, j: nat, n: nat)
    requires LargeNumberAt(s, j, n)
    ensures MatchAt(MatchLargeNumber, s, false, j) == n
  {
    var t := s[j..];
    forall i | 0 <= i < n
      ensures IsDigit(t[i])
    {
      assert t[i] == s[j + i];
    }
    if j + n < |s| {
      assert t[n] == s[j + n];
    }
    DigitRunIs(t, 0, n);
  }

  // ---------------------------------------------------------------------
  // Whole words, ignoring case
  // ---------------------------------------------------------------------

  /** `s` begins with `key`, compared ignoring case. */
  predicate StartsWithIgnoringCase(s: string, key: string)
  {
    |key| <= |s| && forall i :: 0 <= i < |key| ==> ToLower(s[i]) == key[i]
  }

  /**
   * `\b<key>\b` ignoring case, for a key that starts and ends with a
   * letter: the key is a whole word at the start of `t`.
   */
  function MatchWord(key: string, t: string, afterWord: bool): (n: nat)
    ensures n <= |t|
  {
    if key != [] && !afterWord && StartsWithIgnoringCase(t, key)
      && (|key| == |t| || !IsWordChar(t[|key|])) then |key| else 0
  }

  /** The matcher of `key` as a whole word. */
  function WordMatcher(key: string): Matcher
  {
    (t: string, afterWord: bool) => MatchWord(key, t, afterWord)
  }

  /** The non-empty `key`, in any case, is a whole word at position `j` of `s`. */
  predicate WordAt(s: string, j: nat, key: string)
  {
    key != [] && j + |key| <= |s| && (j == 0 || !IsWordChar(s[j - 1]))
    && (forall i :: 0 <= i < |key| ==> ToLower(s[j + i]) == key[i])
    && (j + |key| == |s| || !IsWordChar(s[j + |key|]))
  }

  /** A word matches at `j` exactly where its key is a whole word, over the whole key. */
  lemma WordMatchAt(s: string, key: string, j: nat)
    requires j <= |s|
    ensures MatchAt(WordMatcher(key), s, false, j) == (if WordAt(s, j, key) then |key| else 0)
  {
    var t := s[j..];
    assert forall i :: 0 <= i < |t| ==> t[i] == s[j + i];
    if WordAt(s, j, key) {
      assert StartsWithIgnoringCase(t, key);
    }
    if StartsWithIgnoringCase(t, key) && key != [] {
      assert forall i :: 0 <= i < |key| ==> ToLower(s[j + i]) == key[i];
    }
  }

  // ---------------------------------------------------------------------
  // Facts the generic lemmas need about each pattern
  // ---------------------------------------------------------------------

  predicate IsHyphen(c: char)
  {
    c == '-'
  }

  predicate IsQuote(c: char)
  {
    c == '"'
  }

  predicate IsDot(c: char)
  {
    c == '.'
  }

  /**
   * Each match contains its pattern's anchors: a digit or a dot, a hyphen,
   * an upper-case letter or a quote.
   */
  lemma MatchersAnchored()
    ensures Anchored(MatchVersion, IsDigit) && Anchored(MatchLargeNumber, IsDigit)
    ensures Anchored(MatchGuid, IsHyphen) && Anchored(MatchTimestamp, IsHyphen)
    ensures Anchored(MatchAccessor, IsUpper) && Anchored(MatchLongLiteral, IsQuote)
    ensures Anchored(MatchVersion, IsDot)
  {
    VersionAnchored();
    ShapesAnchored();
    AccessorAnchored();
  }

  lemma VersionAnchored()
    ensures Anchored(MatchVersion, IsDigit) && Anchored(MatchVersion, IsDot)
  {
    forall t, afterWord | Lacks(t, IsDot)
      ensures MatchVersion(t, afterWord) == 0
    {
      var n := VersionMatch(t);
    }
  }

  lemma ShapesAnchored()
    ensures Anchored(MatchGuid, IsHyphen) && Anchored(MatchTimestamp, IsHyphen)
  {
    forall t, afterWord | Lacks(t, IsHyphen)
      ensures MatchGuid(t, afterWord) == 0 && MatchTimestamp(t, afterWord) == 0
    {
      if 36 <= |t| {
        assert !FitsClass(t[8], GuidClass(8));
      }
      if 19 <= |t| {
        assert !FitsClass(t[4], TimestampClass(4));
      }
    }
  }

  lemma AccessorAnchored()
    ensures Anchored(MatchAccessor, IsUpper)
  {
  }

  /** A constant replacement without a line break keeps a line whole. */
  lemma ConstantKeepsOneLine(text: string)
    requires NoneOf(text, {'\n'})
    ensures KeepsOneLine(Constant(text))
  {
  }

  /** The kept letter of an accessor match is no line break. */
  lemma KeepLastKeepsOneLine()
    ensures KeepsOneLine(KeepLast)
  {
  }

  /** Every replacement but LARGENUM is no longer than what it replaces. */
  lemma MatchersShorten()
    ensures Shortens(MatchVersion, Constant("X.X.X"))
    ensures Shortens(MatchGuid, Constant("GUID")) && Shortens(MatchTimestamp, Constant("TIMESTAMP"))
    ensures Shortens(MatchAccessor, KeepLast) && Shortens(MatchLongLiteral, Constant("\"...\""))
  {
  }
}

=== FILE: repetitive_info.dfy ===
/**
 * `RemoveRepetitiveInfo` (Compress.cs): six regular-expression replacements
 * applied in order. Each is the replacement scan `ReplaceAll` with its
 * pattern's matcher; the lemmas here state, in terms of each pattern's own
 * description of its matches, that the leftmost match is the one replaced
 * and that a text without a match is left as it is.
 */
module RepetitiveInfo {
  import opened Seqs
  import opened Strings
  import opened Regexes

  // ---------------------------------------------------------------------
  // Version numbers: \d+\.\d+\.\d+(\.\d+)?  ->  X.X.X
  // ---------------------------------------------------------------------

  function ReplaceVersions(s: string): (r: string)
    ensures NoneOf(s, {'\n'}) ==> NoneOf(r, {'\n'})
  {
    ConstantKeepsOneLine("X.X.X");
    ReplaceAllOneLine(MatchVersion, Constant("X.X.X"), s, false);
    ReplaceAll(MatchVersion, Constant("X.X.X"), s, false)
  }

  /**
   * With no version number starting before `i` and `n` the longest one
   * starting at `i`, that one becomes X.X.X and the scan goes on after it.
   */
  lemma ReplaceVersionsLeftmost(s: string, i: nat, n: nat)
    requires forall k :: 0 <= k < i ==> NoVersionAt(s, k)
    requires VersionAt(s, i, n)
    ensures i + n <= |s|
    ensures ReplaceVersions(s) == s[..i] + ("X.X.X" + ReplaceVersions(s[i + n..]))
  {
    VersionLeftmost(s, i, n);
    ReplaceVersionsAt(s, i, n);
  }

  lemma VersionLeftmost(s: string, i: nat, n: nat)
    requires forall k :: 0 <= k < i ==> NoVersionAt(s, k)
    requires VersionAt(s, i, n)
    ensures i + n <= |s| && n == MatchAt(MatchVersion, s, false, i) > 0
    ensures forall k :: 0 <= k < i ==> MatchAt(MatchVersion, s, false, k) == 0
  {
    VersionAtMatch(s, false, i, n);
    NoVersionsBefore(s, i);
  }

  lemma ReplaceVersionsAt(s: string, i: nat, n: nat)
    requires i <= |s| && n == MatchAt(MatchVersion, s, false, i) > 0
    requires forall k :: 0 <= k < i ==> MatchAt(MatchVersion, s, false, k) == 0
    ensures ReplaceVersions(s) == s[..i] + ("X.X.X" + ReplaceVersions(s[i + n..]))
  {
    ReplaceAllLeftmostConstant(MatchVersion, "X.X.X", s, i, n);
  }

  /** A text where no version number starts anywhere is unchanged. */
  lemma ReplaceVersionsNone(s: string)
    requires forall k :: 0 <= k < |s| ==> NoVersionAt(s, k)
    ensures ReplaceVersions(s) == s
  {
    NoVersionsBefore(s, |s|);
    ReplaceAllNone(MatchVersion, Constant("X.X.X"), s, false);
  }

  lemma NoVersionsBefore(s: string, i: nat)
    requires i <= |s| && forall k :: 0 <= k < i ==> NoVersionAt(s, k)
    ensures forall k :: 0 <= k < i ==> MatchAt(MatchVersion, s, false, k) == 0
  {
    forall k | 0 <= k < i
      ensures MatchAt(MatchVersion, s, false, k) == 0
    {
      NoVersionNoMatch(s, k);
    }
  }

  lemma NoVersionNoMatch(s: string, k: nat)
    requires k <= |s| && NoVersionAt(s, k)
    ensures MatchAt(MatchVersion, s, false, k) == 0
  {
    VersionMatchAt(s, false, k);
  }

  // ---------------------------------------------------------------------
  // GUIDs and timestamps
  // ---------------------------------------------------------------------

  function ReplaceGuids(s: string): (r: string)
    ensures NoneOf(s, {'\n'}) ==> NoneOf(r, {'\n'})
  {
    ConstantKeepsOneLine("GUID");
    ReplaceAllOneLine(MatchGuid, Constant("GUID"), s, false);
    ReplaceAll(MatchGuid, Constant("GUID"), s, false)
  }

  /** The leftmost GUID becomes GUID and the scan goes on after its 36 characters. */
  lemma ReplaceGuidsLeftmost(s: string, i: nat)
    requires forall k :: 0 <= k < i ==> !ShapeAt(s, k, GuidShape)
    requires ShapeAt(s, i, GuidShape)
    ensures i + 36 <= |s|
    ensures ReplaceGuids(s) == s[..i] + ("GUID" + ReplaceGuids(s[i + 36..]))
  {
    GuidLeftmost(s, i);
    ReplaceGuidsAt(s, i, 36);
  }

  lemma GuidLeftmost(s: string, i: nat)
    requires forall k :: 0 <= k < i ==> !ShapeAt(s, k, GuidShape)
    requires ShapeAt(s, i, GuidShape)
    ensures i + 36 <= |s| && MatchAt(MatchGuid, s, false, i) == 36
    ensures forall k :: 0 <= k < i ==> MatchAt(MatchGuid, s, false, k) == 0
  {
    GuidAtMatch(s, i);
    NoGuidsBefore(s, i);
  }

  lemma ReplaceGuidsAt(s: string, i: nat, n: nat)
    requires i <= |s| && n == MatchAt(MatchGuid, s, false, i) > 0
    requires forall k :: 0 <= k < i ==> MatchAt(MatchGuid, s, false, k) == 0
    ensures ReplaceGuids(s) == s[..i] + ("GUID" + ReplaceGuids(s[i + n..]))
  {
    ReplaceAllLeftmostConstant(MatchGuid, "GUID", s, i, n);
  }

  /** A text with no GUID anywhere is unchanged. */
  lemma ReplaceGuidsNone(s: string)
    requires forall k :: 0 <= k < |s| ==> !ShapeAt(s, k, GuidShape)
    ensures ReplaceGuids(s) == s
  {
    NoGuidsBefore(s, |s|);
    ReplaceAllNone(MatchGuid, Constant("GUID"), s, false);
  }

  lemma NoGuidsBefore(s: string, i: nat)
    requires i <= |s| && forall k :: 0 <= k < i ==> !ShapeAt(s, k, GuidShape)
    ensures forall k :: 0 <= k < i ==> MatchAt(MatchGuid, s, false, k) == 0
  {
    forall k | 0 <= k < i
      ensures MatchAt(MatchGuid, s, false, k) == 0
    {
      GuidMatchAt(s, false, k);
    }
  }

  function ReplaceTimestamps(s: string): (r: string)
    ensures NoneOf(s, {'\n'}) ==> NoneOf(r, {'\n'})
  {
    ConstantKeepsOneLine("TIMESTAMP");
    ReplaceAllOneLine(MatchTimestamp, Constant("TIMESTAMP"), s, false);
    ReplaceAll(MatchTimestamp, Constant("TIMESTAMP"), s, false)
  }

  /** The leftmost timestamp becomes TIMESTAMP and the scan goes on after its 19 characters. */
  lemma ReplaceTimestampsLeftmost(s: string, i: nat)
    requires forall k :: 0 <= k < i ==> !ShapeAt(s, k, TimestampShape)
    requires ShapeAt(s, i, TimestampShape)
    ensures i + 19 <= |s|
    ensures ReplaceTimestamps(s) == s[..i] + ("TIMESTAMP" + ReplaceTimestamps(s[i + 19..]))
  {
    TimestampLeftmost(s, i);
    ReplaceTimestampsAt(s, i, 19);
  }

  lemma TimestampLeftmost(s: string, i: nat)
    requires forall k :: 0 <= k < i ==> !ShapeAt(s, k, TimestampShape)
    requires ShapeAt(s, i, TimestampShape)
    ensures i + 19 <= |s| && MatchAt(MatchTimestamp, s, false, i) == 19
    ensures forall k :: 0 <= k < i ==> MatchAt(MatchTimestamp, s, false, k) == 0
  {
    TimestampAtMatch(s, i);
    NoTimestampsBefore(s, i);
  }

  lemma ReplaceTimestampsAt(s: string, i: nat, n: nat)
    requires i <= |s| && n == MatchAt(MatchTimestamp, s, false, i) > 0
    requires forall k :: 0 <= k < i ==> MatchAt(MatchTimestamp, s, false, k) == 0
    ensures ReplaceTimestamps(s) == s[..i] + ("TIMESTAMP" + ReplaceTimestamps(s[i + n..]))
  {
    ReplaceAllLeftmostConstant(MatchTimestamp, "TIMESTAMP", s, i, n);
  }

  /** A text with no timestamp anywhere is unchanged. */
  lemma ReplaceTimestampsNone(s: string)
    requires forall k :: 0 <= k < |s| ==> !ShapeAt(s, k, TimestampShape)
    ensures ReplaceTimestamps(s) == s
  {
    NoTimestampsBefore(s, |s|);
    ReplaceAllNone(MatchTimestamp, Constant("TIMESTAMP"), s, false);
  }

  lemma NoTimestampsBefore(s: string, i: nat)
    requires i <= |s| && forall k :: 0 <= k < i ==> !ShapeAt(s, k, TimestampShape)
    ensures forall k :: 0 <= k < i ==> MatchAt(MatchTimestamp, s, false, k) == 0
  {
    forall k | 0 <= k < i
      ensures MatchAt(MatchTimestamp, s, false, k) == 0
    {
      TimestampMatchAt(s, false, k);
    }
  }

  // ---------------------------------------------------------------------
  // Accessor prefixes: \b(get|set|on|handle)([A-Z])  ->  $2
  // ---------------------------------------------------------------------

  /** `afterWord` tells whether the character before `s` is a word character. */
  function StripAccessorPrefixes(s: string, afterWord: bool): (r: string)
    ensures NoneOf(s, {'\n'}) ==> NoneOf(r, {'\n'})
  {
    KeepLastKeepsOneLine();
    ReplaceAllOneLine(MatchAccessor, KeepLast, s, afterWord);
    ReplaceAll(MatchAccessor, KeepLast, s, afterWord)
  }

  /**
   * At the leftmost place where an accessor prefix `w` starts a word before
   * an upper-case letter, the prefix is dropped and the letter kept.
   */
  lemma StripAccessorPrefixesLeftmost(s: string, i: nat, w: string)
    requires forall k, v :: 0 <= k < i ==> !AccessorAt(s, k, v)
    requires AccessorAt(s, i, w)
    ensures i + |w| < |s|
    ensures StripAccessorPrefixes(s, false)
      == s[..i] + ([s[i + |w|]] + StripAccessorPrefixes(s[i + |w| + 1..], true))
  {
    AccessorLeftmost(s, i, w);
    StripAccessorPrefixesAt(s, i, i + |w|);
  }

  /**
   * After a word character the leading `\b` cannot hold, so the first
   * character is kept and the scan moves on; when the character before `s`
   * is not a word character, or `s` starts with one that is not, the scan
   * behaves as at the start of a text. With StripAccessorPrefixesLeftmost
   * and StripAccessorPrefixesNone this fixes the result for every
   * `afterWord`.
   */
  lemma {:induction false} StripAccessorPrefixesAfterWord(s: string)
    ensures s == [] ==> StripAccessorPrefixes(s, true) == []
    ensures s != [] ==> StripAccessorPrefixes(s, true) == [s[0]] + StripAccessorPrefixes(s[1..], IsWordChar(s[0]))
    ensures s == [] || !IsWordChar(s[0]) ==> StripAccessorPrefixes(s, true) == StripAccessorPrefixes(s, false)
  {
    if s != [] && !IsWordChar(s[0]) {
      assert s[0] !in "gsoh";
      assert MatchAccessor(s, false) == 0;
    }
  }

  lemma AccessorLeftmost(s: string, i: nat, w: string)
    requires forall k, v :: 0 <= k < i ==> !AccessorAt(s, k, v)
    requires AccessorAt(s, i, w)
    ensures i + |w| < |s| && IsUpper(s[i + |w|]) && MatchAt(MatchAccessor, s, false, i) == |w| + 1
    ensures forall k :: 0 <= k < i ==> MatchAt(MatchAccessor, s, false, k) == 0
  {
    AccessorAtMatch(s, i, w);
    NoAccessorsBefore(s, i);
  }

  lemma StripAccessorPrefixesAt(s: string, i: nat, e: nat)
    requires i < e < |s| && IsUpper(s[e]) && MatchAt(MatchAccessor, s, false, i) == e - i + 1
    requires forall k :: 0 <= k < i ==> MatchAt(MatchAccessor, s, false, k) == 0
    ensures StripAccessorPrefixes(s, false) == s[..i] + ([s[e]] + StripAccessorPrefixes(s[e + 1..], true))
  {
    ReplaceAllLeftmostKeepLast(MatchAccessor, s, i, e);
  }

  lemma NoAccessorsBefore(s: string, i: nat)
    requires i <= |s| && forall k, v :: 0 <= k < i ==> !AccessorAt(s, k, v)
    ensures forall k :: 0 <= k < i ==> MatchAt(MatchAccessor, s, false, k) == 0
  {
    forall k | 0 <= k < i
      ensures MatchAt(MatchAccessor, s, false, k) == 0
    {
      AccessorMatchAt(s, k);
    }
  }

  /** A text where no accessor prefix starts a word before an upper-case letter is unchanged. */
  lemma StripAccessorPrefixesNone(s: string)
    requires forall k, v :: 0 <= k < |s| ==> !AccessorAt(s, k, v)
    ensures StripAccessorPrefixes(s, false) == s
  {
    NoAccessorsBefore(s, |s|);
    ReplaceAllNone(MatchAccessor, KeepLast, s, false);
  }

  // ---------------------------------------------------------------------
  // Long string literals: "[^"]{20,}"  ->  "..."
  // ---------------------------------------------------------------------

  function ReplaceLongLiterals(s: string): (r: string)
    ensures NoneOf(s, {'\n'}) ==> NoneOf(r, {'\n'})
  {
    ConstantKeepsOneLine("\"...\"");
    ReplaceAllOneLine(MatchLongLiteral, Constant("\"...\""), s, false);
    ReplaceAll(MatchLongLiteral, Constant("\"...\""), s, false)
  }

  /** The leftmost long literal, quotes included, becomes "..." and the scan goes on after it. */
  lemma ReplaceLongLiteralsLeftmost(s: string, i: nat, q: nat)
    requires forall k, e: nat :: 0 <= k < i ==> !LongLiteralAt(s, k, e)
    requires LongLiteralAt(s, i, q)
    ensures ReplaceLongLiterals(s) == s[..i] + ("\"...\"" + ReplaceLongLiterals(s[q + 1..]))
  {
    LongLiteralLeftmost(s, i, q);
    ReplaceLongLiteralsAt(s, i, q - i + 1);
  }

  lemma LongLiteralLeftmost(s: string, i: nat, q: nat)
    requires forall k, e: nat :: 0 <= k < i ==> !LongLiteralAt(s, k, e)
    requires LongLiteralAt(s, i, q)
    ensures i < q < |s| && MatchAt(MatchLongLiteral, s, false, i) == q - i + 1
    ensures forall k :: 0 <= k < i ==> MatchAt(MatchLongLiteral, s, false, k) == 0
  {
    LongLiteralAtMatch(s, i, q);
    NoLongLiteralsBefore(s, i);
  }

  lemma ReplaceLongLiteralsAt(s: string, i: nat, n: nat)
    requires i <= |s| && n == MatchAt(MatchLongLiteral, s, false, i) > 0
    requires forall k :: 0 <= k < i ==> MatchAt(MatchLongLiteral, s, false, k) == 0
    ensures ReplaceLongLiterals(s) == s[..i] + ("\"...\"" + ReplaceLongLiterals(s[i + n..]))
  {
    ReplaceAllLeftmostConstant(MatchLongLiteral, "\"...\"", s, i, n);
  }

  /** A text with no long literal anywhere is unchanged. */
  lemma ReplaceLongLiteralsNone(s: string)
    requires forall k, e: nat :: 0 <= k < |s| ==> !LongLiteralAt(s, k, e)
    ensures ReplaceLongLiterals(s) == s
  {
    NoLongLiteralsBefore(s, |s|);
    ReplaceAllNone(MatchLongLiteral, Constant("\"...\""), s, false);
  }

  lemma NoLongLiteralsBefore(s: string, i: nat)
    requires i <= |s| && forall k, e: nat :: 0 <= k < i ==> !LongLiteralAt(s, k, e)
    ensures forall k :: 0 <= k < i ==> MatchAt(MatchLongLiteral, s, false, k) == 0
  {
    forall k | 0 <= k < i
      ensures MatchAt(MatchLongLiteral, s, false, k) == 0
    {
      LongLiteralMatchAt(s, false, k);
    }
  }

  // ---------------------------------------------------------------------
  // Large numbers: \b\d{5,}\b  ->  LARGENUM
  // ---------------------------------------------------------------------

  /** `afterWord` as in StripAccessorPrefixes. */
  function ReplaceLargeNumbers(s: string, afterWord: bool): (r: string)
    ensures NoneOf(s, {'\n'}) ==> NoneOf(r, {'\n'})
  {
    ConstantKeepsOneLine("LARGENUM");
    ReplaceAllOneLine(MatchLargeNumber, Constant("LARGENUM"), s, afterWord);
    ReplaceAll(MatchLargeNumber, Constant("LARGENUM"), s, afterWord)
  }

  /** The leftmost whole-word run of five or more digits becomes LARGENUM. */
  lemma ReplaceLargeNumbersLeftmost(s: string, i: nat, n: nat)
    requires forall k, e: nat :: 0 <= k < i ==> !LargeNumberAt(s, k, e)
    requires LargeNumberAt(s, i, n)
    ensures ReplaceLargeNumbers(s, false) == s[..i] + ("LARGENUM" + ReplaceLargeNumbers(s[i + n..], true))
  {
    LargeNumberLeftmost(s, i, n);
    ReplaceLargeNumbersAt(s, i, n);
  }

  /** As StripAccessorPrefixesAfterWord, for large numbers. */
  lemma {:induction false} ReplaceLargeNumbersAfterWord(s: string)
    ensures s == [] ==> ReplaceLargeNumbers(s, true) == []
    ensures s != [] ==> ReplaceLargeNumbers(s, true) == [s[0]] + ReplaceLargeNumbers(s[1..], IsWordChar(s[0]))
    ensures s == [] || !IsWordChar(s[0]) ==> ReplaceLargeNumbers(s, true) == ReplaceLargeNumbers(s, false)
  {
  }

  lemma LargeNumberLeftmost(s: string, i: nat, n: nat)
    requires forall k, e: nat :: 0 <= k < i ==> !LargeNumberAt(s, k, e)
    requires LargeNumberAt(s, i, n)
    ensures i + n <= |s| && n == MatchAt(MatchLargeNumber, s, false, i) > 0 && IsDigit(s[i + n - 1])
    ensures forall k :: 0 <= k < i ==> MatchAt(MatchLargeNumber, s, false, k) == 0
  {
    LargeNumberAtMatch(s, i, n);
    NoLargeNumbersBefore(s, i);
  }

  lemma ReplaceLargeNumbersAt(s: string, i: nat, n: nat)
    requires i <= |s| && n == MatchAt(MatchLargeNumber, s, false, i) > 0 && IsDigit(s[i + n - 1])
    requires forall k :: 0 <= k < i ==> MatchAt(MatchLargeNumber, s, false, k) == 0
    ensures ReplaceLargeNumbers(s, false) == s[..i] + ("LARGENUM" + ReplaceLargeNumbers(s[i + n..], true))
  {
    ReplaceAllLeftmostConstantWord(MatchLargeNumber, "LARGENUM", s, i, n);
  }

  /** A text with no whole-word run of five or more digits is unchanged. */
  lemma ReplaceLargeNumbersNone(s: string)
    requires forall k, e: nat :: 0 <= k < |s| ==> !LargeNumberAt(s, k, e)
    ensures ReplaceLargeNumbers(s, false) == s
  {
    NoLargeNumbersBefore(s, |s|);
    ReplaceAllNone(MatchLargeNumber, Constant("LARGENUM"), s, false);
  }

  lemma NoLargeNumbersBefore(s: string, i: nat)
    requires i <= |s| && forall k, e: nat :: 0 <= k < i ==> !LargeNumberAt(s, k, e)
    ensures forall k :: 0 <= k < i ==> MatchAt(MatchLargeNumber, s, false, k) == 0
  {
    forall k | 0 <= k < i
      ensures MatchAt(MatchLargeNumber, s, false, k) == 0
    {
      LargeNumberMatchAt(s, k);
    }
  }

  // ---------------------------------------------------------------------
  // The stage
  // ---------------------------------------------------------------------

  /** `RemoveRepetitiveInfo`: the six replacements in the source's order. */
  function RemoveRepetitiveInfo(line: string): (r: string)
    ensures NoneOf(line, {'\n'}) ==> NoneOf(r, {'\n'})
  {
    var versions := ReplaceVersions(line);
    var guids := ReplaceGuids(versions);
    var stamps := ReplaceTimestamps(guids);
    var prefixes := StripAccessorPrefixes(stamps, false);
    var literals := ReplaceLongLiterals(prefixes);
    ReplaceLargeNumbers(literals, false)
  }

  /**
   * Text without dots, hyphens, upper-case letters, double quotes or digits
   * has nothing for any of the six patterns to match.
   */
  lemma RemoveRepetitiveInfoFrame(line: string)
    requires forall i :: 0 <= i < |line| ==> line[i] != '.' && line[i] != '-' && line[i] != '"'
    requires forall i :: 0 <= i < |line| ==> !IsUpper(line[i]) && !IsDigit(line[i])
    ensures RemoveRepetitiveInfo(line) == line
  {
    MatchersAnchored();
    ReplaceAllFrame(MatchVersion, Constant("X.X.X"), IsDot, line, false);
    ReplaceAllFrame(MatchGuid, Constant("GUID"), IsHyphen, line, false);
    ReplaceAllFrame(MatchTimestamp, Constant("TIMESTAMP"), IsHyphen, line, false);
    ReplaceAllFrame(MatchAccessor, KeepLast, IsUpper, line, false);
    ReplaceAllFrame(MatchLongLiteral, Constant("\"...\""), IsQuote, line, false);
    ReplaceAllFrame(MatchLargeNumber, Constant("LARGENUM"), IsDigit, line, false);
  }

  /**
   * The first five replacements never lengthen the text: each placeholder
   * is no longer than any match it replaces. Large numbers are the
   * exception ("12345" becomes the eight characters "LARGENUM").
   */
  lemma ReplacementsNeverLonger(s: string)
    ensures |ReplaceVersions(s)| <= |s| && |ReplaceGuids(s)| <= |s| && |ReplaceTimestamps(s)| <= |s|
    ensures |StripAccessorPrefixes(s, false)| <= |s| && |ReplaceLongLiterals(s)| <= |s|
  {
    MatchersShorten();
    ReplaceAllNeverLonger(MatchVersion, Constant("X.X.X"), s, false);
    ReplaceAllNeverLonger(MatchGuid, Constant("GUID"), s, false);
    ReplaceAllNeverLonger(MatchTimestamp, Constant("TIMESTAMP"), s, false);
    ReplaceAllNeverLonger(MatchAccessor, KeepLast, s, false);
    ReplaceAllNeverLonger(MatchLongLiteral, Constant("\"...\""), s, false);
  }

  /** A version number is replaced wherever it starts, even right after a letter. */
  lemma VersionExample(text: string)
    requires text == "v1.2.3"
    ensures ReplaceVersions(text) == "vX.X.X"
  {
    assert VersionMatch(text) == 0;
    VersionExampleMatch(text[1..]);
    ReplaceVersionsAt(text, 1, 5);
    assert text[6..] == [];
  }

  lemma VersionExampleMatch(rest: string)
    requires rest == "1.2.3"
    ensures VersionMatch(rest) == 5
  {
    assert DigitRun(rest, 0) == 1;
    assert DigitRun(rest, 2) == 1;
    assert DigitRun(rest, 4) == 1;
    assert DotDigits(rest, 1) == 2;
    assert DotDigits(rest, 3) == 2;
    assert DotDigits(rest, 5) == 0;
  }

  /** A GUID between two characters that cannot extend it becomes GUID. */
  lemma GuidBetween(before: char, guid: string, after: char)
    requires !IsHexDigit(before) && |guid| == 36 && StartsWithShape(guid, GuidShape)
    ensures ReplaceGuids([before] + guid + [after]) == [before] + "GUID" + [after]
  {
    var s := [before] + guid + [after];
    assert s[0..] == s && !FitsClass(s[0], GuidClass(0));
    assert forall i :: 0 <= i < 36 ==> s[1..][i] == guid[i];
    assert StartsWithShape(s[1..], GuidShape);
    ReplaceGuidsAt(s, 1, 36);
    assert s[..1] == [before] && s[37..] == [after];
    ReplaceGuidsNone([after]);
  }

  lemma GuidExample(guid: string)
    requires guid == "0123abcd-4567-89ef-ABCD-0123456789ab"
    ensures ReplaceGuids("[" + guid + "]") == "[GUID]"
  {
    GuidExampleShape(guid);
    GuidBetween('[', guid, ']');
  }

  lemma GuidExampleShape(guid: string)
    requires guid == "0123abcd-4567-89ef-ABCD-0123456789ab"
    ensures |guid| == 36 && StartsWithShape(guid, GuidShape)
  {
    GuidExampleFits(guid, 0, 18);
    GuidExampleFits(guid, 18, 36);
  }

  lemma GuidExampleFits(guid: string, lo: nat, hi: nat)
    requires guid == "0123abcd-4567-89ef-ABCD-0123456789ab"
    requires (lo, hi) == (0, 18) || (lo, hi) == (18, 36)
    ensures forall i :: lo <= i < hi ==> FitsClass(guid[i], GuidClass(i))
  {
  }

  /** A timestamp between two characters that cannot extend it becomes TIMESTAMP. */
  lemma TimestampBetween(before: char, stamp: string, after: char)
    requires !IsDigit(before) && |stamp| == 19 && StartsWithShape(stamp, TimestampShape)
    ensures ReplaceTimestamps([before] + stamp + [after]) == [before] + "TIMESTAMP" + [after]
  {
    var s := [before] + stamp + [after];
    assert s[0..] == s && !FitsClass(s[0], TimestampClass(0));
    assert forall i :: 0 <= i < 19 ==> s[1..][i] == stamp[i];
    assert StartsWithShape(s[1..], TimestampShape);
    ReplaceTimestampsAt(s, 1, 19);
    assert s[..1] == [before] && s[20..] == [after];
    ReplaceTimestampsNone([after]);
  }

  lemma TimestampExample(stamp: string)
    requires stamp == "2024-01-02 03:04:05"
    ensures ReplaceTimestamps("(" + stamp + ")") == "(TIMESTAMP)"
  {
    TimestampExampleShape(stamp);
    TimestampBetween('(', stamp, ')');
  }

  lemma TimestampExampleShape(stamp: string)
    requires stamp == "2024-01-02 03:04:05"
    ensures |stamp| == 19 && StartsWithShape(stamp, TimestampShape)
  {
  }

  /**
   * An accessor prefix at the start of the text, followed by an upper-case
   * letter and then no other upper-case letter, is dropped.
   */
  lemma AccessorPrefixStripped(w: string, rest: string)
    requires IsAccessorWord(w) && rest != [] && IsUpper(rest[0])
    requires forall i :: 1 <= i < |rest| ==> !IsUpper(rest[i])
    ensures StripAccessorPrefixes(w + rest, false) == rest
  {
    AccessorAtStart(w, rest);
    StripAccessorPrefixesLeftmost(w + rest, 0, w);
    StripAccessorPrefixesNoUpper(rest[1..], true);
  }

  lemma AccessorAtStart(w: string, rest: string)
    requires IsAccessorWord(w) && rest != [] && IsUpper(rest[0])
    ensures AccessorAt(w + rest, 0, w)
    ensures (w + rest)[..0] + [(w + rest)[|w|]] == [rest[0]] && (w + rest)[|w| + 1..] == rest[1..]
  {
    var s := w + rest;
    assert s[0..|w|] == w && s[|w|] == rest[0];
  }

  /** A text with no upper-case letter has no accessor prefix to strip. */
  lemma StripAccessorPrefixesNoUpper(s: string, afterWord: bool)
    requires forall i :: 0 <= i < |s| ==> !IsUpper(s[i])
    ensures StripAccessorPrefixes(s, afterWord) == s
  {
    AccessorAnchored();
    ReplaceAllFrame(MatchAccessor, KeepLast, IsUpper, s, afterWord);
  }

  /** An accessor prefix is stripped where it starts a word ... */
  lemma AccessorExample(w: string, rest: string)
    requires w == "get" && rest == "Name"
    ensures StripAccessorPrefixes(w + rest, false) == rest
  {
    AccessorPrefixStripped(w, rest);
  }

  /** ... and kept inside one. */
  lemma AccessorInsideWordExample(inside: string)
    requires inside == "forgetName"
    ensures StripAccessorPrefixes(inside, false) == inside
  {
    assert AccessorPrefix(inside) == 0;
    ReplaceAllInsideWord(MatchAccessor, KeepLast, inside[1..]);
    assert inside == [inside[0]] + inside[1..];
  }

  /** A literal of 20 characters between its quotes is shortened; one of 19 is kept. */
  lemma LongLiteralExamples(long: string, short: string)
    requires long == "\"abcdefghijklmnopqrst\"" && short == "\"abcdefghijklmnopqrs\""
    ensures ReplaceLongLiterals(long) == "\"...\""
    ensures ReplaceLongLiterals(short) == short
  {
    assert LongLiteralAt(long, 0, 21);
    ReplaceLongLiteralsLeftmost(long, 0, 21);
    assert long[22..] == [];
    ReplaceLongLiteralsNone(short);
  }

  /** A text of five or more digits is a large number; after a letter it is not. */
  lemma LargeNumberExamples(whole: string, inside: string)
    requires whole == "12345" && inside == "x12345"
    ensures ReplaceLargeNumbers(whole, false) == "LARGENUM"
    ensures ReplaceLargeNumbers(inside, false) == inside
  {
    assert LargeNumberAt(whole, 0, 5);
    ReplaceLargeNumbersLeftmost(whole, 0, 5);
    assert whole[5..] == [];
    assert DigitRun(inside, 0) == 0;
    ReplaceAllInsideWord(MatchLargeNumber, Constant("LARGENUM"), inside[1..]);
    assert inside == [inside[0]] + inside[1..];
  }
}

=== FILE: seqs.dfy ===
/**
 * Generic sequence helpers standing in for the LINQ operators the program
 * uses: `Where` (Filter) and the order-preserving relation between a
 * filtered sequence and its source (IsSubsequence).
 */
module Seqs {

  datatype Option<T> = None | Some(value: T)

  /** The elements of `s` that satisfy `keep`, in their original order (LINQ `Where`). */
  function Filter<T(==)>(s: seq<T>, keep: T -> bool): (r: seq<T>)
    ensures |r| <= |s|
    ensures forall i :: 0 <= i < |r| ==> r[i] in s && keep(r[i])
    ensures forall i :: 0 <= i < |s| && keep(s[i]) ==> s[i] in r
  {
    if s == [] then []
    else (if keep(s[0]) then [s[0]] else []) + Filter(s[1..], keep)
  }

  /** `a` can be obtained from `b` by deleting elements (order is kept). */
  predicate IsSubsequence<T(==)>(a: seq<T>, b: seq<T>)
  {
    a == [] || (b != [] && if a[0] == b[0] then IsSubsequence(a[1..], b[1..]) else IsSubsequence(a, b[1..]))
  }

  /** Filtering never reorders: the kept elements form a subsequence of the input. */
  lemma {:induction false} FilterIsSubsequence<T>(s: seq<T>, keep: T -> bool)
    ensures IsSubsequence(Filter(s, keep), s)
  {
    if s != [] {
      FilterIsSubsequence(s[1..], keep);
      var r := Filter(s, keep);
      if keep(s[0]) {
        assert r == [s[0]] + Filter(s[1..], keep);
        assert r[1..] == Filter(s[1..], keep);
      } else {
        assert r == Filter(s[1..], keep);
        assert r != [] ==> r[0] != s[0];
      }
    }
  }

  /** Filtering distributes over concatenation. */
  lemma {:induction false} FilterAppend<T>(a: seq<T>, b: seq<T>, keep: T -> bool)
    ensures Filter(a + b, keep) == Filter(a, keep) + Filter(b, keep)
  {
    if a == [] {
      assert a + b == b;
    } else {
      assert (a + b)[0] == a[0];
      assert (a + b)[1..] == a[1..] + b;
      FilterAppend(a[1..], b, keep);
    }
  }

  /** A sequence whose elements all satisfy `keep` is its own filter. */
  lemma {:induction false} FilterAllKept<T>(s: seq<T>, keep: T -> bool)
    requires forall i :: 0 <= i < |s| ==> keep(s[i])
    ensures Filter(s, keep) == s
  {
    if s != [] {
      FilterAllKept(s[1..], keep);
    }
  }

  /** A sequence none of whose elements satisfy `keep` filters to nothing. */
  lemma {:induction false} FilterNoneKept<T>(s: seq<T>, keep: T -> bool)
    requires forall i :: 0 <= i < |s| ==> !keep(s[i])
    ensures Filter(s, keep) == []
  {
    if s != [] {
      FilterNoneKept(s[1..], keep);
    }
  }

  /** Every element of a filter has any property all elements of the input have. */
  lemma {:induction false} FilterPreserves<T>(s: seq<T>, keep: T -> bool, p: T -> bool)
    requires forall i :: 0 <= i < |s| ==> p(s[i])
    ensures forall i :: 0 <= i < |Filter(s, keep)| ==> p(Filter(s, keep)[i])
  {
    if s != [] {
      FilterPreserves(s[1..], keep, p);
      var rest := Filter(s[1..], keep);
      if keep(s[0]) {
        assert Filter(s, keep) == [s[0]] + rest;
      } else {
        assert Filter(s, keep) == rest;
      }
    }
  }

  /** Being a subsequence is transitive. */
  lemma {:induction false} SubsequenceTransitive<T>(a: seq<T>, b: seq<T>, c: seq<T>)
    requires IsSubsequence(a, b) && IsSubsequence(b, c)
    ensures IsSubsequence(a, c)
    decreases |c|
  {
    if a != [] && c != [] {
      if b[0] == c[0] {
        if a[0] == b[0] {
          SubsequenceTransitive(a[1..], b[1..], c[1..]);
        } else {
          SubsequenceTransitive(a, b[1..], c[1..]);
        }
      } else {
        SubsequenceTransitive(a, b, c[1..]);
        if a[0] == c[0] {
          SubsequenceDropHead(a, c[1..]);
        }
      }
    }
  }

  lemma {:induction false} SubsequenceDropHead<T>(a: seq<T>, c: seq<T>)
    requires a != [] && IsSubsequence(a, c)
    ensures IsSubsequence(a[1..], c)
    decreases |c|
  {
    if a[0] != c[0] {
      SubsequenceDropHead(a, c[1..]);
    }
    assert IsSubsequence(a[1..], c[1..]);
    if a[1..] != [] && a[1] == c[0] {
      SubsequenceDropHead(a[1..], c[1..]);
      assert a[1..][1..] == a[2..];
    }
  }

  /** A scan that keeps `s[j]` and then yields `s[j + 1..i]` before `rest` yields `s[j..i]` before it. */
  lemma KeptBeforeRest<T>(s: seq<T>, j: nat, i: nat, whole: seq<T>, tail: seq<T>, rest: seq<T>)
    requires j < i <= |s|
    requires whole == [s[j]] + tail && tail == s[j + 1..i] + rest
    ensures whole == s[j..i] + rest
  {
    assert s[j..i] == [s[j]] + s[j + 1..i];
  }

  /** Dropping `j` and then `k` elements drops `j + k`. */
  lemma SuffixOfSuffix<T>(s: seq<T>, j: nat, k: nat)
    requires j + k <= |s|
    ensures s[j..][k..] == s[j + k..]
  {
  }

  /** The first `n` elements after `j` are the slice from `j` to `j + n`. */
  lemma PrefixOfSuffix<T>(s: seq<T>, j: nat, n: nat)
    requires j + n <= |s|
    ensures s[j..][..n] == s[j..j + n]
  {
  }

  /** A result that is `p` before a result `head + rest` is `p + head + rest`. */
  lemma JoinedAfterPrefix<T>(p: seq<T>, whole: seq<T>, suffix: seq<T>, head: seq<T>, rest: seq<T>)
    requires whole == p + suffix && suffix == head + rest
    ensures whole == p + head + rest
  {
  }
}

=== FILE: stages.dfy ===
/**
 * The four compression stages of `Compress` that are plain text shaping:
 * white-space compression, line truncation, path shortening and the
 * line filter that drops non-essential lines.
 */
module Stages {
  import opened Seqs
  import opened Strings

  // ---------------------------------------------------------------------
  // CompressWhitespace
  // ---------------------------------------------------------------------

  /** The characters of `s` that are not white space, in order. */
  function Visible(s: string): string
  {
    if s == [] then [] else (if IsWhiteSpace(s[0]) then [] else [s[0]]) + Visible(s[1..])
  }

  /** The only white space in `s` is single spaces. */
  predicate SingleSpaced(s: string)
  {
    (forall i :: 0 <= i < |s| && IsWhiteSpace(s[i]) ==> s[i] == ' ')
    && (forall i :: 0 <= i < |s| - 1 ==> !(IsWhiteSpace(s[i]) && IsWhiteSpace(s[i + 1])))
  }

  /** `s` neither starts nor ends with white space. */
  predicate Trimmed(s: string)
  {
    s == [] || (!IsWhiteSpace(s[0]) && !IsWhiteSpace(s[|s| - 1]))
  }

  /** `Regex.Replace(s, @"\s+", " ")`: each maximal run of white space becomes one space. */
  function CollapseWhiteSpace(s: string): (r: string)
    ensures SingleSpaced(r)
    ensures |r| <= |s|
    ensures r == [] <==> s == []
    ensures s != [] ==> (IsWhiteSpace(r[0]) <==> IsWhiteSpace(s[0]))
  {
    if s == [] then []
    else if IsWhiteSpace(s[0]) then [' '] + CollapseWhiteSpace(TrimStart(s[1..]))
    else [s[0]] + CollapseWhiteSpace(s[1..])
  }

  /** `s.Trim()`: drops leading and trailing white space. */
  function Trim(s: string): (r: string)
    ensures Trimmed(r)
    ensures |r| <= |s|
    ensures SingleSpaced(s) ==> SingleSpaced(r)
  {
    TrimKeepsSingleSpaced(s);
    TrimEnd(TrimStart(s))
  }

  lemma TrimKeepsSingleSpaced(s: string)
    ensures Trimmed(TrimEnd(TrimStart(s)))
    ensures SingleSpaced(s) ==> SingleSpaced(TrimEnd(TrimStart(s)))
  {
    var t := TrimStart(s);
    var r := TrimEnd(t);
    assert r == [] || r[0] == t[0];
    if SingleSpaced(s) {
      assert t == s[|s| - |t|..|s|];
      SliceSingleSpaced(s, |s| - |t|, |s|);
      SliceSingleSpaced(t, 0, |r|);
    }
  }

  /**
   * `CompressWhitespace` (Compress.cs): collapse white-space runs, then
   * `Trim()`. The result is in white-space normal form; in particular it
   * holds no line break, so a multi-line text becomes a single line.
   */
  function CompressWhitespace(line: string): (r: string)
    ensures SingleSpaced(r) && Trimmed(r)
    ensures |r| <= |line|
    ensures forall i :: 0 <= i < |r| ==> r[i] != '\n'
  {
    var r := Trim(CollapseWhiteSpace(line));
    assert IsWhiteSpace('\n');
    r
  }

  lemma SliceSingleSpaced(s: string, lo: nat, hi: nat)
    requires SingleSpaced(s) && lo <= hi <= |s|
    ensures SingleSpaced(s[lo..hi])
  {
    var t := s[lo..hi];
    forall i | 0 <= i < |t| - 1
      ensures !(IsWhiteSpace(t[i]) && IsWhiteSpace(t[i + 1]))
    {
      assert t[i] == s[lo + i] && t[i + 1] == s[lo + i + 1];
    }
  }

  lemma {:induction false} VisibleAppend(a: string, b: string)
    ensures Visible(a + b) == Visible(a) + Visible(b)
  {
    if a != [] {
      assert (a + b)[1..] == a[1..] + b;
      VisibleAppend(a[1..], b);
    } else {
      assert a + b == b;
    }
  }

  lemma {:induction false} VisibleBlank(s: string)
    requires IsBlank(s)
    ensures Visible(s) == []
  {
    if s != [] {
      VisibleBlank(s[1..]);
    }
  }

  lemma {:induction false} CollapseKeepsVisible(s: string)
    ensures Visible(CollapseWhiteSpace(s)) == Visible(s)
  {
    if s != [] {
      if IsWhiteSpace(s[0]) {
        var rest := s[1..];
        var t := TrimStart(rest);
        CollapseKeepsVisible(t);
        assert rest == rest[..|rest| - |t|] + t;
        VisibleAppend(rest[..|rest| - |t|], t);
        VisibleBlank(rest[..|rest| - |t|]);
        assert Visible([' '] + CollapseWhiteSpace(t)) == Visible(CollapseWhiteSpace(t));
      } else {
        CollapseKeepsVisible(s[1..]);
      }
    }
  }

  /** White-space compression keeps every other character, in order. */
  lemma {:induction false} CompressWhitespaceKeepsVisible(line: string)
    ensures Visible(CompressWhitespace(line)) == Visible(line)
  {
    CollapseKeepsVisible(line);
    TrimKeepsVisible(CollapseWhiteSpace(line));
  }

  /**
   * White-space compression keeps the words: splitting the result at white
   * space gives the same non-empty pieces as splitting the input, so a
   * white-space run becomes a separator and never vanishes.
   */
  lemma CompressWhitespaceKeepsTokens(line: string)
    ensures Tokens(CompressWhitespace(line), WhiteSpaceChars) == Tokens(line, WhiteSpaceChars)
  {
    var c := CollapseWhiteSpace(line);
    CollapseKeepsTokens(line);
    TrimStartKeepsTokens(c);
    TrimEndKeepsTokens(TrimStart(c));
  }

  /** The first piece of a split, and the non-empty pieces after it, survive the collapse. */
  lemma {:induction false} CollapseKeepsTokens(s: string)
    ensures Split(CollapseWhiteSpace(s), WhiteSpaceChars)[0] == Split(s, WhiteSpaceChars)[0]
    ensures Filter(Split(CollapseWhiteSpace(s), WhiteSpaceChars)[1..], IsNonEmpty)
      == Filter(Split(s, WhiteSpaceChars)[1..], IsNonEmpty)
    ensures Tokens(CollapseWhiteSpace(s), WhiteSpaceChars) == Tokens(s, WhiteSpaceChars)
  {
    var r := CollapseWhiteSpace(s);
    if s != [] {
      if IsWhiteSpace(s[0]) {
        var t := TrimStart(s[1..]);
        CollapseKeepsTokens(t);
        TrimStartKeepsTokens(s[1..]);
        assert r[0] == ' ' && r[1..] == CollapseWhiteSpace(t);
      } else {
        CollapseKeepsTokens(s[1..]);
        assert r[0] == s[0] && r[1..] == CollapseWhiteSpace(s[1..]);
      }
    }
  }

  /** Text split around one white-space character splits into the tokens of each side. */
  lemma TokensAround(a: string, c: char, b: string)
    requires IsWhiteSpace(c)
    ensures Tokens(a + [c] + b, WhiteSpaceChars) == Tokens(a, WhiteSpaceChars) + Tokens(b, WhiteSpaceChars)
  {
    SplitConcat(a, c, b, WhiteSpaceChars);
    FilterAppend(Split(a, WhiteSpaceChars), Split(b, WhiteSpaceChars), IsNonEmpty);
  }

  /** Leading white space holds no token. */
  lemma {:induction false} TokensBlankPrefix(w: string, t: string)
    requires IsBlank(w)
    ensures Tokens(w + t, WhiteSpaceChars) == Tokens(t, WhiteSpaceChars)
  {
    if w != [] {
      TokensBlankPrefix(w[1..], t);
      TokensAround([], w[0], w[1..] + t);
      assert [] + [w[0]] + (w[1..] + t) == w + t;
    } else {
      assert w + t == t;
    }
  }

  lemma TrimStartKeepsTokens(s: string)
    ensures Tokens(TrimStart(s), WhiteSpaceChars) == Tokens(s, WhiteSpaceChars)
  {
    var t := TrimStart(s);
    assert s == s[..|s| - |t|] + t;
    TokensBlankPrefix(s[..|s| - |t|], t);
  }

  lemma TrimEndKeepsTokens(s: string)
    ensures Tokens(TrimEnd(s), WhiteSpaceChars) == Tokens(s, WhiteSpaceChars)
  {
    var r := TrimEnd(s);
    var blank := s[|r|..];
    if blank != [] {
      assert s == r + [blank[0]] + blank[1..];
      TokensAround(r, blank[0], blank[1..]);
      TokensBlankPrefix(blank[1..], []);
      assert blank[1..] + [] == blank[1..];
    }
  }

  lemma TrimStartKeepsVisible(s: string)
    ensures Visible(TrimStart(s)) == Visible(s)
  {
    var t := TrimStart(s);
    var blank := s[..|s| - |t|];
    assert s == blank + t;
    VisibleAppend(blank, t);
    VisibleBlank(blank);
  }

  lemma TrimEndKeepsVisible(s: string)
    ensures Visible(TrimEnd(s)) == Visible(s)
  {
    var r := TrimEnd(s);
    var blank := s[|r|..];
    assert s == r + blank;
    VisibleAppend(r, blank);
    VisibleBlank(blank);
  }

  lemma TrimKeepsVisible(s: string)
    ensures Visible(Trim(s)) == Visible(s)
  {
    TrimStartKeepsVisible(s);
    TrimEndKeepsVisible(TrimStart(s));
  }

  lemma {:induction false} CollapseFixesSingleSpaced(s: string)
    requires SingleSpaced(s)
    ensures CollapseWhiteSpace(s) == s
  {
    if s != [] {
      var rest := s[1..];
      assert rest == s[1..|s|];
      SliceSingleSpaced(s, 1, |s|);
      CollapseFixesSingleSpaced(rest);
      assert s == [s[0]] + rest;
      if IsWhiteSpace(s[0]) {
        assert s[0] == ' ';
        assert rest == [] || !IsWhiteSpace(rest[0]);
        assert TrimStart(rest) == rest;
      }
    }
  }

  /** A text already in white-space normal form is left as it is. */
  lemma CompressWhitespaceFixesNormal(line: string)
    requires SingleSpaced(line) && Trimmed(line)
    ensures CompressWhitespace(line) == line
  {
    CollapseFixesSingleSpaced(line);
  }

  /** Compressing white space twice is the same as compressing it once. */
  lemma CompressWhitespaceIdempotent(line: string)
    ensures CompressWhitespace(CompressWhitespace(line)) == CompressWhitespace(line)
  {
    CompressWhitespaceFixesNormal(CompressWhitespace(line));
  }

  // ---------------------------------------------------------------------
  // TruncateLongLines
  // ---------------------------------------------------------------------

  const MaxLineLength: nat := 100

  /** `TruncateLongLines`: a text longer than 100 characters keeps its first 100 and gains "...". */
  function TruncateLongLines(line: string): (r: string)
    ensures |line| <= MaxLineLength ==> r == line
    ensures |line| > MaxLineLength ==> |r| == MaxLineLength + 3 && r == line[..MaxLineLength] + "..."
    ensures |r| <= MaxLineLength + 3
    ensures forall i :: 0 <= i < |r| && r[i] == '\n' ==> '\n' in line
  {
    if |line| > MaxLineLength then line[..MaxLineLength] + "..." else line
  }

  /** A truncated text is not truncated again. */
  lemma TruncateLongLinesIdempotent(line: string)
    ensures TruncateLongLines(TruncateLongLines(line)) == TruncateLongLines(line)
  {
    var r := TruncateLongLines(line);
    if |line| > MaxLineLength {
      assert r[..MaxLineLength] == line[..MaxLineLength];
    }
  }

  // ---------------------------------------------------------------------
  // ShortenPath
  // ---------------------------------------------------------------------

  const PathSeparators: set<char> := {'/', '\\'}

  /** The non-empty `/`- or `\`-separated segments of `path`. */
  function Segments(path: string): (parts: seq<string>)
    ensures forall i :: 0 <= i < |parts| ==> parts[i] != [] && NoneOf(parts[i], PathSeparators)
  {
    Tokens(path, PathSeparators)
  }

  /**
   * `ShortenPath`: with more than two segments, keep the first and the last
   * with "/.../" between them; otherwise return the text as it is.
   */
  function ShortenPath(path: string): (r: string)
    ensures |Segments(path)| <= 2 ==> r == path
    ensures |Segments(path)| > 2 ==> r == Segments(path)[0] + "/.../" + Segments(path)[|Segments(path)| - 1]
    ensures forall i :: 0 <= i < |r| && r[i] == '\n' ==> '\n' in path
  {
    var parts := Segments(path);
    if |parts| <= 2 then path
    else
      var first, last := parts[0], parts[|parts| - 1];
      SegmentCharsInPath(path, first);
      SegmentCharsInPath(path, last);
      NoNewBreak(path, first, last);
      first + "/.../" + last
  }

  lemma SegmentCharsInPath(path: string, part: string)
    requires part in Segments(path)
    ensures forall i :: 0 <= i < |part| ==> part[i] in path
  {
    assert part in Split(path, PathSeparators);
    SplitPiecesInText(path, PathSeparators);
  }

  lemma NoNewBreak(path: string, first: string, last: string)
    requires forall i :: 0 <= i < |first| ==> first[i] in path
    requires forall i :: 0 <= i < |last| ==> last[i] in path
    ensures forall i :: 0 <= i < |first + "/.../" + last| && (first + "/.../" + last)[i] == '\n' ==> '\n' in path
  {
    var r := first + "/.../" + last;
    forall i | 0 <= i < |r| && r[i] == '\n'
      ensures '\n' in path
    {
      if i < |first| {
        assert r[i] == first[i];
      } else if i >= |first| + 5 {
        assert r[i] == last[i - |first| - 5];
      }
    }
  }

  /** A shortened path has exactly three segments: the first, "..." and the last. */
  lemma ShortenedSegments(first: string, last: string)
    requires first != [] && NoneOf(first, PathSeparators)
    requires last != [] && NoneOf(last, PathSeparators)
    ensures Segments(first + "/.../" + last) == [first, "...", last]
  {
    var s := first + "/.../" + last;
    assert s == first + ['/'] + ("..." + ['/'] + last);
    SplitConcat(first, '/', "..." + ['/'] + last, PathSeparators);
    SplitConcat("...", '/', last, PathSeparators);
    SplitNoSeparator(first, PathSeparators);
    SplitNoSeparator("...", PathSeparators);
    SplitNoSeparator(last, PathSeparators);
    assert Split(s, PathSeparators) == [first, "...", last];
    FilterAllKept([first, "...", last], IsNonEmpty);
  }

  /** Shortening a path a second time changes nothing. */
  lemma ShortenPathIdempotent(path: string)
    ensures ShortenPath(ShortenPath(path)) == ShortenPath(path)
  {
    var parts := Segments(path);
    if |parts| > 2 {
      ShortenedSegments(parts[0], parts[|parts| - 1]);
    }
  }

  // ---------------------------------------------------------------------
  // RemoveNonEssentialInformation
  // ---------------------------------------------------------------------

  /** The filter of `RemoveNonEssentialInformation`, one line at a time. */
  predicate IsEssential(line: string)
  {
    !StartsWith(TrimStart(line), "using")
    && !IsBlank(line)
    && !StartsWith(TrimStart(line), "//")
    && !StartsWith(TrimStart(line), "Console.WriteLine")
    && !Contains(line, "Exception")
    && !Contains(line, "catch")
    && !Contains(line, "try")
  }

  function Lines(text: string): (lines: seq<string>)
    ensures |lines| >= 1
    ensures forall i :: 0 <= i < |lines| ==> NoneOf(lines[i], {'\n'})
  {
    Split(text, {'\n'})
  }

  /** `RemoveNonEssentialInformation`: keep the essential lines, joined by line breaks. */
  function RemoveNonEssentialInformation(input: string): string
  {
    Join(Filter(Lines(input), IsEssential), '\n')
  }

  function IsOneLine(line: string): bool
  {
    NoneOf(line, {'\n'})
  }

  lemma KeptLinesHaveNoBreak(input: string)
    ensures forall i :: 0 <= i < |Filter(Lines(input), IsEssential)| ==> NoneOf(Filter(Lines(input), IsEssential)[i], {'\n'})
  {
    FilterPreserves(Lines(input), IsEssential, IsOneLine);
  }

  /**
   * The output lines are the essential input lines: a subsequence of the
   * input lines, each essential, missing none; when no line is essential the
   * output is empty.
   */
  lemma RemoveNonEssentialLines(input: string)
    ensures RemoveNonEssentialInformation(input) == []
            || IsSubsequence(Lines(RemoveNonEssentialInformation(input)), Lines(input))
    ensures RemoveNonEssentialInformation(input) == []
            || (forall i :: 0 <= i < |Lines(RemoveNonEssentialInformation(input))|
                  ==> IsEssential(Lines(RemoveNonEssentialInformation(input))[i]))
    ensures forall i :: 0 <= i < |Lines(input)| && IsEssential(Lines(input)[i])
              ==> Lines(input)[i] in Lines(RemoveNonEssentialInformation(input))
  {
    var lines := Lines(input);
    var kept := Filter(lines, IsEssential);
    var r := Join(kept, '\n');
    assert r == RemoveNonEssentialInformation(input);
    if kept != [] {
      KeptLinesHaveNoBreak(input);
      SplitJoin(kept, '\n');
      assert Lines(r) == kept;
      FilterIsSubsequence(lines, IsEssential);
    }
  }

  /**
   * The output is empty exactly when no line is essential, and otherwise
   * its lines are the essential input lines, in order.
   */
  lemma RemoveNonEssentialKeepsEssential(input: string)
    ensures RemoveNonEssentialInformation(input) == [] <==> Filter(Lines(input), IsEssential) == []
    ensures RemoveNonEssentialInformation(input) != []
            ==> Lines(RemoveNonEssentialInformation(input)) == Filter(Lines(input), IsEssential)
  {
    var kept := Filter(Lines(input), IsEssential);
    if kept != [] {
      KeptLinesHaveNoBreak(input);
      SplitJoin(kept, '\n');
      FirstKeptNotEmpty(input);
      JoinNotEmpty(kept, '\n');
    }
  }

  /** An essential line is never blank, so never empty. */
  lemma FirstKeptNotEmpty(input: string)
    requires Filter(Lines(input), IsEssential) != []
    ensures Filter(Lines(input), IsEssential)[0] != []
  {
    var kept := Filter(Lines(input), IsEssential);
    assert IsEssential(kept[0]);
    EssentialNotEmpty(kept[0]);
  }

  lemma EssentialNotEmpty(line: string)
    requires IsEssential(line)
    ensures line != []
  {
  }

  lemma JoinNotEmpty(parts: seq<string>, sep: char)
    requires parts != [] && parts[0] != []
    ensures Join(parts, sep) != []
  {
  }

  /** Dropping non-essential lines a second time changes nothing. */
  lemma RemoveNonEssentialIdempotent(input: string)
    ensures RemoveNonEssentialInformation(RemoveNonEssentialInformation(input)) == RemoveNonEssentialInformation(input)
  {
    var kept := Filter(Lines(input), IsEssential);
    var r := Join(kept, '\n');
    assert r == RemoveNonEssentialInformation(input);
    if kept == [] {
      assert r == [];
      assert Lines([]) == [[]];
      assert IsBlank([]);
      assert Filter(Lines(r), IsEssential) == [];
    } else {
      KeptLinesHaveNoBreak(input);
      SplitJoin(kept, '\n');
      FilterAllKept(kept, IsEssential);
    }
  }

  /** On a single line the stage keeps the line or empties it. */
  lemma RemoveNonEssentialSingleLine(line: string)
    requires NoneOf(line, {'\n'})
    ensures RemoveNonEssentialInformation(line) == if IsEssential(line) then line else []
  {
    SplitNoSeparator(line, {'\n'});
  }
}

=== FILE: strings.dfy ===
/**
 * The pieces of the .NET string library the program relies on, as explicit
 * functions over `seq<char>`: character classes (`char.IsWhiteSpace`, the
 * regex classes `\d`, `\w`), `string.Split`, `string.Join`, `TrimStart`,
 * `IsNullOrWhiteSpace`, `StartsWith`, `Contains` and integer formatting.
 */
module Strings {
  import opened Seqs

  /** `char.IsWhiteSpace`, which is also the set the regex class `\s` matches. */
  predicate IsWhiteSpace(c: char)
  {
    c == ' ' || ('\t' <= c <= '\r') || c == '\U{85}' || c == '\U{A0}' || c == '\U{1680}'
    || ('\U{2000}' <= c <= '\U{200A}') || c == '\U{2028}' || c == '\U{2029}'
    || c == '\U{202F}' || c == '\U{205F}' || c == '\U{3000}'
  }

  /** The characters `IsWhiteSpace` accepts, as a separator set for `Split`. */
  const WhiteSpaceChars: set<char> := set c: char | IsWhiteSpace(c)

  /** The regex class `\d`, on ASCII digits. */
  predicate IsDigit(c: char)
  {
    '0' <= c <= '9'
  }

  predicate IsUpper(c: char)
  {
    'A' <= c <= 'Z'
  }

  predicate IsHexDigit(c: char)
  {
    IsDigit(c) || ('a' <= c <= 'f') || ('A' <= c <= 'F')
  }

  /** The regex class `\w`, on ASCII letters, digits and the underscore. */
  predicate IsWordChar(c: char)
  {
    ('a' <= c <= 'z') || IsUpper(c) || IsDigit(c) || c == '_'
  }

  /** ASCII lower-casing, the folding used for case-insensitive matching. */
  function ToLower(c: char): (r: char)
    ensures IsWordChar(r) == IsWordChar(c)
  {
    if IsUpper(c) then (c as int + 32) as char else c
  }

  /** `string.IsNullOrWhiteSpace`: every character is white space (true for ""). */
  predicate IsBlank(s: string)
  {
    forall i :: 0 <= i < |s| ==> IsWhiteSpace(s[i])
  }

  /** No character of `s` is one of `seps`. */
  predicate NoneOf(s: string, seps: set<char>)
  {
    forall i :: 0 <= i < |s| ==> s[i] !in seps
  }

  /** Two texts without any of `seps` joined still have none. */
  lemma NoneOfAppend(a: string, b: string, seps: set<char>)
    requires NoneOf(a, seps) && NoneOf(b, seps)
    ensures NoneOf(a + b, seps)
  {
  }

  /** `s.StartsWith(prefix)`, compared character by character. */
  predicate StartsWith(s: string, prefix: string)
  {
    |prefix| <= |s| && s[..|prefix|] == prefix
  }

  /** `s.Contains(part)`, an ordinal substring test. */
  predicate Contains(s: string, part: string)
  {
    StartsWith(s, part) || (s != [] && Contains(s[1..], part))
  }

  /**
   * `s.Split(seps)` without options: the pieces between separators, empty
   * pieces included, so there is always at least one piece.
   */
  function Split(s: string, seps: set<char>): (parts: seq<string>)
    ensures |parts| >= 1
    ensures forall i :: 0 <= i < |parts| ==> NoneOf(parts[i], seps)
  {
    if s == [] then [[]]
    else
      var rest := Split(s[1..], seps);
      if s[0] in seps then [[]] + rest
      else [[s[0]] + rest[0]] + rest[1..]
  }

  function IsNonEmpty(p: string): bool
  {
    p != []
  }

  /** `s.Split(seps, StringSplitOptions.RemoveEmptyEntries)`. */
  function Tokens(s: string, seps: set<char>): (tokens: seq<string>)
    ensures forall i :: 0 <= i < |tokens| ==> tokens[i] != [] && NoneOf(tokens[i], seps)
  {
    Filter(Split(s, seps), IsNonEmpty)
  }

  /** `string.Join(sep, parts)`. */
  function Join(parts: seq<string>, sep: char): string
  {
    if |parts| == 0 then []
    else if |parts| == 1 then parts[0]
    else parts[0] + [sep] + Join(parts[1..], sep)
  }

  /** A string without separators is a single piece. */
  lemma {:induction false} SplitNoSeparator(s: string, seps: set<char>)
    requires NoneOf(s, seps)
    ensures Split(s, seps) == [s]
  {
    if s != [] {
      SplitNoSeparator(s[1..], seps);
      assert [s[0]] + s[1..] == s;
    }
  }

  /** Splitting at a separator splits the two sides independently. */
  lemma {:induction false} SplitConcat(a: string, c: char, b: string, seps: set<char>)
    requires c in seps
    ensures Split(a + [c] + b, seps) == Split(a, seps) + Split(b, seps)
  {
    if a == [] {
      assert a + [c] + b == [c] + b;
      assert ([c] + b)[1..] == b;
    } else {
      var s := a + [c] + b;
      assert s[0] == a[0];
      assert s[1..] == a[1..] + [c] + b;
      SplitConcat(a[1..], c, b, seps);
    }
  }

  /** Joining the pieces of a split restores the text. */
  lemma {:induction false} JoinSplit(s: string, sep: char)
    ensures Join(Split(s, {sep}), sep) == s
  {
    if s != [] {
      JoinSplit(s[1..], sep);
      var rest := Split(s[1..], {sep});
      if s[0] != sep {
        var parts := Split(s, {sep});
        assert parts == [[s[0]] + rest[0]] + rest[1..];
        if |rest| > 1 {
          assert parts[1..] == rest[1..];
          assert Join(rest, sep) == rest[0] + [sep] + Join(rest[1..], sep);
        }
      }
    }
  }

  /** Splitting a joined list of separator-free pieces gives the pieces back. */
  lemma {:induction false} SplitJoin(parts: seq<string>, sep: char)
    requires |parts| >= 1
    requires forall i :: 0 <= i < |parts| ==> NoneOf(parts[i], {sep})
    ensures Split(Join(parts, sep), {sep}) == parts
  {
    if |parts| == 1 {
      SplitNoSeparator(parts[0], {sep});
    } else {
      SplitJoin(parts[1..], sep);
      SplitConcat(parts[0], sep, Join(parts[1..], sep), {sep});
      SplitNoSeparator(parts[0], {sep});
    }
  }

  /** Every character of a piece of a split occurs in the split text. */
  lemma {:induction false} SplitPiecesInText(s: string, seps: set<char>)
    ensures forall p, i :: p in Split(s, seps) && 0 <= i < |p| ==> p[i] in s
  {
    if s != [] {
      SplitPiecesInText(s[1..], seps);
    }
  }

  /** `s.TrimStart()`: drops the leading white space. */
  function TrimStart(s: string): (r: string)
    ensures |r| <= |s| && r == s[|s| - |r|..]
    ensures r == [] || !IsWhiteSpace(r[0])
    ensures forall i :: 0 <= i < |s| - |r| ==> IsWhiteSpace(s[i])
  {
    if s != [] && IsWhiteSpace(s[0]) then TrimStart(s[1..]) else s
  }

  /** `s.TrimEnd()`: drops the trailing white space. */
  function TrimEnd(s: string): (r: string)
    ensures |r| <= |s| && r == s[..|r|]
    ensures r == [] || !IsWhiteSpace(r[|r| - 1])
    ensures forall i :: |r| <= i < |s| ==> IsWhiteSpace(s[i])
  {
    if s != [] && IsWhiteSpace(s[|s| - 1]) then TrimEnd(s[..|s| - 1]) else s
  }

  function DigitChar(d: nat): (c: char)
    requires d < 10
    ensures IsDigit(c)
  {
    ('0' as int + d) as char
  }

  /** The decimal text of a non-negative integer, as string interpolation writes it. */
  function NatToString(n: nat): (r: string)
    ensures |r| >= 1
    ensures forall i :: 0 <= i < |r| ==> IsDigit(r[i])
  {
    if n < 10 then [DigitChar(n)] else NatToString(n / 10) + [DigitChar(n % 10)]
  }
}

=== FILE: summarize.dfy ===
/**
 * `SummarizeRepeatedPatterns` (Compress.cs): collapses runs of equal
 * adjacent lines. The method follows the source's index loop with its
 * counter and output list; `SummarizeLines` is the run-by-run description
 * of the same output that the lemmas reason about.
 *
 * As written, the code puts the marker BEFORE the repeated line (the marker
 * is emitted when the run ends, then the line), and a run that reaches the
 * end of the text yields only the marker, not the line.
 */
module Summarize {
  import opened Strings

  /** The marker line for a run of `count` equal lines. */
  function Marker(count: nat): string
  {
    "[Previous line repeated " + NatToString(count) + " times]"
  }

  /** Where the run of lines equal to `lines[j]` that ends at `j` starts. */
  function RunStart(lines: seq<string>, j: nat): (r: nat)
    requires j < |lines|
    ensures r <= j
  {
    if j == 0 || lines[j - 1] != lines[j] then j else RunStart(lines, j - 1)
  }

  /** The number of equal lines the sequence ends with (its last run). */
  function TrailingRun(lines: seq<string>): (k: nat)
    requires |lines| >= 1
    ensures 1 <= k <= |lines|
  {
    |lines| - RunStart(lines, |lines| - 1)
  }

  /** What the loop emits for a run of `count` copies of `line` followed by a different line. */
  function ClosedRun(line: string, count: nat): seq<string>
    requires count >= 1
  {
    (if count > 1 then [Marker(count)] else []) + [line]
  }

  /** The output for `lines` when a different line follows them: every run closed. */
  function SummarizeClosed(lines: seq<string>): seq<string>
  {
    if lines == [] then []
    else
      var k := TrailingRun(lines);
      SummarizeClosed(lines[..|lines| - k]) + ClosedRun(lines[|lines| - 1], k)
  }

  /** The output lines of `SummarizeRepeatedPatterns`: the last run emits its marker only, or its line when single. */
  function SummarizeLines(lines: seq<string>): seq<string>
    requires |lines| >= 1
  {
    var k := TrailingRun(lines);
    SummarizeClosed(lines[..|lines| - k]) + (if k > 1 then [Marker(k)] else [lines[|lines| - 1]])
  }

  /** The text `SummarizeRepeatedPatterns` returns for `content`. */
  function Summarized(content: string): string
  {
    Join(SummarizeLines(Split(content, {'\n'})), '\n')
  }

  /** A run of exactly `k` equal lines at the end is what TrailingRun measures. */
  lemma TrailingRunIs(lines: seq<string>, k: nat)
    requires 1 <= k <= |lines|
    requires forall i :: |lines| - k <= i < |lines| ==> lines[i] == lines[|lines| - 1]
    requires k < |lines| ==> lines[|lines| - k - 1] != lines[|lines| - 1]
    ensures TrailingRun(lines) == k
  {
    RunStartIs(lines, |lines| - 1, |lines| - k);
  }

  lemma {:induction false} RunStartIs(lines: seq<string>, j: nat, r: nat)
    requires r <= j < |lines|
    requires forall i :: r <= i <= j ==> lines[i] == lines[j]
    requires r > 0 ==> lines[r - 1] != lines[j]
    ensures RunStart(lines, j) == r
    decreases j
  {
    if j > r {
      assert lines[j - 1] == lines[j];
      RunStartIs(lines, j - 1, r);
    }
  }

  /** Closing the run that ends just before index `i` appends its ClosedRun. */
  lemma CloseRun(lines: seq<string>, i: nat, k: nat)
    requires RunEndsAt(lines, i, k)
    ensures SummarizeClosed(lines[..i]) == SummarizeClosed(lines[..i - k]) + ClosedRun(lines[i - 1], k)
  {
    var closed := lines[..i];
    TrailingRunIs(closed, k);
    assert closed[..i - k] == lines[..i - k];
  }

  /** The last run of the text is the one the loop's counter holds when it finishes. */
  lemma FinalRun(lines: seq<string>, k: nat)
    requires RunEndsAt(lines, |lines|, k)
    ensures SummarizeLines(lines)
      == SummarizeClosed(lines[..|lines| - k]) + (if k > 1 then [Marker(k)] else [lines[|lines| - 1]])
  {
    TrailingRunIs(lines, k);
  }

  /** The last `k` lines before index `i` are one whole run of equal lines. */
  predicate RunEndsAt(lines: seq<string>, i: nat, k: nat)
  {
    1 <= k <= i <= |lines|
    && (forall j :: i - k <= j < i ==> lines[j] == lines[i - 1])
    && (i - k > 0 ==> lines[i - k - 1] != lines[i - 1])
  }

  lemma ExtendRun(lines: seq<string>, i: nat, k: nat)
    requires RunEndsAt(lines, i, k) && i < |lines| && lines[i] == lines[i - 1]
    ensures RunEndsAt(lines, i + 1, k + 1)
  {
  }

  lemma NewRun(lines: seq<string>, i: nat)
    requires 0 < i < |lines| && lines[i] != lines[i - 1]
    ensures RunEndsAt(lines, i + 1, 1)
  {
  }

  /** Writing the marker (for a real run) and then the line is writing the closed run. */
  lemma AppendClosedRun(acc: seq<string>, line: string, count: nat)
    requires count >= 1
    ensures (if count > 1 then acc + [Marker(count)] + [line] else acc + [line]) == acc + ClosedRun(line, count)
  {
  }

  /**
   * At a line different from the one before it, the loop closes the current
   * run (its marker when it repeats, then its line) and starts a new run.
   */
  lemma CloseAndStartRun(lines: seq<string>, i: nat, k: nat, acc: seq<string>)
    requires RunEndsAt(lines, i, k) && i < |lines| && lines[i] != lines[i - 1]
    requires acc == SummarizeClosed(lines[..i - k])
    ensures (if k > 1 then acc + [Marker(k)] + [lines[i - 1]] else acc + [lines[i - 1]]) == SummarizeClosed(lines[..i])
    ensures RunEndsAt(lines, i + 1, 1)
  {
    CloseRun(lines, i, k);
    AppendClosedRun(acc, lines[i - 1], k);
    NewRun(lines, i);
  }

  /** `SummarizeRepeatedPatterns`: the source's loop over adjacent line pairs. */
  method SummarizeRepeatedPatterns(content: string) returns (r: string)
    ensures r == Summarized(content)
  {
    var lines := Split(content, {'\n'});
    var summarized: seq<string> := [];
    var repeatCount := 1;
    ghost var start := 0;
    for i := 1 to |lines|
      invariant RunEndsAt(lines, i, repeatCount) && start == i - repeatCount
      invariant summarized == SummarizeClosed(lines[..start])
    {
      if lines[i] == lines[i - 1] {
        ExtendRun(lines, i, repeatCount);
        repeatCount := repeatCount + 1;
      } else {
        CloseAndStartRun(lines, i, repeatCount, summarized);
        if repeatCount > 1 {
          summarized := summarized + [Marker(repeatCount)];
          repeatCount := 1;
        }
        summarized := summarized + [lines[i - 1]];
        start := i;
      }
    }
    FinalRun(lines, repeatCount);
    if repeatCount > 1 {
      summarized := summarized + [Marker(repeatCount)];
    } else {
      summarized := summarized + [lines[|lines| - 1]];
    }
    r := Join(summarized, '\n');
  }

  predicate NoAdjacentRepeats(lines: seq<string>)
  {
    forall i, j :: 0 <= i < |lines| && j == i + 1 && j < |lines| ==> lines[i] != lines[j]
  }

  lemma {:induction false} SummarizeClosedNoRepeats(lines: seq<string>)
    requires NoAdjacentRepeats(lines)
    ensures SummarizeClosed(lines) == lines
  {
    if lines != [] {
      LastRunIsSingle(lines);
      NoRepeatsPrefix(lines);
      var init := lines[..|lines| - 1];
      SummarizeClosedNoRepeats(init);
      SingleRunUnfolds(lines);
      assert init + [lines[|lines| - 1]] == lines;
    }
  }

  /** A last run of one line closes as that line alone. */
  lemma SingleRunUnfolds(lines: seq<string>)
    requires lines != [] && TrailingRun(lines) == 1
    ensures SummarizeClosed(lines) == SummarizeClosed(lines[..|lines| - 1]) + [lines[|lines| - 1]]
  {
    var n := |lines|;
    assert SummarizeClosed(lines) == SummarizeClosed(lines[..n - 1]) + ClosedRun(lines[n - 1], 1);
    assert ClosedRun(lines[n - 1], 1) == [lines[n - 1]];
  }

  lemma LastRunIsSingle(lines: seq<string>)
    requires lines != [] && NoAdjacentRepeats(lines)
    ensures TrailingRun(lines) == 1
  {
    var n := |lines|;
    if n > 1 {
      assert lines[n - 2] != lines[n - 1];
    }
    TrailingRunIs(lines, 1);
  }

  lemma NoRepeatsPrefix(lines: seq<string>)
    requires lines != [] && NoAdjacentRepeats(lines)
    ensures NoAdjacentRepeats(lines[..|lines| - 1])
  {
    var init := lines[..|lines| - 1];
    forall i, j | 0 <= i && j == i + 1 && j < |init|
      ensures init[i] != init[j]
    {
      assert init[i] == lines[i] && init[j] == lines[j];
    }
  }

  /** Without two equal adjacent lines the text comes back unchanged. */
  lemma SummarizedNoRepeats(content: string)
    requires NoAdjacentRepeats(Split(content, {'\n'}))
    ensures Summarized(content) == content
  {
    var lines := Split(content, {'\n'});
    var n := |lines|;
    var init := lines[..n - 1];
    LastRunIsSingle(lines);
    NoRepeatsPrefix(lines);
    SummarizeClosedNoRepeats(init);
    assert SummarizeLines(lines) == init + [lines[n - 1]];
    assert init + [lines[n - 1]] == lines;
    JoinSplit(content, '\n');
  }

  lemma {:induction false} SummarizeClosedLength(lines: seq<string>)
    ensures |SummarizeClosed(lines)| <= |lines|
  {
    if lines != [] {
      var k := TrailingRun(lines);
      SummarizeClosedLength(lines[..|lines| - k]);
    }
  }

  /** The summary never has more lines than the input. */
  lemma SummarizeLinesNeverLonger(lines: seq<string>)
    requires |lines| >= 1
    ensures |SummarizeLines(lines)| <= |lines|
  {
    var k := TrailingRun(lines);
    SummarizeClosedLength(lines[..|lines| - k]);
  }

  /** A text ending in a run of k >= 2 equal lines ends with the marker for k, not with the line. */
  lemma SummarizeTrailingRun(lines: seq<string>, k: nat)
    requires 2 <= k <= |lines|
    requires forall i :: |lines| - k <= i < |lines| ==> lines[i] == lines[|lines| - 1]
    requires k < |lines| ==> lines[|lines| - k - 1] != lines[|lines| - 1]
    ensures SummarizeLines(lines)[|SummarizeLines(lines)| - 1] == Marker(k)
  {
    TrailingRunIs(lines, k);
  }

  /** A single line is its own summary. */
  lemma SummarizedSingleLine(line: string)
    requires NoneOf(line, {'\n'})
    ensures Summarized(line) == line
  {
    SplitNoSeparator(line, {'\n'});
  }

  /** The worked example on lines: the marker comes first, then the repeated line, then the next line. */
  lemma SummarizeLinesExample()
    ensures SummarizeLines(["aaa", "aaa", "aaa", "bbb"]) == [Marker(3), "aaa", "bbb"]
  {
    var lines := ["aaa", "aaa", "aaa", "bbb"];
    TrailingRunIs(lines, 1);
    var run := lines[..3];
    assert run == ["aaa", "aaa", "aaa"];
    TrailingRunIs(run, 3);
    assert run[..0] == [];
    assert SummarizeClosed(run) == ClosedRun("aaa", 3);
  }

  lemma ExampleLines(text: string)
    requires text == "aaa\naaa\naaa\nbbb"
    ensures Split(text, {'\n'}) == ["aaa", "aaa", "aaa", "bbb"]
  {
    var lines := ["aaa", "aaa", "aaa", "bbb"];
    SplitJoin(lines, '\n');
    assert Join(lines, '\n') == "aaa\naaa\naaa\nbbb";
  }

  /** The worked example on text. */
  lemma SummarizedExample(text: string)
    requires text == "aaa\naaa\naaa\nbbb"
    ensures Summarized(text) == "[Previous line repeated 3 times]\naaa\nbbb"
  {
    ExampleLines(text);
    SummarizeLinesExample();
    assert NatToString(3) == "3";
    assert Marker(3) == "[Previous line repeated 3 times]";
    assert Join(["aaa", "bbb"], '\n') == "aaa\nbbb";
    assert Join([Marker(3), "aaa", "bbb"], '\n') == Marker(3) + "\n" + "aaa\nbbb";
  }

  /** A text that ends in a repeated line loses that line: only the marker survives. */
  lemma SummarizedTrailingPair(x: string, y: string)
    requires NoneOf(x, {'\n'}) && NoneOf(y, {'\n'})
    ensures Summarized(x + "\n" + x) == Summarized(y + "\n" + y) == Marker(2)
  {
    SplitJoin([x, x], '\n');
    SplitJoin([y, y], '\n');
    TrailingRunIs([x, x], 2);
    TrailingRunIs([y, y], 2);
  }
}
